=== FILE: README.md ===
# Mwanzo course platform: a Dafny model of the back end's core

Mwanzo is a course-sales back end. Students register and log in. They enrol in
published courses, and a free course is active at once, while a paid one waits
for an M-Pesa payment pushed through PayHero. PayHero's callback activates the
enrolment. Students then watch videos, whose progress rolls up into the
enrolment, and take quizzes with time and attempt limits. Uploaded videos are
stored in S3, transcoded by AWS MediaConvert, whose completion arrives as an SNS
webhook, and streamed through CloudFront.

The model covers:
- the entities with their builder defaults and state changes: users, courses,
  categories, sections, quizzes, quiz attempts, enrolments, payments, videos and
  video progress;
- the services that move them: authentication, enrolment, payment, quiz, video,
  S3 keys and names, CloudFront URLs and MediaConvert jobs;
- the controllers' own logic: the payment endpoints, the client-address pick at
  login, the MediaConvert webhook and the global exception handler.

How the model is built:
- **Tables.** Every repository is a `seq` of rows in one `Db` value
  (`database.dfy`). A row's id is its position. Saving a new entity appends it,
  which stands in for UUID generation.
- **Finders.** A Spring Data finder that returns an `Optional` becomes
  `Tables.FindOne`. It gives no match, one match, or many matches, and many
  matches is the `IncorrectResultSizeDataAccessException` that Spring throws.
- **Outcomes.** A service call is a function from the database to an `Outcome`,
  which holds the new database and a `Result`. An exception is an `Err`
  carrying an `Exception` value, whose kind decides the HTTP status
  (`ErrorHandling.Handle`).
- **Transactions.** A service function models the method's body: the writes
  made before an exception are still in its outcome. `Database.Committed`
  applies the `@Transactional` boundary, which discards every write when the
  method ends in an unchecked exception. It is applied where a controller
  calls a transactional service (payment callbacks, MediaConvert
  notifications). For login and payment initiation, the rollback discards a
  failure record the code evidently means to keep (see Findings), so the
  controllers use the corrected bodies.
- **Environment as parameters.** Clocks, UUIDs, the password encoder, the JSON
  parser, the PayHero HTTP call and the MediaConvert submission are all
  parameters. Time is whole seconds, and money is integer cents.

## Model

| member | source | states |
|---|---|---|
| Users.ParseRole | src/main/java/com/mdaudev/mwanzo/mwanzocourseplatformbackend/domain/user/UserRole.java:20-45 | a role name parses exactly when it is one of the five enum constants; otherwise IllegalArgument, as `valueOf` throws |
| Users.IsAccountNonLocked | src/main/java/com/mdaudev/mwanzo/mwanzocourseplatformbackend/domain/user/User.java:245 | non-locked exactly when the lock flag is clear |
| Users.IsEnabled | src/main/java/com/mdaudev/mwanzo/mwanzocourseplatformbackend/domain/user/User.java:266 | enabled exactly when the account is active |
| Users.RecordSuccessfulLogin | src/main/java/com/mdaudev/mwanzo/mwanzocourseplatformbackend/domain/user/User.java:280-289 | resets the failure counter and the lock, stamps time and address, clears lockedAt only if the account was locked, and changes no other field |
| Users.RecordFailedLogin | src/main/java/com/mdaudev/mwanzo/mwanzocourseplatformbackend/domain/user/User.java:295-302 | adds one failure; at five or more the account is locked with lockedAt = now, and below five the lock state is unchanged; no other field changes |
| Users.VerifyEmail | src/main/java/com/mdaudev/mwanzo/mwanzocourseplatformbackend/domain/user/User.java:308-312 | marks the email verified, clears token and expiry, and changes nothing else |
| Users.FiveFailuresLock | src/main/java/com/mdaudev/mwanzo/mwanzocourseplatformbackend/domain/user/User.java:295-302 | starting from a clean account, n failures leave a counter of n, and the account is locked exactly when n >= 5 |
| AuthService.NewUser | src/main/java/com/mdaudev/mwanzo/mwanzocourseplatformbackend/service/AuthenticationService.java:78-88 | a registered user is active, unlocked, unverified, with zero failures and the given email, hash and role |
| AuthService.Register | src/main/java/com/mdaudev/mwanzo/mwanzocourseplatformbackend/service/AuthenticationService.java:67-100 | fails with "Email already registered" when the email is taken ignoring case; otherwise an unparsable role fails with the IllegalArgument that `Role.valueOf` throws; otherwise appends exactly one user with the lower-cased email and the encoded password |
| AuthService.RegisterTakesEmail | src/main/java/com/mdaudev/mwanzo/mwanzocourseplatformbackend/service/AuthenticationService.java:72-75 | after a registration, any address equal to it ignoring case is rejected and nothing changes |
| AuthService.Login | src/main/java/com/mdaudev/mwanzo/mwanzocourseplatformbackend/service/AuthenticationService.java:111-155 | no such email gives invalid credentials; locked and inactive accounts are refused before the password is checked; a wrong password records a failure; a right one records the login; success holds exactly when the user is unique, unlocked, active and the password matches |
| AuthService.LockedOrInactiveIgnoresPassword | src/main/java/com/mdaudev/mwanzo/mwanzocourseplatformbackend/service/AuthenticationService.java:121-131 | for a locked or inactive account the answer does not depend on the password or the encoder, and the database is untouched |
| AuthService.MixedCaseEmailCannotLogin | src/main/java/com/mdaudev/mwanzo/mwanzocourseplatformbackend/service/AuthenticationService.java:81-116 | a user who registered with upper-case letters in the email cannot log in with the email as typed, because registration stores it lower-cased and login looks it up exactly |
| AuthService.LoginCommitted | src/main/java/com/mdaudev/mwanzo/mwanzocourseplatformbackend/service/AuthenticationService.java:111-155 | the login as committed: same answer as Login, but a failed login leaves the database as it was, because the transaction rolls back |
| AuthService.WrongPasswordForgotten | src/main/java/com/mdaudev/mwanzo/mwanzocourseplatformbackend/service/AuthenticationService.java:134-142 | under rollback, a wrong password leaves the stored user unchanged, failure counter included |
| AuthService.LoginKeepingFailures | src/main/java/com/mdaudev/mwanzo/mwanzocourseplatformbackend/service/AuthenticationService.java:134-142 | corrected login: a wrong password's failure record survives the error, while other errors still leave the database unchanged |
| AuthService.FifthWrongPasswordLocks | src/main/java/com/mdaudev/mwanzo/mwanzocourseplatformbackend/domain/user/User.java:295-302 | with the corrected login, the fifth wrong password locks the account, and the right password is then refused as locked |
| AuthController.ChosenAddress | src/main/java/com/mdaudev/mwanzo/mwanzocourseplatformbackend/controller/AuthController.java:135-143 | X-Forwarded-For is used unless it is absent, empty or "unknown", then X-Real-IP under the same test, then the remote address |
| AuthController.ClientIpAsWritten | src/main/java/com/mdaudev/mwanzo/mwanzocourseplatformbackend/controller/AuthController.java:134-151 | as written: an address with a comma becomes its first split field trimmed, and the call fails exactly when the split yields no field |
| AuthController.CommaOnlyHeaderFails | src/main/java/com/mdaudev/mwanzo/mwanzocourseplatformbackend/controller/AuthController.java:146-148 | the header "," makes the as-written version fail |
| AuthController.ClientIp | src/main/java/com/mdaudev/mwanzo/mwanzocourseplatformbackend/controller/AuthController.java:146-148 | corrected: an address with a comma becomes the trimmed text before its first comma, and it never fails |
| AuthController.ClientIpAgrees | src/main/java/com/mdaudev/mwanzo/mwanzocourseplatformbackend/controller/AuthController.java:134-151 | wherever the as-written version succeeds, it gives the corrected version's answer |
| AuthController.Login | src/main/java/com/mdaudev/mwanzo/mwanzocourseplatformbackend/controller/AuthController.java:81-98 | the endpoint logs in with the corrected client address (see Findings), keeping a wrong password's failure record; wherever the source's extraction succeeds the login is the same with its address, and a successful login records the address on the user |
| Categories.Create | src/main/java/com/mdaudev/mwanzo/mwanzocourseplatformbackend/domain/course/Category.java:84-85 | a new category has no courses and no slug |
| Categories.GenerateSlug | src/main/java/com/mdaudev/mwanzo/mwanzocourseplatformbackend/domain/course/Category.java:116-124 | an existing slug or a missing name leaves the category alone; otherwise the slug is the name run through the shared slug pipeline, so it holds only [a-z0-9-] with no doubled hyphen |
| Categories.GeneratedSlugFollowsName | src/main/java/com/mdaudev/mwanzo/mwanzocourseplatformbackend/domain/course/Category.java:116-124 | the generated slug keeps the name's letters and digits, lower-cased and in order, and a name that already is a slug is kept as it is |
| Categories.GenerateSlugIdempotent | src/main/java/com/mdaudev/mwanzo/mwanzocourseplatformbackend/domain/course/Category.java:116-124 | generating the slug twice is the same as once |
| Categories.IncrementCourseCount | src/main/java/com/mdaudev/mwanzo/mwanzocourseplatformbackend/domain/course/Category.java:130-132 | adds one course and changes nothing else |
| Categories.DecrementCourseCount | src/main/java/com/mdaudev/mwanzo/mwanzocourseplatformbackend/domain/course/Category.java:137-141 | removes one course only when positive, so the count never becomes negative |
| Categories.DecrementUndoesIncrement | src/main/java/com/mdaudev/mwanzo/mwanzocourseplatformbackend/domain/course/Category.java:130-141 | decrement undoes increment |
| Sections.Create | src/main/java/com/mdaudev/mwanzo/mwanzocourseplatformbackend/domain/course/Section.java:83-92 | a new section has no videos and no minutes |
| Sections.AddVideo | src/main/java/com/mdaudev/mwanzo/mwanzocourseplatformbackend/domain/course/Section.java:115-118 | one more video, and the minutes grow by the given duration (null adds nothing) |
| Sections.RemoveVideo | src/main/java/com/mdaudev/mwanzo/mwanzocourseplatformbackend/domain/course/Section.java:126-130 | one fewer video and the removed minutes subtracted, each clamped to zero when it would go negative |
| Sections.RemoveUndoesAdd | src/main/java/com/mdaudev/mwanzo/mwanzocourseplatformbackend/domain/course/Section.java:115-130 | removing a video undoes adding it, on a section with non-negative counts |
| Quizzes.Create | src/main/java/com/mdaudev/mwanzo/mwanzocourseplatformbackend/domain/course/Quiz.java:49-65 | a new quiz has pass mark 70, no questions, and is required and published |
| Quizzes.AddQuestion | src/main/java/com/mdaudev/mwanzo/mwanzocourseplatformbackend/domain/course/Quiz.java:87-89 | one more question and nothing else |
| Quizzes.RemoveQuestion | src/main/java/com/mdaudev/mwanzo/mwanzocourseplatformbackend/domain/course/Quiz.java:91-93 | one fewer question, clamped to zero when it would go negative |
| Quizzes.RemoveUndoesAdd | src/main/java/com/mdaudev/mwanzo/mwanzocourseplatformbackend/domain/course/Quiz.java:87-93 | removing a question undoes adding one |
| Quizzes.HasTimeLimit | src/main/java/com/mdaudev/mwanzo/mwanzocourseplatformbackend/domain/course/Quiz.java:95-97 | a time limit exists exactly when it is set and positive |
| Quizzes.HasAttemptLimit | src/main/java/com/mdaudev/mwanzo/mwanzocourseplatformbackend/domain/course/Quiz.java:99-101 | an attempt limit exists exactly when it is set and positive |
| Slugs.Slugify | src/main/java/com/mdaudev/mwanzo/mwanzocourseplatformbackend/domain/course/Course.java:274-279 | the lower-case, trim and three regex replacements give only [a-z0-9-] with no doubled hyphen |
| Slugs.SlugKeepsAlphanumerics | src/main/java/com/mdaudev/mwanzo/mwanzocourseplatformbackend/domain/course/Course.java:274-279 | the slug's letters and digits are exactly those of the lower-cased text, in order; the pipeline only rewrites or removes other characters |
| Slugs.SlugifyFixesSlugs | src/main/java/com/mdaudev/mwanzo/mwanzocourseplatformbackend/domain/course/Course.java:274-279 | a text of [a-z0-9-] without a doubled hyphen is its own slug |
| Slugs.SlugShorterThanText | src/main/java/com/mdaudev/mwanzo/mwanzocourseplatformbackend/domain/course/Course.java:274-279 | a text with a character that is neither trimmed nor, once lower-cased, a slug character gets a slug shorter than itself |
| Courses.Create | src/main/java/com/mdaudev/mwanzo/mwanzocourseplatformbackend/domain/course/Course.java:173-228 | a new course is an unpublished draft with no enrolments, no rating and no slug |
| Courses.IsFree | src/main/java/com/mdaudev/mwanzo/mwanzocourseplatformbackend/domain/course/Course.java:287-289 | free exactly when the price is zero |
| Courses.HasDiscount | src/main/java/com/mdaudev/mwanzo/mwanzocourseplatformbackend/domain/course/Course.java:294-296 | discounted exactly when an original price exists and exceeds the price |
| Courses.DiscountPercentage | src/main/java/com/mdaudev/mwanzo/mwanzocourseplatformbackend/domain/course/Course.java:302-310 | 0 without a discount; otherwise the saving as a percentage of the original price, rounded half up, within 0..100 |
| Courses.IncrementEnrollmentCount | src/main/java/com/mdaudev/mwanzo/mwanzocourseplatformbackend/domain/course/Course.java:316-318 | one more enrolment and nothing else |
| Courses.UpdateRating | src/main/java/com/mdaudev/mwanzo/mwanzocourseplatformbackend/domain/course/Course.java:323-335 | one more rating; the new average is the running mean rounded half up to two places (within half a unit, a tie going away from zero), and the first rating is taken as is |
| Courses.UpdateRatingStaysInRange | src/main/java/com/mdaudev/mwanzo/mwanzocourseplatformbackend/domain/course/Course.java:323-335 | an average and a rating within 0.00..5.00 give an average within 0.00..5.00 |
| Courses.Publish | src/main/java/com/mdaudev/mwanzo/mwanzocourseplatformbackend/domain/course/Course.java:340-345 | published, status PUBLISHED, publishedAt = now, nothing else changed |
| Courses.Unpublish | src/main/java/com/mdaudev/mwanzo/mwanzocourseplatformbackend/domain/course/Course.java:349-352 | unpublished and back to DRAFT, nothing else changed |
| Courses.UnpublishAfterPublish | src/main/java/com/mdaudev/mwanzo/mwanzocourseplatformbackend/domain/course/Course.java:340-352 | unpublishing a published course returns it to draft but keeps the publication date |
| Courses.GenerateSlug | src/main/java/com/mdaudev/mwanzo/mwanzocourseplatformbackend/domain/course/Course.java:272-281 | as written: the slug is cut at min(title length, 200), which fails exactly when the processed slug is shorter than that bound |
| Courses.GenerateSlugFailsOnDroppedChar | src/main/java/com/mdaudev/mwanzo/mwanzocourseplatformbackend/domain/course/Course.java:272-281 | a course without a slug whose title of at most 200 characters holds a character the slug drops makes the as-written slug generation fail |
| Courses.GenerateSlugFailsOnCppBasics | src/main/java/com/mdaudev/mwanzo/mwanzocourseplatformbackend/domain/course/Course.java:272-281 | the title "C++ Basics", within the 10..200 characters the title's size constraint allows, makes the as-written slug generation fail |
| Courses.GenerateSlugFixed | src/main/java/com/mdaudev/mwanzo/mwanzocourseplatformbackend/domain/course/Course.java:272-281 | corrected: the slug is the processed title cut to at most 200 characters, a prefix of it, of slug characters only, and equal to it when short enough |
| Enrollments.Create | src/main/java/com/mdaudev/mwanzo/mwanzocourseplatformbackend/domain/course/Enrollment.java:91-122 | a new enrolment awaits payment, with no progress and no completion flags |
| Enrollments.UpdateProgress | src/main/java/com/mdaudev/mwanzo/mwanzocourseplatformbackend/domain/course/Enrollment.java:168 | progress is clamped into 0..100, and the access time is stamped |
| Enrollments.UpdateProgressIdempotent | src/main/java/com/mdaudev/mwanzo/mwanzocourseplatformbackend/domain/course/Enrollment.java:168 | setting the same progress again only moves the access time |
| Enrollments.Activate | src/main/java/com/mdaudev/mwanzo/mwanzocourseplatformbackend/domain/course/Enrollment.java:179-184 | a pending enrolment becomes active with the payment recorded; any other status is left alone |
| Enrollments.ActivateNeverRevives | src/main/java/com/mdaudev/mwanzo/mwanzocourseplatformbackend/domain/course/Enrollment.java:179-215 | activating a suspended, cancelled or expired enrolment does not make it accessible |
| Enrollments.MarkAsCompleted | src/main/java/com/mdaudev/mwanzo/mwanzocourseplatformbackend/domain/course/Enrollment.java:190-195 | completed, 100 %, status COMPLETED, completedAt = now |
| Enrollments.IsExpired | src/main/java/com/mdaudev/mwanzo/mwanzocourseplatformbackend/domain/course/Enrollment.java:202-204 | expired exactly when an expiry exists and lies in the past |
| Enrollments.IsAccessible | src/main/java/com/mdaudev/mwanzo/mwanzocourseplatformbackend/domain/course/Enrollment.java:212-215 | accessible exactly when active or completed and not expired |
| Database.UniqueEnrollmentFound | src/main/java/com/mdaudev/mwanzo/mwanzocourseplatformbackend/repository/EnrollmentRepository.java:37-41 | when a student has at most one enrolment per course, the Optional finder never throws |
| Database.UpdateKeepsEnrollmentsUnique | src/main/java/com/mdaudev/mwanzo/mwanzocourseplatformbackend/service/EnrollmentService.java:113-135 | rewriting an enrolment in place keeps the at-most-one-per-student-and-course invariant |
| Database.AppendKeepsEnrollmentsUnique | src/main/java/com/mdaudev/mwanzo/mwanzocourseplatformbackend/service/EnrollmentService.java:60-62 | adding an enrolment that does not yet exist keeps the invariant |
| Database.UpdateKeepsPaymentLookups | src/main/java/com/mdaudev/mwanzo/mwanzocourseplatformbackend/repository/PaymentRepository.java:21-23 | rewriting a payment without touching its checkout id or reference leaves both lookups unchanged |
| Database.AsOptional | src/main/java/com/mdaudev/mwanzo/mwanzocourseplatformbackend/repository/VideoProgressRepository.java:19 | an Optional finder gives empty, one row, or the non-unique-result error for many |
| Database.Committed | src/main/java/com/mdaudev/mwanzo/mwanzocourseplatformbackend/service/AuthenticationService.java:110-142 | what a transactional method leaves behind: nothing when it ends in an unchecked exception, its writes when it succeeds |
| Database.FindEnrollment | src/main/java/com/mdaudev/mwanzo/mwanzocourseplatformbackend/repository/EnrollmentRepository.java:37-41 | no match exactly when no enrolment has that student and course; a single match is such an enrolment |
| Database.EnrollmentExists | src/main/java/com/mdaudev/mwanzo/mwanzocourseplatformbackend/repository/EnrollmentRepository.java:50-55 | true exactly when some enrolment has that student and course |
| Database.FindPaymentByCheckout | src/main/java/com/mdaudev/mwanzo/mwanzocourseplatformbackend/repository/PaymentRepository.java:23 | no match exactly when no payment carries that checkout id; a single match carries it |
| Database.FindPaymentByReference | src/main/java/com/mdaudev/mwanzo/mwanzocourseplatformbackend/repository/PaymentRepository.java:21 | no match exactly when no payment carries that reference (always for a null reference); a single match carries it |
| Database.HasSuccessfulPayment | src/main/java/com/mdaudev/mwanzo/mwanzocourseplatformbackend/repository/PaymentRepository.java:32-34 | true exactly when some payment of the enrolment is SUCCESS |
| Database.FindProgress | src/main/java/com/mdaudev/mwanzo/mwanzocourseplatformbackend/repository/VideoProgressRepository.java:19 | no match exactly when the student has no progress row for the video; a single match is that row |
| Database.CompletedVideos | src/main/java/com/mdaudev/mwanzo/mwanzocourseplatformbackend/repository/VideoProgressRepository.java:25-26 | the number of completed progress rows of the enrolment |
| Database.VideosInCourse | src/main/java/com/mdaudev/mwanzo/mwanzocourseplatformbackend/repository/VideoRepository.java:30 | the number of videos of the course |
| Database.FindInProgressAttempt | src/main/java/com/mdaudev/mwanzo/mwanzocourseplatformbackend/repository/QuizAttemptRepository.java:22-25 | no match exactly when the student has no IN_PROGRESS attempt at the quiz; a single match is such an attempt |
| Database.AttemptCount | src/main/java/com/mdaudev/mwanzo/mwanzocourseplatformbackend/repository/QuizAttemptRepository.java:27-28 | the number of the student's attempts at the quiz, of any status |
| Database.PassedAttempts | src/main/java/com/mdaudev/mwanzo/mwanzocourseplatformbackend/repository/QuizAttemptRepository.java:35-36 | the number of passed attempts of the enrolment |
| Database.RequiredQuizzes | src/main/java/com/mdaudev/mwanzo/mwanzocourseplatformbackend/repository/QuizRepository.java:15-16 | the number of required quizzes of the course, published or not |
| Database.TotalPoints | src/main/java/com/mdaudev/mwanzo/mwanzocourseplatformbackend/repository/QuestionRepository.java:15-16 | 0 when the quiz has no active question, as COALESCE gives; never negative when no question's points are |
| Database.FindAnswer | src/main/java/com/mdaudev/mwanzo/mwanzocourseplatformbackend/repository/StudentAnswerRepository.java:19 | no match exactly when the attempt has no answer to the question; a single match is such an answer |
| Database.CorrectAnswers | src/main/java/com/mdaudev/mwanzo/mwanzocourseplatformbackend/repository/StudentAnswerRepository.java:17 | the number of correct answers of the attempt |
| Database.PointsEarned | src/main/java/com/mdaudev/mwanzo/mwanzocourseplatformbackend/repository/StudentAnswerRepository.java:17 | 0 when the attempt has no answer; never negative when no answer's points are |
| Database.FindUserByEmail | src/main/java/com/mdaudev/mwanzo/mwanzocourseplatformbackend/repository/UserRepository.java:36 | no match exactly when no user has that exact email (always for a null email); a single match has it |
| Database.EmailTaken | src/main/java/com/mdaudev/mwanzo/mwanzocourseplatformbackend/repository/UserRepository.java:54 | true exactly when some user's email equals the given one ignoring case |
| EnrollmentService.EnrollInCourse | src/main/java/com/mdaudev/mwanzo/mwanzocourseplatformbackend/service/EnrollmentService.java:55-102 | rejects a duplicate, a missing course and an unpublished course; otherwise appends one enrolment for the course price, active exactly for a free course, and counts it on the course only when free |
| EnrollmentService.EnrollTwiceRejected | src/main/java/com/mdaudev/mwanzo/mwanzocourseplatformbackend/service/EnrollmentService.java:60-62 | enrolling again in the same course is rejected and changes nothing |
| EnrollmentService.EnrollKeepsUnique | src/main/java/com/mdaudev/mwanzo/mwanzocourseplatformbackend/service/EnrollmentService.java:55-100 | enrolment keeps at most one enrolment per student and course |
| EnrollmentService.EnrollmentAccessFollowsPrice | src/main/java/com/mdaudev/mwanzo/mwanzocourseplatformbackend/service/EnrollmentService.java:83-96 | right after enrolling, the student has access exactly when the course is free |
| EnrollmentService.ActivateEnrollment | src/main/java/com/mdaudev/mwanzo/mwanzocourseplatformbackend/service/EnrollmentService.java:112-133 | activates the enrolment and adds one to the course's count, and fails only on a missing enrolment or course |
| EnrollmentService.ActivationCountsEveryCall | src/main/java/com/mdaudev/mwanzo/mwanzocourseplatformbackend/service/EnrollmentService.java:113-135 | activating twice leaves the enrolment as after once but counts the course twice |
| EnrollmentService.ActivateAndProgressKeepUnique | src/main/java/com/mdaudev/mwanzo/mwanzocourseplatformbackend/service/EnrollmentService.java:112-233 | activation and progress updates keep enrolments unique |
| EnrollmentService.HasAccess | src/main/java/com/mdaudev/mwanzo/mwanzocourseplatformbackend/service/EnrollmentService.java:211-215 | access exactly when some enrolment of the student in the course is accessible; many enrolments are the non-unique error |
| EnrollmentService.UpdateProgress | src/main/java/com/mdaudev/mwanzo/mwanzocourseplatformbackend/service/EnrollmentService.java:224-233 | sets clamped progress on that enrolment only, without changing its status or completion |
| Payments.Create | src/main/java/com/mdaudev/mwanzo/mwanzocourseplatformbackend/service/PaymentService.java:78-88 | a new payment is INITIATED by M-Pesa without callback, checkout id, failure or payment date |
| Payments.MarkAsSuccess | src/main/java/com/mdaudev/mwanzo/mwanzocourseplatformbackend/domain/payment/Payment.java:189-195 | SUCCESS with receipt, code, description and payment date; an earlier failure reason is kept |
| Payments.MarkAsFailed | src/main/java/com/mdaudev/mwanzo/mwanzocourseplatformbackend/domain/payment/Payment.java:200-206 | FAILED with reason, code, description and date; other fields kept |
| Payments.IsPending | src/main/java/com/mdaudev/mwanzo/mwanzocourseplatformbackend/domain/payment/Payment.java:211-214 | pending exactly when INITIATED or PENDING |
| Payments.IsStale | src/main/java/com/mdaudev/mwanzo/mwanzocourseplatformbackend/domain/payment/Payment.java:219-222 | stale exactly when pending and created more than the timeout ago |
| Payments.SettledNeverStale | src/main/java/com/mdaudev/mwanzo/mwanzocourseplatformbackend/domain/payment/Payment.java:219-222 | a settled payment is never stale |
| Payments.SuccessAfterFailureKeepsReason | src/main/java/com/mdaudev/mwanzo/mwanzocourseplatformbackend/domain/payment/Payment.java:189-206 | a payment that failed and later succeeds keeps the failure reason |
| PayHero.NormalizePhone | src/main/java/com/mdaudev/mwanzo/mwanzocourseplatformbackend/service/PayHeroService.java:113-132 | a missing or empty number is refused; an accepted one is twelve digits starting 254, and acceptance depends only on its digits |
| PayHero.NormalizeIdempotent | src/main/java/com/mdaudev/mwanzo/mwanzocourseplatformbackend/service/PayHeroService.java:113-132 | normalising a normalised number changes nothing |
| PayHero.Initiate | src/main/java/com/mdaudev/mwanzo/mwanzocourseplatformbackend/service/PayHeroService.java:44-52 | a non-positive amount or bad number fails before the network; otherwise the network's answer is returned |
| PaymentService.TransactionReference | src/main/java/com/mdaudev/mwanzo/mwanzocourseplatformbackend/service/PaymentService.java:269-271 | "MWZ-" and the first eight UUID characters upper-cased, twelve characters in all |
| PaymentService.InitiatePayment | src/main/java/com/mdaudev/mwanzo/mwanzocourseplatformbackend/service/PaymentService.java:57-124 | a missing enrolment and an already paid one are refused; otherwise exactly one payment is appended for the enrolment's price, PENDING with the checkout id on a push, FAILED with the reason otherwise, the failure record kept even when the gateway raised |
| PaymentService.InitiatePaymentCommitted | src/main/java/com/mdaudev/mwanzo/mwanzocourseplatformbackend/service/PaymentService.java:56-121 | initiation under its transaction: the same answer, and an error leaves the database as it was |
| PaymentService.GatewayErrorForgotten | src/main/java/com/mdaudev/mwanzo/mwanzocourseplatformbackend/service/PaymentService.java:90-120 | when the gateway raises, the body writes one payment, yet the committed call leaves the database unchanged and fails with "Failed to initiate payment" |
| PaymentService.InitiateKeepsPaidEnrollments | src/main/java/com/mdaudev/mwanzo/mwanzocourseplatformbackend/service/PaymentService.java:57-124 | initiating a payment never changes whether any enrolment is paid |
| PaymentService.ShouldContinuePolling | src/main/java/com/mdaudev/mwanzo/mwanzocourseplatformbackend/service/PaymentService.java:151-154 | keep polling exactly while the payment is pending |
| PaymentService.GetPaymentStatus | src/main/java/com/mdaudev/mwanzo/mwanzocourseplatformbackend/service/PaymentService.java:129-149 | an unknown reference is not found; a stale payment is marked failed with the timeout reason (and nothing else changed) first; the answer reports the stored status, failure reason and M-Pesa receipt, and polls on exactly while pending |
| PaymentService.PollIdempotent | src/main/java/com/mdaudev/mwanzo/mwanzocourseplatformbackend/service/PaymentService.java:129-149 | polling twice at the same time changes nothing the second time |
| PaymentService.LocatePayment | src/main/java/com/mdaudev/mwanzo/mwanzocourseplatformbackend/service/PaymentService.java:173-175 | the payment found matches the checkout id or the external reference, and none is found exactly when neither matches any payment |
| PaymentService.HandleSuccessfulPayment | src/main/java/com/mdaudev/mwanzo/mwanzocourseplatformbackend/service/PaymentService.java:204-230 | marks the payment SUCCESS and activates its enrolment; an already successful payment is left alone |
| PaymentService.HandleFailedPayment | src/main/java/com/mdaudev/mwanzo/mwanzocourseplatformbackend/service/PaymentService.java:235-250 | marks the payment FAILED with the callback's description unless it already succeeded |
| PaymentService.ProcessCallback | src/main/java/com/mdaudev/mwanzo/mwanzocourseplatformbackend/service/PaymentService.java:160-199 | an empty or unmatched callback changes nothing; a repeated one changes nothing; a first one sets callbackReceived and settles the payment as the result code says; a successful payment never goes back |
| PaymentService.CallbackIdempotent | src/main/java/com/mdaudev/mwanzo/mwanzocourseplatformbackend/service/PaymentService.java:186-192 | delivering the same callback twice changes nothing the second time, and a callback that succeeded succeeds again |
| PaymentService.LateSuccessAfterTimeout | src/main/java/com/mdaudev/mwanzo/mwanzocourseplatformbackend/service/PaymentService.java:129-230 | a payment timed out by polling and then confirmed by PayHero ends SUCCESS while still carrying the timeout reason |
| PaymentController.TranslateInitiationError | src/main/java/com/mdaudev/mwanzo/mwanzocourseplatformbackend/controller/PaymentController.java:67-88 | IllegalArgument and IllegalState pass through; every other error becomes "Failed to initiate payment" |
| PaymentController.InitiatePayment | src/main/java/com/mdaudev/mwanzo/mwanzocourseplatformbackend/controller/PaymentController.java:67-88 | the service's effect with its errors translated; its answer always agrees with the service as committed under its transaction, and on success its whole outcome does |
| PaymentController.MissingEnrollmentIsServerError | src/main/java/com/mdaudev/mwanzo/mwanzocourseplatformbackend/controller/PaymentController.java:79-86 | a payment for a missing enrolment is answered 500, not 404 |
| PaymentController.GetPaymentStatus | src/main/java/com/mdaudev/mwanzo/mwanzocourseplatformbackend/controller/PaymentController.java:112-140 | an IllegalArgument from the service becomes "Payment not found"; anything else passes |
| PaymentController.UnknownReferenceIsNotFound | src/main/java/com/mdaudev/mwanzo/mwanzocourseplatformbackend/controller/PaymentController.java:112-140 | an unknown reference is answered 404 |
| PaymentController.HandleCallback | src/main/java/com/mdaudev/mwanzo/mwanzocourseplatformbackend/controller/PaymentController.java:156-186 | always answers 200: unreadable gives "received", no response object gives "invalid structure", and a processed one gives "processed" exactly when processing succeeded; a failed processing is rolled back and leaves the database unchanged |
| PaymentController.CallbackAcknowledgedTwice | src/main/java/com/mdaudev/mwanzo/mwanzocourseplatformbackend/controller/PaymentController.java:156-186 | a callback processed once is acknowledged as processed again on redelivery, with nothing changed |
| ErrorHandling.Handle | src/main/java/com/mdaudev/mwanzo/mwanzocourseplatformbackend/exception/GlobalExceptionHandler.java:40-194 | 404 exactly for a missing resource, 400 for an illegal argument or failed validation, 401 for bad credentials, 500 for everything else, each with its message |
| ErrorHandling.ErrorTextIsReasonPhrase | src/main/java/com/mdaudev/mwanzo/mwanzocourseplatformbackend/exception/GlobalExceptionHandler.java:40-194 | the error text is the status's RFC 9110 reason phrase except for validation failures |
| ErrorHandling.ClientErrorKinds | src/main/java/com/mdaudev/mwanzo/mwanzocourseplatformbackend/exception/GlobalExceptionHandler.java:40-142 | a 4xx answer is given exactly for the four client-correctable kinds |
| QuizAttempts.Create | src/main/java/com/mdaudev/mwanzo/mwanzocourseplatformbackend/service/QuizService.java:194-205 | a new attempt is IN_PROGRESS from now, with no score, pass or submission |
| QuizAttempts.IsInProgress | src/main/java/com/mdaudev/mwanzo/mwanzocourseplatformbackend/domain/course/QuizAttempt.java:186-188 | in progress exactly when the status says so |
| QuizAttempts.HasTimedOut | src/main/java/com/mdaudev/mwanzo/mwanzocourseplatformbackend/domain/course/QuizAttempt.java:193-198 | timed out exactly when a positive limit exists, the attempt is in progress and now is past start plus the limit |
| QuizAttempts.Submit | src/main/java/com/mdaudev/mwanzo/mwanzocourseplatformbackend/domain/course/QuizAttempt.java:172-179 | SUBMITTED with counts; the score is the points percentage truncated toward zero (0 without points), and it passes exactly when points reach the pass mark |
| QuizService.AttemptsExhausted | src/main/java/com/mdaudev/mwanzo/mwanzocourseplatformbackend/service/QuizService.java:189-191 | the limit error is an IllegalState naming the maximum |
| QuizService.AccessibleEnrollment | src/main/java/com/mdaudev/mwanzo/mwanzocourseplatformbackend/service/QuizService.java:160-167 | the student's unique enrolment in the course if accessible; not enrolled, not active or non-unique otherwise |
| QuizService.AbandonTimedOut | src/main/java/com/mdaudev/mwanzo/mwanzocourseplatformbackend/service/QuizService.java:169-185 | the student's one in-progress attempt on the quiz, if any, becomes ABANDONED and every other row is unchanged; no in-progress attempt remains and the attempt count is kept |
| QuizService.StartQuizAttempt | src/main/java/com/mdaudev/mwanzo/mwanzocourseplatformbackend/service/QuizService.java:154-210 | returns the live in-progress attempt unchanged; a timed-out one becomes ABANDONED with every other earlier row unchanged; then appends attempt number count+1 unless the limit is reached, leaving exactly one in-progress attempt |
| QuizService.StartWithAccess | src/main/java/com/mdaudev/mwanzo/mwanzocourseplatformbackend/service/QuizService.java:169-208 | once access is established: the live attempt handed back unchanged, or a timed-out one abandoned and a new attempt numbered count+1 appended within the limit |
| QuizService.StartFresh | src/main/java/com/mdaudev/mwanzo/mwanzocourseplatformbackend/service/QuizService.java:187-208 | with no live attempt: the limit error, or one new in-progress attempt numbered count+1 |
| QuizService.StartKeepsAttemptLimit | src/main/java/com/mdaudev/mwanzo/mwanzocourseplatformbackend/service/QuizService.java:187-191 | starting never takes the attempt count past the limit |
| QuizService.CanStartQuiz | src/main/java/com/mdaudev/mwanzo/mwanzocourseplatformbackend/service/QuizService.java:335-351 | false without an accessible enrolment, otherwise whether the limit allows another attempt |
| QuizService.CanStartAgreesWithStart | src/main/java/com/mdaudev/mwanzo/mwanzocourseplatformbackend/service/QuizService.java:154-351 | with no attempt in progress, starting succeeds exactly when the check says it can |
| QuizService.AnswerQuestion | src/main/java/com/mdaudev/mwanzo/mwanzocourseplatformbackend/service/QuizService.java:216-246 | records or replaces the one answer of the attempt to the question, correct and scored by the chosen answer |
| QuizService.AnswerOfOtherQuestionAccepted | src/main/java/com/mdaudev/mwanzo/mwanzocourseplatformbackend/service/QuizService.java:216-246 | an answer belonging to another question is accepted all the same |
| QuizService.UpdateEnrollmentQuizCompletion | src/main/java/com/mdaudev/mwanzo/mwanzocourseplatformbackend/service/QuizService.java:297-316 | marks quizzes done when at least one required quiz exists and that many passes exist, completing the enrolment if videos are done too |
| QuizService.SubmitQuiz | src/main/java/com/mdaudev/mwanzo/mwanzocourseplatformbackend/service/QuizService.java:252-291 | refuses missing or submitted attempts; grades by the stored answers; a pass updates the enrolment's quiz completion |
| QuizService.SubmitOnce | src/main/java/com/mdaudev/mwanzo/mwanzocourseplatformbackend/service/QuizService.java:258-261 | a submitted attempt cannot be submitted again |
| QuizService.ZeroRequiredQuizzesNeverComplete | src/main/java/com/mdaudev/mwanzo/mwanzocourseplatformbackend/service/QuizService.java:297-316 | in a course without required quizzes, passing never marks quizzes completed |
| QuizService.RepeatedPassCompletesQuizzes | src/main/java/com/mdaudev/mwanzo/mwanzocourseplatformbackend/service/QuizService.java:297-316 | with two required quizzes and one pass on record, another pass completes them |
| Videos.Create | src/main/java/com/mdaudev/mwanzo/mwanzocourseplatformbackend/domain/course/Video.java:144-175 | a new video is published, UPLOADED, not preview, never viewed |
| Videos.DurationMinutes | src/main/java/com/mdaudev/mwanzo/mwanzocourseplatformbackend/domain/course/Video.java:188-190 | the duration in minutes rounded up, at least 1 for a positive duration |
| Videos.IncrementViewCount | src/main/java/com/mdaudev/mwanzo/mwanzocourseplatformbackend/domain/course/Video.java:195-197 | one more view and nothing else |
| Videos.MarkAsReady | src/main/java/com/mdaudev/mwanzo/mwanzocourseplatformbackend/domain/course/Video.java:202-206 | READY with the streaming URL, nothing else changed |
| Videos.MarkAsFailed | src/main/java/com/mdaudev/mwanzo/mwanzocourseplatformbackend/domain/course/Video.java:210-212 | FAILED, nothing else changed |
| VideoProgresses.Create | src/main/java/com/mdaudev/mwanzo/mwanzocourseplatformbackend/domain/course/VideoProgress.java:88-111 | new progress starts at zero and not completed |
| VideoProgresses.UpdateProgress | src/main/java/com/mdaudev/mwanzo/mwanzocourseplatformbackend/domain/course/VideoProgress.java:139-154 | records the position; with a known duration the percentage is position*100/duration truncated toward zero and capped at 100, so it reaches 80 exactly when position is at least 80 % of the duration; completion is sticky and dated once |
| VideoProgresses.AddWatchedSeconds | src/main/java/com/mdaudev/mwanzo/mwanzocourseplatformbackend/domain/course/VideoProgress.java:161-164 | adds watched seconds and touches nothing else but the time |
| VideoProgresses.CompletionIsSticky | src/main/java/com/mdaudev/mwanzo/mwanzocourseplatformbackend/domain/course/VideoProgress.java:147-152 | a completed video stays completed with its original completion time |
| VideoService.AggregateProgress | src/main/java/com/mdaudev/mwanzo/mwanzocourseplatformbackend/service/VideoService.java:286-299 | enrolment progress is completed/total videos as a truncated percentage; videos are done when all are; the enrolment completes when quizzes are done too |
| VideoService.UpdateEnrollmentProgress | src/main/java/com/mdaudev/mwanzo/mwanzocourseplatformbackend/service/VideoService.java:278-301 | a course without videos changes nothing; otherwise only the enrolment's aggregate changes |
| VideoService.ProgressRow | src/main/java/com/mdaudev/mwanzo/mwanzocourseplatformbackend/service/VideoService.java:248-262 | finds the student's progress row, or creates one for an enrolled student, or fails not enrolled |
| VideoService.RecordPosition | src/main/java/com/mdaudev/mwanzo/mwanzocourseplatformbackend/service/VideoService.java:264-271 | updates the progress row, and counts a view whenever the row is completed with a date |
| VideoService.UpdateProgress | src/main/java/com/mdaudev/mwanzo/mwanzocourseplatformbackend/service/VideoService.java:246-301 | records the position on the student's row; counts a view on that video whenever the saved row is completed, leaving every other video alone; sets the row's enrolment to the aggregate of completed videos over the course's videos (untouched for a course without videos); leaves the catalogue, payments, users and quizzes alone |
| VideoService.RecordKeepsVideosInCourse | src/main/java/com/mdaudev/mwanzo/mwanzocourseplatformbackend/service/VideoService.java:264-271 | counting a view changes no course's video count |
| VideoService.ProgressWithoutAccess | src/main/java/com/mdaudev/mwanzo/mwanzocourseplatformbackend/service/VideoService.java:246-311 | a student without access (enrolment pending payment) can still record progress and complete the course |
| VideoService.ViewCountedOnEveryUpdate | src/main/java/com/mdaudev/mwanzo/mwanzocourseplatformbackend/service/VideoService.java:268-271 | once a video is completed, every further progress update counts another view |
| VideoService.HasVideoAccess | src/main/java/com/mdaudev/mwanzo/mwanzocourseplatformbackend/service/VideoService.java:304-311 | a preview is open to all; otherwise access is course access |
| VideoService.VideoAccessIsCourseAccess | src/main/java/com/mdaudev/mwanzo/mwanzocourseplatformbackend/service/VideoService.java:304-311 | for a non-preview video, video access equals enrolment access to its course |
| VideoService.MarkVideoAsFailed | src/main/java/com/mdaudev/mwanzo/mwanzocourseplatformbackend/service/VideoService.java:201-210 | FAILED with the error, only that video, or not found |
| VideoService.QualityUrls | src/main/java/com/mdaudev/mwanzo/mwanzocourseplatformbackend/service/VideoService.java:158-164 | one streaming URL per quality output, same keys, or one of the URL errors |
| VideoService.PlaybackUrl | src/main/java/com/mdaudev/mwanzo/mwanzocourseplatformbackend/service/VideoService.java:172-177 | the 1080p URL, else 720p, else the current URL |
| VideoService.ReadyVideo | src/main/java/com/mdaudev/mwanzo/mwanzocourseplatformbackend/service/VideoService.java:166-177 | READY with duration, job id, quality URLs and playback URL |
| VideoService.HandleTranscodingComplete | src/main/java/com/mdaudev/mwanzo/mwanzocourseplatformbackend/service/VideoService.java:146-194 | a completed job makes the video ready and adds its minutes to the section when the duration is positive; any other status marks it failed |
| VideoService.SubmittedJobMarksVideoFailed | src/main/java/com/mdaudev/mwanzo/mwanzocourseplatformbackend/service/VideoService.java:192-194 | a real job just submitted, handed on at once, marks the video failed without an error message |
| VideoService.MockJobMakesVideoReady | src/main/java/com/mdaudev/mwanzo/mwanzocourseplatformbackend/service/MediaConvertService.java:117-165 | a mock job makes the video ready at 300 s with the 1080p URL and adds 5 minutes to its section |
| MediaConvert.Failed | src/main/java/com/mdaudev/mwanzo/mwanzocourseplatformbackend/service/MediaConvertService.java:361-367 | an ERROR result carrying the message |
| MediaConvert.DisabledResult | src/main/java/com/mdaudev/mwanzo/mwanzocourseplatformbackend/service/MediaConvertService.java:352-358 | a DISABLED result without error |
| MediaConvert.MockJob | src/main/java/com/mdaudev/mwanzo/mwanzocourseplatformbackend/service/MediaConvertService.java:117-165 | COMPLETE, id "MOCK-JOB-" plus eight UUID characters, three qualities keyed to renamed outputs, 300 seconds |
| MediaConvert.RealJob | src/main/java/com/mdaudev/mwanzo/mwanzocourseplatformbackend/service/MediaConvertService.java:169-238 | SUBMITTED with the job id exactly when bucket and role are configured and submission succeeds; otherwise ERROR with the reason |
| MediaConvert.CreateTranscodingJob | src/main/java/com/mdaudev/mwanzo/mwanzocourseplatformbackend/service/MediaConvertService.java:90-115 | invalid parameters fail; disabled gives DISABLED; mock or no client gives the mock job; never PROCESSING |
| MediaConvert.MapJobStatus | src/main/java/com/mdaudev/mwanzo/mwanzocourseplatformbackend/service/MediaConvertService.java:323-336 | SUBMITTED or PROGRESSING is processing, COMPLETE complete, ERROR or CANCELED error, anything else submitted |
| MediaConvert.GetJobStatus | src/main/java/com/mdaudev/mwanzo/mwanzocourseplatformbackend/service/MediaConvertService.java:302-321 | mock mode always complete; a failed query is error; otherwise the mapped status |
| MediaConvert.MockJobsPollComplete | src/main/java/com/mdaudev/mwanzo/mwanzocourseplatformbackend/service/MediaConvertService.java:302-321 | in mock mode the created job and the polled status agree |
| MediaConvert.MockRenditionOfUpload | src/main/java/com/mdaudev/mwanzo/mwanzocourseplatformbackend/service/MediaConvertService.java:129-135 | the mock rendition of videos/<rest>.mp4 is processed/<rest>_quality.mp4 whenever rest holds neither "videos/" nor ".mp4" |
| MediaConvert.MockOutputKeyOfName | src/main/java/com/mdaudev/mwanzo/mwanzocourseplatformbackend/service/MediaConvertService.java:295-297 | `generateMockOutputKey` puts "_" and the quality just before a name's ".mp4" ending |
| MediaConvert.MockOutputKeyWithoutExtension | src/main/java/com/mdaudev/mwanzo/mwanzocourseplatformbackend/service/MediaConvertService.java:295-297 | `generateMockOutputKey` keeps a key without ".mp4" as it is |
| Urls.JoinPath | src/main/java/com/mdaudev/mwanzo/mwanzocourseplatformbackend/service/CloudFrontService.java:85-87 | the URL starts with the base and ends with "/" and the key, with exactly one slash between |
| Urls.DirectS3Url | src/main/java/com/mdaudev/mwanzo/mwanzocourseplatformbackend/service/S3Service.java:277-288 | a LocalStack endpoint URL or the public S3 host URL ending with the key |
| CloudFront.GenerateStreamingUrl | src/main/java/com/mdaudev/mwanzo/mwanzocourseplatformbackend/service/CloudFrontService.java:71-112 | an empty key fails; with CloudFront enabled the URL is the domain joined to the key with exactly one "/" (a missing domain fails); otherwise the direct S3 URL |
| CloudFront.DomainPrefixesStreamingUrl | src/main/java/com/mdaudev/mwanzo/mwanzocourseplatformbackend/service/CloudFrontService.java:71-112 | the streaming URL is the reported domain, a slash and the key |
| CloudFront.TrailingSlashDomainNotDoubled | src/main/java/com/mdaudev/mwanzo/mwanzocourseplatformbackend/service/CloudFrontService.java:84-87 | a CDN domain ending in "/" is followed by the key directly |
| CloudFront.LocalStackBypassesCdn | src/main/java/com/mdaudev/mwanzo/mwanzocourseplatformbackend/service/CloudFrontService.java:177-179 | `isEnabled` is false under LocalStack whatever the CDN switch, and every streaming URL is then the direct S3 URL |
| CloudFront.DomainIgnoresLocalStack | src/main/java/com/mdaudev/mwanzo/mwanzocourseplatformbackend/service/CloudFrontService.java:177-186 | `getDomain` reads only the CDN switch: with LocalStack also on it reports the CDN domain while the streaming URL is the direct S3 URL |
| CloudFront.ConvertToQualityKey | src/main/java/com/mdaudev/mwanzo/mwanzocourseplatformbackend/service/CloudFrontService.java:152-166 | always under processed/quality/, and a keyed path ends _quality.mp4 |
| CloudFront.QualityKeyOfUpload | src/main/java/com/mdaudev/mwanzo/mwanzocourseplatformbackend/service/CloudFrontService.java:152-166 | an upload key videos/id/name maps to processed/quality/id_quality.mp4 |
| CloudFront.GenerateQualityUrl | src/main/java/com/mdaudev/mwanzo/mwanzocourseplatformbackend/service/CloudFrontService.java:124-147 | missing key or quality fail; otherwise the streaming URL of the quality key |
| S3.Cleaned | src/main/java/com/mdaudev/mwanzo/mwanzocourseplatformbackend/service/S3Service.java:210-213 | the cleaned name has only safe characters |
| S3.CleanedShape | src/main/java/com/mdaudev/mwanzo/mwanzocourseplatformbackend/service/S3Service.java:210-213 | the cleaned name keeps the length of the ".."-free name and has no ".." |
| S3.SanitizeFileName | src/main/java/com/mdaudev/mwanzo/mwanzocourseplatformbackend/service/S3Service.java:204-227 | an empty name fails; a result is at most 200 safe characters; when cut it is the cleaned name's first 200 − (extension length) characters followed by the extension; an over-long extension fails as substring does |
| S3.SanitizeIdempotent | src/main/java/com/mdaudev/mwanzo/mwanzocourseplatformbackend/service/S3Service.java:204-227 | sanitising a sanitised name changes nothing |
| S3.ValidateContentType | src/main/java/com/mdaudev/mwanzo/mwanzocourseplatformbackend/service/S3Service.java:238-248 | accepted exactly when present and starting with the expected type ignoring case, else the matching error text |
| S3.ContentTypeIgnoresCase | src/main/java/com/mdaudev/mwanzo/mwanzocourseplatformbackend/service/S3Service.java:243 | upper-casing the content type does not change acceptance |
| S3.ContentTypeChecksOnlyPrefix | src/main/java/com/mdaudev/mwanzo/mwanzocourseplatformbackend/service/S3Service.java:243 | any suffix after the expected type is accepted |
| S3.GenerateS3Key | src/main/java/com/mdaudev/mwanzo/mwanzocourseplatformbackend/service/S3Service.java:194-198 | prefix/uuid/sanitised-name, failing exactly when sanitising fails |
| S3.GenerateUploadUrl | src/main/java/com/mdaudev/mwanzo/mwanzocourseplatformbackend/service/S3Service.java:104-165 | succeeds exactly when type, name and presigning succeed, with the bucket, the key and an expiry of now plus the requested duration; every failure becomes the upload error |
| S3.GenerateStreamingUrl | src/main/java/com/mdaudev/mwanzo/mwanzocourseplatformbackend/service/S3Service.java:260-288 | an empty key fails; with CloudFront switched on and a domain, the domain joined to the key with exactly one "/" (LocalStack or not); otherwise the direct S3 URL |
| StreamingUrls.ServicesAgree | src/main/java/com/mdaudev/mwanzo/mwanzocourseplatformbackend/service/S3Service.java:260-288 | outside LocalStack the two streaming-URL services agree, except when CloudFront is on without a domain |
| StreamingUrls.LocalStackDisagrees | src/main/java/com/mdaudev/mwanzo/mwanzocourseplatformbackend/service/S3Service.java:260-288 | under LocalStack the two services give different URLs |
| StreamingUrls.UploadKeyHasQualityKey | src/main/java/com/mdaudev/mwanzo/mwanzocourseplatformbackend/service/S3Service.java:194-198 | an uploaded video's key converts to the processed quality key |
| Json.Get | src/main/java/com/mdaudev/mwanzo/mwanzocourseplatformbackend/controller/MediaConvertWebhookController.java:136-149 | a field is present exactly when `has` says so |
| Webhook.ExtractJobId | src/main/java/com/mdaudev/mwanzo/mwanzocourseplatformbackend/controller/MediaConvertWebhookController.java:136-149 | the top-level jobId when present; missing in all three places fails |
| Webhook.ExtractStatus | src/main/java/com/mdaudev/mwanzo/mwanzocourseplatformbackend/controller/MediaConvertWebhookController.java:154-165 | the top-level status when present; UNKNOWN when missing everywhere |
| Webhook.ExtractVideoId | src/main/java/com/mdaudev/mwanzo/mwanzocourseplatformbackend/controller/MediaConvertWebhookController.java:172-184 | the userMetadata videoId parsed; missing everywhere fails |
| Webhook.ExtractErrorMessage | src/main/java/com/mdaudev/mwanzo/mwanzocourseplatformbackend/controller/MediaConvertWebhookController.java:288-296 | the top-level message, else the default text when missing everywhere |
| Webhook.OutputsOf | src/main/java/com/mdaudev/mwanzo/mwanzocourseplatformbackend/controller/MediaConvertWebhookController.java:235-249 | fails exactly when some file group lacks a destination |
| Webhook.OutputsKeys | src/main/java/com/mdaudev/mwanzo/mwanzocourseplatformbackend/controller/MediaConvertWebhookController.java:235-249 | the output keys are exactly the names of the file groups |
| Webhook.OutputsLastWins | src/main/java/com/mdaudev/mwanzo/mwanzocourseplatformbackend/controller/MediaConvertWebhookController.java:235-249 | a quality named by several groups takes the last group's destination |
| Webhook.ExtractOutputUrls | src/main/java/com/mdaudev/mwanzo/mwanzocourseplatformbackend/controller/MediaConvertWebhookController.java:227-259 | no job settings or no output array gives no outputs; otherwise the groups' outputs |
| Webhook.WebhookStatus | src/main/java/com/mdaudev/mwanzo/mwanzocourseplatformbackend/controller/MediaConvertWebhookController.java:199-219 | COMPLETE, ERROR or CANCELED ignoring case, anything else processing |
| Webhook.ParseJobResult | src/main/java/com/mdaudev/mwanzo/mwanzocourseplatformbackend/controller/MediaConvertWebhookController.java:189-222 | complete carries outputs and the duration found; error carries the message; anything else nothing |
| Webhook.Confirmation | src/main/java/com/mdaudev/mwanzo/mwanzocourseplatformbackend/controller/MediaConvertWebhookController.java:116-131 | answers confirmation_required with the subscribe URL, or fails without one |
| Webhook.Processed | src/main/java/com/mdaudev/mwanzo/mwanzocourseplatformbackend/controller/MediaConvertWebhookController.java:92-96 | the success answer names the job |
| Webhook.Interpret | src/main/java/com/mdaudev/mwanzo/mwanzocourseplatformbackend/controller/MediaConvertWebhookController.java:67-81 | the inner message parses and yields job id, video id and result; the job is read exactly when all four steps succeed, and otherwise the answer is the first step's error (parse, missing job id, video id, result) |
| Webhook.Apply | src/main/java/com/mdaudev/mwanzo/mwanzocourseplatformbackend/controller/MediaConvertWebhookController.java:84-96 | a complete job is handed to transcoding completion, any other marks the video failed; either succeeds exactly when the service call does, and a failure leaves the database unchanged |
| Webhook.Process | src/main/java/com/mdaudev/mwanzo/mwanzocourseplatformbackend/controller/MediaConvertWebhookController.java:58-96 | parse, confirm, or interpret and apply; an error answer leaves the database unchanged |
| Webhook.HandleWebhook | src/main/java/com/mdaudev/mwanzo/mwanzocourseplatformbackend/controller/MediaConvertWebhookController.java:52-108 | always answers with a status; an exception becomes "error" with "Failed to process webhook: " and its message |
| Webhook.ConfirmationWritesNothing | src/main/java/com/mdaudev/mwanzo/mwanzocourseplatformbackend/controller/MediaConvertWebhookController.java:63-65 | a notification whose Type is SubscriptionConfirmation (`IsConfirmation`) changes nothing and, with a SubscribeURL, is answered confirmation_required |
| Webhook.JobReadFromMessage | src/main/java/com/mdaudev/mwanzo/mwanzocourseplatformbackend/controller/MediaConvertWebhookController.java:68-70 | the job is read from the text of the notification's Message (`MessageContent`) when present, otherwise from the notification itself |
| Webhook.ProgressNotificationMarksFailed | src/main/java/com/mdaudev/mwanzo/mwanzocourseplatformbackend/controller/MediaConvertWebhookController.java:86-219 | a progress notification marks the video failed and still answers success |
| Webhook.CompletionNotificationZeroesDuration | src/main/java/com/mdaudev/mwanzo/mwanzocourseplatformbackend/controller/MediaConvertWebhookController.java:207-283 | a completion without a duration leaves the video ready with duration 0 and the section untouched |
| Webhook.MissingJobIdFails | src/main/java/com/mdaudev/mwanzo/mwanzocourseplatformbackend/controller/MediaConvertWebhookController.java:136-149 | a message without a job id fails with that error and changes nothing |
| Webhook.MissingJobIdAnswered | src/main/java/com/mdaudev/mwanzo/mwanzocourseplatformbackend/controller/MediaConvertWebhookController.java:98-106 | a message without a job id is answered with the error text and 200 |
| Webhook.WebhookAgreesWithPolling | src/main/java/com/mdaudev/mwanzo/mwanzocourseplatformbackend/service/MediaConvertService.java:323-336 | on AWS's own status names the webhook and the poller agree |
| Webhook.WebhookDiffersFromPolling | src/main/java/com/mdaudev/mwanzo/mwanzocourseplatformbackend/service/MediaConvertService.java:323-336 | on lower-case or unknown names they disagree |
| Tables.FindOne | src/main/java/com/mdaudev/mwanzo/mwanzocourseplatformbackend/repository/VideoProgressRepository.java:19 | no, one or many matches exactly by the match count, and the one match is the only row satisfying the filter |
| Tables.FindOneRows | src/main/java/com/mdaudev/mwanzo/mwanzocourseplatformbackend/repository/VideoProgressRepository.java:19 | no match exactly when no row satisfies the filter, and the non-unique failure exactly when two distinct rows do |
| Strings.FirstFieldIsPrefix | src/main/java/com/mdaudev/mwanzo/mwanzocourseplatformbackend/controller/AuthController.java:147-149 | the first field of a split is the text before the first separator |
| Strings.RemoveDoubleDotLeavesNone | src/main/java/com/mdaudev/mwanzo/mwanzocourseplatformbackend/service/S3Service.java:209 | removing ".." leaves no ".." |
| Strings.CollapseRunsNoDoubled | src/main/java/com/mdaudev/mwanzo/mwanzocourseplatformbackend/domain/course/Course.java:279 | collapsing hyphen runs leaves no doubled hyphen |

## Left out

- I/O and framework: HTTP transport, JSON (de)serialisation, logging, the
  Spring context, the health endpoints and DTO mapping are not modelled. The
  JSON parser is a parameter.
- JWT issuing and checking, and the configuration classes, are not modelled.
  Tokens are opaque strings outside the model.
- External calls: the PayHero HTTP request, the MediaConvert job submission,
  presigned URL signing and the AWS SDK calls (bucket creation, objectExists,
  metadata, delete) become parameters or are left out.
- `VideoService.createVideo` and the course and category CRUD services are not
  modelled. The entity operations they call are modelled.
- Concurrency, `@Async`, the mock job's `Thread.sleep` and retries are left out.
  Each call is modelled as atomic.
- Service-to-service calls (quiz start and submission, enrolment activation
  from a payment, transcoding completion) are modelled by their bodies; the
  enclosing transaction is applied only at the controller boundary.
- Floating point: PayHero amounts are sent as doubles, but the model keeps
  integer cents.
- The time stamps, request paths and field-error maps in error bodies are not
  modelled.
- Webhook.ExtractJobId: only the top-level jobId value is pinned down. The
  detail and job fall-backs are only required to exist.
- Webhook.ExtractStatus, Webhook.ExtractErrorMessage and Webhook.ExtractVideoId:
  the nested fall-back positions are modelled but not stated in their
  contracts.
- PaymentService.LocatePayment: the contract does not state that the checkout
  id is searched before the external reference.
- CloudFront.ConvertToQualityKey: for a nested key the contract gives the
  prefix and suffix but not the middle; `CloudFront.QualityKeyOfUpload` states
  it for upload keys.
- Json.AsText: numbers and booleans are rendered by a parameter-free stand-in,
  and the contract only covers strings and containers.
- AuthController.Login: uses the corrected address extraction and the
  corrected login, which keeps a wrong password's failure counter. As
  written, a comma-only X-Forwarded-For header makes the extraction throw
  ArrayIndexOutOfBoundsException, which the endpoint does not catch, so the
  request fails with 500. Also as written, the transaction's rollback discards
  the counter, so five wrong passwords never lock the account (see Findings).
- PaymentController.InitiatePayment: after a PayHero exception the model
  keeps the FAILED payment row, which the `@Transactional` rollback discards
  (see Findings). The answer always agrees with
  `PaymentService.InitiatePaymentCommitted`, and so does the whole outcome of
  a successful call.
- Integer width: counters and times are unbounded integers, while the source
  uses 32-bit `int`. The model therefore does not wrap `enrollmentCount++`
  (Course.java:317), `viewCount++` (Video.java:196) or
  `failedLoginAttempts++` (User.java:296), and it does not truncate the casts
  `(int) Duration.between(...).getSeconds()` (QuizAttempt.java:180) and
  `(int) (attemptCount + 1)` (QuizService.java:200). Each differs from the
  source only past 2^31 − 1.
- Webhook.HandleWebhook: a NullPointerException is given a null message, so
  its error body reads "Failed to process webhook: null". On Java 17 the JVM's
  helpful NullPointerException messages describe the failed dereference
  instead; that text is not modelled.
- Case mapping is ASCII-only: `toLowerCase` and `equalsIgnoreCase` are not
  modelled for non-ASCII letters.

## Findings

| source | as written | input that shows it | evidently intended | confidence | as-written member | corrected member |
|---|---|---|---|---|---|---|
| src/main/java/com/mdaudev/mwanzo/mwanzocourseplatformbackend/domain/course/Course.java:272-281 | the processed slug is cut with `substring(0, min(title length, 200))`, bounded by the raw title's length | a course titled "C++ Basics" (a valid title of 10 characters): the slug is "c-basics", 8 characters, and the cut asks for 10 | cut the slug to at most 200 characters of itself | not executed | Courses.GenerateSlug (Courses.GenerateSlugFailsOnCppBasics) | Courses.GenerateSlugFixed |
| src/main/java/com/mdaudev/mwanzo/mwanzocourseplatformbackend/controller/AuthController.java:146-148 | an address containing a comma is replaced by `split(",")[0].trim()` | X-Forwarded-For "," splits into no fields, so `[0]` is out of bounds and the login fails | take the text before the first comma | not executed | AuthController.ClientIpAsWritten (AuthController.CommaOnlyHeaderFails) | AuthController.ClientIp (AuthController.ClientIpAgrees) |
| src/main/java/com/mdaudev/mwanzo/mwanzocourseplatformbackend/service/AuthenticationService.java:110-141 | the failed attempt is saved, then BadCredentialsException is thrown from the `@Transactional` login, so the save is rolled back | five logins with a wrong password on an active account: the counter stays 0 and the account never locks | failed attempts persist, and the fifth locks the account | not executed | AuthService.LoginCommitted (AuthService.WrongPasswordForgotten) | AuthService.LoginKeepingFailures (AuthService.FifthWrongPasswordLocks) |
| src/main/java/com/mdaudev/mwanzo/mwanzocourseplatformbackend/service/PaymentService.java:90-120 | the FAILED payment is saved, then a RuntimeException is thrown from the `@Transactional` initiation, so the save is rolled back | the PayHero call raises: the student gets an error and no payment row records the attempt | the failed attempt persists with its "Payment initiation error" reason | not executed | PaymentService.InitiatePaymentCommitted (PaymentService.GatewayErrorForgotten) | PaymentService.InitiatePayment |

=== FILE: arith.dfy ===
/**
 * Integer stand-ins for the backend's numeric conversions: a double quotient
 * cast to int (truncation toward zero), Math.ceil of a quotient, and
 * BigDecimal division with ROUND_HALF_UP.
 */
module Arith {

  lemma MulMonotone(a: int, b: int, m: int)
    requires a <= b && m >= 0
    ensures a * m <= b * m
  {
    assert b * m - a * m == (b - a) * m;
  }

  /** Euclidean division of a non-negative number: the quotient's multiple lies within one divisor below it. */
  lemma DivBounds(n: int, b: int)
    requires n >= 0 && b > 0
    ensures n / b >= 0 && (n / b) * b <= n < (n / b) * b + b
  {
    assert n == (n / b) * b + n % b;
  }

  /** `(int) (a / (double) b)` for b > 0: the quotient truncated toward zero. */
  function TruncDiv(a: int, b: int): (r: int)
    requires b > 0
    ensures a >= 0 ==> r >= 0 && r * b <= a < r * b + b
    ensures a < 0 ==> r <= 0 && r * b >= a > r * b - b
  {
    if a >= 0 then
      DivBounds(a, b);
      a / b
    else
      var q := (-a) / b;
      DivBounds(-a, b);
      assert (-q) * b == -(q * b);
      -q
  }

  /** A truncated quotient reaches a positive threshold exactly when the dividend reaches threshold times divisor. */
  lemma TruncDivAtLeast(a: int, b: int, k: int)
    requires b > 0 && k >= 1
    ensures TruncDiv(a, b) >= k <==> a >= k * b
  {
    var r := TruncDiv(a, b);
    if a >= 0 {
      if r >= k {
        MulMonotone(k, r, b);
      } else {
        MulMonotone(r + 1, k, b);
      }
    } else {
      assert k * b > 0;
    }
  }

  /** `(int) Math.ceil(a / (double) b)` for b > 0: the least integer at or above the quotient. */
  function CeilDiv(a: int, b: int): (r: int)
    requires b > 0
    ensures r * b - b < a <= r * b
  {
    -((-a) / b)
  }

  /**
   * BigDecimal division of `n` by `m` rounded to an integer with ROUND_HALF_UP:
   * the nearest integer, ties away from zero.
   */
  function RoundHalfUpDiv(n: int, m: int): (r: int)
    requires m > 0
    ensures n >= 0 ==> r >= 0 && 2 * n - m < 2 * r * m <= 2 * n + m
    ensures n < 0 ==> r <= 0 && 2 * n - m <= 2 * r * m < 2 * n + m
  {
    if n >= 0 then (2 * n + m) / (2 * m) else -((-2 * n + m) / (2 * m))
  }

  /** A half-up quotient of a numerator bounded by k times the divisor is bounded by k. */
  lemma RoundHalfUpDivAtMost(n: int, m: int, k: int)
    requires m > 0 && 0 <= n <= k * m
    ensures RoundHalfUpDiv(n, m) <= k
  {
    var r := RoundHalfUpDiv(n, m);
    if r > k {
      MulMonotone(k + 1, r, m);
      assert false;
    }
  }
}

=== FILE: auth.dfy ===
/**
 * `AuthenticationService`: registration and the order in which a login is
 * decided. Password hashing and checking are functions supplied by the
 * caller; issuing the JWT is not modelled.
 */
module AuthService {
  import opened Wrappers
  import opened Common
  import opened Strings
  import opened Tables
  import opened Database
  import Users

  const EmailAlreadyRegistered: Exception := IllegalArgument("Email already registered")
  const InvalidCredentials: Exception := BadCredentials("Invalid email or password")
  const AccountLocked: Exception := BadCredentials("Account is locked. Please contact support.")
  const AccountInactive: Exception := BadCredentials("Account is inactive. Please contact support.")

  /** The fields of a registration request the service reads. */
  datatype RegisterRequest = RegisterRequest(email: string, password: string, role: string)

  /** The account `register` creates: active, unlocked, unverified, with no failures. */
  function NewUser(email: string, passwordHash: string, role: Users.UserRole): (u: Users.User)
    ensures u.email == email && u.password == passwordHash && u.role == role
    ensures u.isActive && !u.isLocked && !u.isEmailVerified && u.failedLoginAttempts == 0
    ensures u.lockedAt.None? && u.lastLoginAt.None?
  {
    Users.User(email, passwordHash, role, false, None, None, true, false, 0, None, None, None)
  }

  /**
   * `register`: an e-mail already taken in any letter case is refused; the
   * account is stored with the e-mail lower-cased and the password hashed by
   * `encode`; an unknown role name is refused. The answer is the user's id.
   */
  function Register(db: Db, req: RegisterRequest, encode: string -> string): (o: Outcome<Id>)
    ensures EmailTaken(db, req.email) ==> o == Outcome(db, Err(EmailAlreadyRegistered))
    ensures !EmailTaken(db, req.email) && Users.ParseRole(req.role).Err? ==>
              o == Outcome(db, Err(Users.ParseRole(req.role).error))
    ensures o.result.Ok? <==> !EmailTaken(db, req.email) && Users.ParseRole(req.role).Ok?
    ensures o.result.Ok? ==>
              o.result.value == |db.users| &&
              o.db.users == db.users + [NewUser(Lower(req.email), encode(req.password), Users.ParseRole(req.role).value)]
    ensures o.db.(users := db.users) == db
  {
    if EmailTaken(db, req.email) then Outcome(db, Err(EmailAlreadyRegistered))
    else
      match Users.ParseRole(req.role)
      case Err(e) => Outcome(db, Err(e))
      case Ok(role) =>
        var u := NewUser(Lower(req.email), encode(req.password), role);
        Outcome(db.(users := db.users + [u]), Ok(|db.users|))
  }

  lemma LowerIdempotent(s: string)
    ensures Lower(Lower(s)) == Lower(s)
  {
  }

  /** Once registered, the e-mail is taken in every letter case: registering it again is refused. */
  lemma RegisterTakesEmail(db: Db, req: RegisterRequest, encode: string -> string, again: RegisterRequest,
                           encode2: string -> string)
    requires Register(db, req, encode).result.Ok?
    requires EqualsIgnoreCase(again.email, req.email)
    ensures var db1 := Register(db, req, encode).db;
            Register(db1, again, encode2) == Outcome(db1, Err(EmailAlreadyRegistered))
  {
    var db1 := Register(db, req, encode).db;
    var u := db1.users[|db.users|];
    LowerIdempotent(req.email);
    CountAppend(db.users, u, WithEmailIgnoreCase(again.email));
  }

  /**
   * `login`: the account is looked up by the exact e-mail; then a locked and
   * an inactive account are refused before the password is checked; a wrong
   * password counts a failure on the account and is refused; a right one
   * records the login. The answer is the user's id.
   */
  function Login(db: Db, email: string, password: string, ip: Option<string>, now: Time,
                 matches: (string, string) -> bool): (o: Outcome<Id>)
    ensures FindUserByEmail(db, Some(email)).NoMatch? ==> o == Outcome(db, Err(InvalidCredentials))
    ensures FindUserByEmail(db, Some(email)).ManyMatches? ==> o == Outcome(db, Err(NonUniqueResult))
    ensures FindUserByEmail(db, Some(email)).OneMatch? ==>
              var i := FindUserByEmail(db, Some(email)).index;
              var u := db.users[i];
              (u.isLocked ==> o == Outcome(db, Err(AccountLocked))) &&
              (!u.isLocked && !u.isActive ==> o == Outcome(db, Err(AccountInactive))) &&
              (!u.isLocked && u.isActive && !matches(password, u.password) ==>
                 o == Outcome(db.(users := db.users[i := Users.RecordFailedLogin(u, now)]), Err(InvalidCredentials))) &&
              (!u.isLocked && u.isActive && matches(password, u.password) ==>
                 o == Outcome(db.(users := db.users[i := Users.RecordSuccessfulLogin(u, ip, now)]), Ok(i)))
    ensures o.result.Ok? <==>
              FindUserByEmail(db, Some(email)).OneMatch? &&
              var u := db.users[FindUserByEmail(db, Some(email)).index];
              !u.isLocked && u.isActive && matches(password, u.password)
  {
    match FindUserByEmail(db, Some(email))
    case NoMatch => Outcome(db, Err(InvalidCredentials))
    case ManyMatches => Outcome(db, Err(NonUniqueResult))
    case OneMatch(i) =>
      var u := db.users[i];
      if u.isLocked then Outcome(db, Err(AccountLocked))
      else if !u.isActive then Outcome(db, Err(AccountInactive))
      else if !matches(password, u.password) then
        Outcome(db.(users := db.users[i := Users.RecordFailedLogin(u, now)]), Err(InvalidCredentials))
      else Outcome(db.(users := db.users[i := Users.RecordSuccessfulLogin(u, ip, now)]), Ok(i))
  }

  /**
   * A locked or inactive account is refused whatever the password, without
   * asking the encoder and without writing anything.
   */
  lemma LockedOrInactiveIgnoresPassword(db: Db, email: string, p1: string, p2: string, ip: Option<string>, now: Time,
                                        m1: (string, string) -> bool, m2: (string, string) -> bool)
    requires FindUserByEmail(db, Some(email)).OneMatch?
    requires var u := db.users[FindUserByEmail(db, Some(email)).index]; u.isLocked || !u.isActive
    ensures Login(db, email, p1, ip, now, m1) == Login(db, email, p2, ip, now, m2)
    ensures Login(db, email, p1, ip, now, m1).db == db && Login(db, email, p1, ip, now, m1).result.Err?
  {
  }

  /**
   * Registration stores the e-mail lower-cased but login matches it exactly:
   * an account registered as "Alice@example.com" cannot log in with that
   * same text.
   */
  lemma MixedCaseEmailCannotLogin(db: Db, req: RegisterRequest, encode: string -> string, ip: Option<string>,
                                  now: Time, matches: (string, string) -> bool)
    requires Register(db, req, encode).result.Ok?
    requires Lower(req.email) != req.email && FindUserByEmail(db, Some(req.email)).NoMatch?
    ensures var db1 := Register(db, req, encode).db;
            Login(db1, req.email, req.password, ip, now, matches) == Outcome(db1, Err(InvalidCredentials))
  {
    var db1 := Register(db, req, encode).db;
    CountAppend(db.users, db1.users[|db.users|], WithEmail(Some(req.email)));
  }

  /**
   * `login` as committed: it runs in one transaction, and the
   * BadCredentialsException it throws for a wrong password is unchecked, so
   * the failure it counted is rolled back with it.
   */
  function LoginCommitted(db: Db, email: string, password: string, ip: Option<string>, now: Time,
                          matches: (string, string) -> bool): (o: Outcome<Id>)
    ensures o.result == Login(db, email, password, ip, now, matches).result
    ensures o.result.Err? ==> o.db == db
    ensures o.result.Ok? ==> o.db == Login(db, email, password, ip, now, matches).db
  {
    var l := Login(db, email, password, ip, now, matches);
    Outcome(Committed(db, l), l.result)
  }

  /**
   * As committed, a wrong password leaves the account exactly as it was: the
   * failure count never grows, so no run of wrong passwords ever locks it.
   */
  lemma WrongPasswordForgotten(db: Db, email: string, password: string, ip: Option<string>, now: Time,
                               matches: (string, string) -> bool)
    requires FindUserByEmail(db, Some(email)).OneMatch?
    requires var u := db.users[FindUserByEmail(db, Some(email)).index];
             !u.isLocked && u.isActive && !matches(password, u.password)
    ensures LoginCommitted(db, email, password, ip, now, matches) == Outcome(db, Err(InvalidCredentials))
  {
  }

  /**
   * `login` with the failure count kept (the transaction not rolled back for
   * a refused password, which the counter evidently relies on).
   */
  function LoginKeepingFailures(db: Db, email: string, password: string, ip: Option<string>, now: Time,
                                matches: (string, string) -> bool): (o: Outcome<Id>)
    ensures o.result == Login(db, email, password, ip, now, matches).result
    ensures o.result == Err(InvalidCredentials) || o.result.Ok? ==> o.db == Login(db, email, password, ip, now, matches).db
    ensures o.result.Err? && o.result != Err(InvalidCredentials) ==> o.db == db
  {
    var l := Login(db, email, password, ip, now, matches);
    if l.result == Err(InvalidCredentials) || l.result.Ok? then l else Outcome(db, l.result)
  }

  /**
   * With the failures kept, the fifth wrong password in a row locks the
   * account, and the next attempt is refused as locked even with the right
   * password.
   */
  lemma FifthWrongPasswordLocks(db: Db, email: string, wrong: string, right: string, ip: Option<string>, now: Time,
                                matches: (string, string) -> bool)
    requires FindUserByEmail(db, Some(email)).OneMatch?
    requires var u := db.users[FindUserByEmail(db, Some(email)).index];
             !u.isLocked && u.isActive && u.failedLoginAttempts == Users.LockThreshold - 1 &&
             !matches(wrong, u.password) && matches(right, u.password)
    ensures var db1 := LoginKeepingFailures(db, email, wrong, ip, now, matches).db;
            db1.users[FindUserByEmail(db, Some(email)).index].isLocked &&
            LoginKeepingFailures(db1, email, right, ip, now, matches).result == Err(AccountLocked)
  {
    var i := FindUserByEmail(db, Some(email)).index;
    var u1 := Users.RecordFailedLogin(db.users[i], now);
    UpdateKeepsMatches(db.users, i, u1, WithEmail(Some(email)));
  }
}

/** `AuthController`: the client address a login is recorded with. */
module AuthController {
  import opened Wrappers
  import opened Common
  import opened Strings
  import opened Database
  import AuthService

  /** A header value that does not count: absent, empty, or "unknown" in any case. */
  predicate Unusable(h: Option<string>) {
    h.None? || h.value == "" || EqualsIgnoreCase("unknown", h.value)
  }

  /** X-Forwarded-For, else X-Real-IP, else the connection's remote address. */
  function ChosenAddress(forwardedFor: Option<string>, realIp: Option<string>, remoteAddr: Option<string>): (r: Option<string>)
    ensures !Unusable(forwardedFor) ==> r == forwardedFor
    ensures Unusable(forwardedFor) && !Unusable(realIp) ==> r == realIp
    ensures Unusable(forwardedFor) && Unusable(realIp) ==> r == remoteAddr
  {
    var ip := if Unusable(forwardedFor) then realIp else forwardedFor;
    if Unusable(ip) then remoteAddr else ip
  }

  /**
   * `getClientIpAddress` as written: of a comma-separated list the first
   * entry of `split(",")` is taken, trimmed. `split` drops trailing empty
   * fields, so a list of commas only splits into nothing and indexing it
   * fails.
   */
  function ClientIpAsWritten(forwardedFor: Option<string>, realIp: Option<string>, remoteAddr: Option<string>): (r: Result<Option<string>>)
    ensures var ip := ChosenAddress(forwardedFor, realIp, remoteAddr);
            (ip.None? || ',' !in ip.value ==> r == Ok(ip)) &&
            (ip.Some? && ',' in ip.value ==>
               (r.Err? <==> JavaSplit(ip.value, ',') == []) &&
               (r.Ok? ==> r.value == Some(Trim(JavaSplit(ip.value, ',')[0]))))
  {
    var ip := ChosenAddress(forwardedFor, realIp, remoteAddr);
    if ip.Some? && ',' in ip.value then
      var parts := JavaSplit(ip.value, ',');
      if |parts| == 0 then Err(Runtime(Some("Index 0 out of bounds for length 0")))
      else Ok(Some(Trim(parts[0])))
    else Ok(ip)
  }

  /** A forwarded-for header of a single comma makes the as-written address extraction fail. */
  lemma CommaOnlyHeaderFails(realIp: Option<string>, remoteAddr: Option<string>)
    ensures ClientIpAsWritten(Some(","), realIp, remoteAddr).Err?
  {
    assert Fields(",", ',') == ["", ""];
    assert !Unusable(Some(","));
  }

  /** The address with the list cut at its first comma, which is never out of range. */
  function ClientIp(forwardedFor: Option<string>, realIp: Option<string>, remoteAddr: Option<string>): (r: Option<string>)
    ensures var ip := ChosenAddress(forwardedFor, realIp, remoteAddr);
            (ip.None? || ',' !in ip.value ==> r == ip) &&
            (ip.Some? && ',' in ip.value ==>
               exists k :: 0 <= k < |ip.value| && ip.value[k] == ',' && ',' !in ip.value[..k] && r == Some(Trim(ip.value[..k])))
  {
    var ip := ChosenAddress(forwardedFor, realIp, remoteAddr);
    if ip.Some? && ',' in ip.value then
      FirstFieldIsPrefix(ip.value, ',');
      Some(Trim(Fields(ip.value, ',')[0]))
    else ip
  }

  /** Wherever the as-written extraction succeeds, it agrees with the corrected one. */
  lemma ClientIpAgrees(forwardedFor: Option<string>, realIp: Option<string>, remoteAddr: Option<string>)
    requires ClientIpAsWritten(forwardedFor, realIp, remoteAddr).Ok?
    ensures ClientIpAsWritten(forwardedFor, realIp, remoteAddr).value == ClientIp(forwardedFor, realIp, remoteAddr)
  {
  }

  /**
   * `login`: the service's login with the client's address, with a wrong
   * password's failure record kept (see `AuthService.LoginKeepingFailures`).
   * The address is the corrected `ClientIp`, which agrees with the source's
   * extraction wherever that one does not fail.
   */
  function Login(db: Db, email: string, password: string, forwardedFor: Option<string>, realIp: Option<string>,
                 remoteAddr: Option<string>, now: Time, matches: (string, string) -> bool): (o: Outcome<Id>)
    ensures o == AuthService.LoginKeepingFailures(db, email, password, ClientIp(forwardedFor, realIp, remoteAddr), now, matches)
    ensures o.result == AuthService.Login(db, email, password, ClientIp(forwardedFor, realIp, remoteAddr), now, matches).result
    ensures o.result.Ok? ==> o.db.users[o.result.value].lastLoginIp == ClientIp(forwardedFor, realIp, remoteAddr)
    ensures ClientIpAsWritten(forwardedFor, realIp, remoteAddr).Ok? ==>
              o == AuthService.LoginKeepingFailures(db, email, password, ClientIpAsWritten(forwardedFor, realIp, remoteAddr).value,
                                                    now, matches)
  {
    AuthService.LoginKeepingFailures(db, email, password, ClientIp(forwardedFor, realIp, remoteAddr), now, matches)
  }
}

=== FILE: catalog.dfy ===
/** A course category: its generated slug and its course counter that never drops below zero. */
module Categories {
  import opened Wrappers
  import opened Strings
  import opened Slugs

  datatype Category = Category(name: Option<string>, slug: Option<string>, courseCount: int)

  function Create(name: Option<string>): (c: Category)
    ensures c.courseCount == 0 && c.slug.None? && c.name == name
  {
    Category(name, None, 0)
  }

  /** Fills in the slug from the name, but only when there is a name and no slug yet. */
  function GenerateSlug(c: Category): (r: Category)
    ensures c.slug.Some? || c.name.None? ==> r == c
    ensures c.slug.None? && c.name.Some? ==>
              r.slug.Some? && All(r.slug.value, IsSlugChar) && NoDoubled(r.slug.value, '-') &&
              r.slug.value == Slugify(c.name.value)
    ensures r.name == c.name && r.courseCount == c.courseCount
  {
    if c.slug.None? && c.name.Some? then c.(slug := Some(Slugify(c.name.value))) else c
  }

  /**
   * The generated slug keeps the name's letters and digits, lower-cased and
   * in order, and a name that already is a slug becomes its own slug.
   */
  lemma GeneratedSlugFollowsName(c: Category)
    requires c.slug.None? && c.name.Some?
    ensures Filter(GenerateSlug(c).slug.value, IsLowerAlnum) == Filter(Lower(c.name.value), IsLowerAlnum)
    ensures All(c.name.value, IsSlugChar) && NoDoubled(c.name.value, '-') ==> GenerateSlug(c).slug == c.name
  {
    SlugKeepsAlphanumerics(c.name.value);
    if All(c.name.value, IsSlugChar) && NoDoubled(c.name.value, '-') {
      SlugifyFixesSlugs(c.name.value);
    }
  }

  /** Generating a slug twice is the same as generating it once. */
  lemma GenerateSlugIdempotent(c: Category)
    ensures GenerateSlug(GenerateSlug(c)) == GenerateSlug(c)
  {
  }

  function IncrementCourseCount(c: Category): (r: Category)
    ensures r.courseCount == c.courseCount + 1
    ensures r.(courseCount := c.courseCount) == c
  {
    c.(courseCount := c.courseCount + 1)
  }

  function DecrementCourseCount(c: Category): (r: Category)
    ensures c.courseCount > 0 ==> r.courseCount == c.courseCount - 1
    ensures c.courseCount <= 0 ==> r == c
    ensures c.courseCount >= 0 ==> r.courseCount >= 0
    ensures r.(courseCount := c.courseCount) == c
  {
    if c.courseCount > 0 then c.(courseCount := c.courseCount - 1) else c
  }

  /** Removing a course after adding one restores a non-negative counter. */
  lemma DecrementUndoesIncrement(c: Category)
    requires c.courseCount >= 0
    ensures DecrementCourseCount(IncrementCourseCount(c)) == c
  {
  }
}

/** A course section: video count and total duration, both floored at zero on removal. */
module Sections {
  import opened Wrappers
  import opened Common

  datatype Section = Section(courseId: Id, videoCount: int, totalDurationMinutes: int)

  function Create(courseId: Id): (s: Section)
    ensures s.videoCount == 0 && s.totalDurationMinutes == 0 && s.courseId == courseId
  {
    Section(courseId, 0, 0)
  }

  /** One more video; an absent duration counts as zero minutes. */
  function AddVideo(s: Section, minutes: Option<int>): (r: Section)
    ensures r.videoCount == s.videoCount + 1
    ensures r.totalDurationMinutes == s.totalDurationMinutes + minutes.UnwrapOr(0)
    ensures minutes.None? ==> r.totalDurationMinutes == s.totalDurationMinutes
    ensures r.courseId == s.courseId
  {
    s.(videoCount := s.videoCount + 1, totalDurationMinutes := s.totalDurationMinutes + minutes.UnwrapOr(0))
  }

  /** One video fewer; neither counter goes below zero. */
  function RemoveVideo(s: Section, minutes: Option<int>): (r: Section)
    ensures r.videoCount >= 0 && r.totalDurationMinutes >= 0
    ensures s.videoCount >= 1 ==> r.videoCount == s.videoCount - 1
    ensures s.videoCount < 1 ==> r.videoCount == 0
    ensures s.totalDurationMinutes - minutes.UnwrapOr(0) >= 0 ==>
              r.totalDurationMinutes == s.totalDurationMinutes - minutes.UnwrapOr(0)
    ensures s.totalDurationMinutes - minutes.UnwrapOr(0) < 0 ==> r.totalDurationMinutes == 0
    ensures r.courseId == s.courseId
  {
    var count := if s.videoCount - 1 > 0 then s.videoCount - 1 else 0;
    var rest := s.totalDurationMinutes - minutes.UnwrapOr(0);
    s.(videoCount := count, totalDurationMinutes := if rest > 0 then rest else 0)
  }

  /** Removing the video just added restores the section when its counters were not negative. */
  lemma RemoveUndoesAdd(s: Section, minutes: Option<int>)
    requires s.videoCount >= 0 && s.totalDurationMinutes >= 0
    ensures RemoveVideo(AddVideo(s, minutes), minutes) == s
  {
  }
}

/** A quiz with its questions and answer options, and the quiz's own counters and limits. */
module Quizzes {
  import opened Wrappers
  import opened Common

  datatype Quiz = Quiz(
    courseId: Id,
    timeLimitMinutes: Option<int>,
    passingScore: int,
    maxAttempts: Option<int>,
    questionCount: int,
    isPublished: bool,
    isRequired: bool)

  /** A question of a quiz; only active questions add to an attempt's total points. */
  datatype Question = Question(quizId: Id, points: int, isActive: bool)

  /** An answer option of a question. */
  datatype Answer = Answer(questionId: Id, isCorrect: bool)

  function Create(courseId: Id, timeLimitMinutes: Option<int>, maxAttempts: Option<int>): (q: Quiz)
    ensures q.passingScore == 70 && q.questionCount == 0 && q.isRequired && q.isPublished
    ensures q.courseId == courseId && q.timeLimitMinutes == timeLimitMinutes && q.maxAttempts == maxAttempts
  {
    Quiz(courseId, timeLimitMinutes, 70, maxAttempts, 0, true, true)
  }

  function AddQuestion(q: Quiz): (r: Quiz)
    ensures r.questionCount == q.questionCount + 1
    ensures r.(questionCount := q.questionCount) == q
  {
    q.(questionCount := q.questionCount + 1)
  }

  function RemoveQuestion(q: Quiz): (r: Quiz)
    ensures r.questionCount >= 0
    ensures q.questionCount >= 1 ==> r.questionCount == q.questionCount - 1
    ensures q.questionCount < 1 ==> r.questionCount == 0
    ensures r.(questionCount := q.questionCount) == q
  {
    q.(questionCount := if q.questionCount - 1 > 0 then q.questionCount - 1 else 0)
  }

  /** Removing the question just added restores a non-negative counter. */
  lemma RemoveUndoesAdd(q: Quiz)
    requires q.questionCount >= 0
    ensures RemoveQuestion(AddQuestion(q)) == q
  {
  }

  function HasTimeLimit(q: Quiz): (r: bool)
    ensures r <==> q.timeLimitMinutes.Some? && q.timeLimitMinutes.value > 0
  {
    match q.timeLimitMinutes
    case None => false
    case Some(m) => m > 0
  }

  function HasAttemptLimit(q: Quiz): (r: bool)
    ensures r <==> q.maxAttempts.Some? && q.maxAttempts.value > 0
  {
    match q.maxAttempts
    case None => false
    case Some(m) => m > 0
  }
}

=== FILE: controllers.dfy ===
/**
 * `GlobalExceptionHandler`: the HTTP answer an exception that escapes a
 * controller becomes. Spring picks the handler of the most specific
 * exception class, so an IllegalStateException (a RuntimeException with no
 * handler of its own) is answered as a server error.
 */
module ErrorHandling {
  import opened Wrappers

  /** The status and texts of an error answer; timestamp and path are left out. */
  datatype ErrorResponse = ErrorResponse(status: int, error: string, message: string)

  const BadRequest := 400
  const Unauthorized := 401
  const NotFound := 404
  const InternalServerError := 500

  /**
   * The reason phrases section 15.5 (client errors) and section 15.6 (server
   * errors) of RFC 9110 give the four codes used.
   */
  function ReasonPhrase(status: int): string {
    if status == BadRequest then "Bad Request"
    else if status == Unauthorized then "Unauthorized"
    else if status == NotFound then "Not Found"
    else if status == InternalServerError then "Internal Server Error"
    else ""
  }

  /** Whether RFC 9110 classes a status code as a client error (4xx). */
  predicate IsClientError(status: int) {
    400 <= status < 500
  }

  /** The handler chosen for each exception kind, and the answer it builds. */
  function Handle(e: Exception): (r: ErrorResponse)
    ensures r.status in {BadRequest, Unauthorized, NotFound, InternalServerError}
    ensures r.status == NotFound <==> e.ResourceNotFound?
    ensures r.status == BadRequest <==> e.IllegalArgument? || e.ValidationFailed?
    ensures r.status == Unauthorized <==> e.BadCredentials?
    ensures r.status == InternalServerError <==> e.IllegalState? || e.Runtime? || e.Checked?
    ensures e.IllegalArgument? || e.ResourceNotFound? || e.BadCredentials? ==> r.message == e.Message().value
    ensures e.ValidationFailed? ==> r.message == "Invalid input data"
    ensures e.IsRuntime() && !e.IllegalArgument? && !e.ResourceNotFound? && !e.BadCredentials? ==>
              r.message == e.Message().UnwrapOr("An unexpected error occurred")
    ensures e.Checked? ==> r.message == "An unexpected error occurred. Please try again later."
  {
    match e
    case ResourceNotFound(_, _, _) => ErrorResponse(NotFound, "Not Found", e.Message().value)
    case ValidationFailed => ErrorResponse(BadRequest, "Validation Failed", "Invalid input data")
    case IllegalArgument(m) => ErrorResponse(BadRequest, "Bad Request", m)
    case BadCredentials(m) => ErrorResponse(Unauthorized, "Unauthorized", m)
    case IllegalState(_) => ErrorResponse(InternalServerError, "Internal Server Error", e.Message().value)
    case Runtime(t) => ErrorResponse(InternalServerError, "Internal Server Error", t.UnwrapOr("An unexpected error occurred"))
    case Checked(_) =>
      ErrorResponse(InternalServerError, "Internal Server Error", "An unexpected error occurred. Please try again later.")
  }

  /**
   * The error text is the RFC 9110 reason phrase of the status, except for a
   * failed bean validation, whose 400 is labelled "Validation Failed".
   */
  lemma ErrorTextIsReasonPhrase(e: Exception)
    ensures !e.ValidationFailed? <==> Handle(e).error == ReasonPhrase(Handle(e).status)
  {
  }

  /** Client errors are exactly the exceptions a caller can correct: bad input, bad credentials, a missing resource. */
  lemma ClientErrorKinds(e: Exception)
    ensures IsClientError(Handle(e).status) <==>
            e.IllegalArgument? || e.ValidationFailed? || e.BadCredentials? || e.ResourceNotFound?
  {
  }
}

/**
 * `PaymentController`: the error translation of payment initiation and
 * polling, and the PayHero callback that is always acknowledged.
 */
module PaymentController {
  import opened Wrappers
  import opened Common
  import opened Database
  import PaymentService
  import ErrorHandling

  const RetryLater: Exception := Runtime(Some("Failed to initiate payment. Please try again."))
  const CallbackReceived := "Callback received"
  const InvalidStructure := "Callback received but invalid structure"
  const CallbackProcessed := "Callback processed successfully"

  /** What `initiatePayment` lets through: IllegalArgument and IllegalState unchanged, any other exception replaced. */
  function TranslateInitiationError(e: Exception): (r: Exception)
    ensures e.IllegalArgument? || e.IllegalState? ==> r == e
    ensures !(e.IllegalArgument? || e.IllegalState?) ==> r == RetryLater
  {
    if e.IllegalArgument? || e.IllegalState? then e else RetryLater
  }

  /**
   * `initiatePayment` (POST /api/v1/payments): the service's outcome with its
   * errors translated. The answer, and the whole effect of a successful call,
   * agree with the service as committed under its transaction; only after a
   * gateway failure does this model keep the FAILED row that the rollback
   * discards.
   */
  function InitiatePayment(db: Db, cfg: PaymentService.PaymentConfig, enrollmentId: Id, phone: Option<string>,
                           uuid: string, network: Result<Option<string>>, now: Time): (o: Outcome<Id>)
    requires |uuid| >= 8
    ensures var s := PaymentService.InitiatePayment(db, cfg, enrollmentId, phone, uuid, network, now);
            o.db == s.db && (s.result.Ok? ==> o.result == s.result) &&
            (s.result.Err? ==> o.result == Err(TranslateInitiationError(s.result.error)))
    ensures var c := PaymentService.InitiatePaymentCommitted(db, cfg, enrollmentId, phone, uuid, network, now);
            (c.result.Err? ==> o.result == Err(TranslateInitiationError(c.result.error))) &&
            (c.result.Ok? ==> o == c)
  {
    var s := PaymentService.InitiatePayment(db, cfg, enrollmentId, phone, uuid, network, now);
    match s.result
    case Ok(_) => s
    case Err(e) => Outcome(s.db, Err(TranslateInitiationError(e)))
  }

  /**
   * The translation hides a missing enrollment: it is answered as a server
   * error, not as 404, while a second payment of a paid enrollment keeps its
   * own message (and is a server error too, being an IllegalState).
   */
  lemma MissingEnrollmentIsServerError(db: Db, cfg: PaymentService.PaymentConfig, enrollmentId: Id, phone: Option<string>,
                                       uuid: string, network: Result<Option<string>>, now: Time)
    requires |uuid| >= 8 && enrollmentId >= |db.enrollments|
    ensures var o := InitiatePayment(db, cfg, enrollmentId, phone, uuid, network, now);
            o == Outcome(db, Err(RetryLater)) &&
            ErrorHandling.Handle(o.result.error).status == ErrorHandling.InternalServerError
  {
  }

  /**
   * `getPaymentStatus` (GET /status/{ref}): an IllegalArgumentException is
   * replaced by "Payment not found"; everything else passes.
   */
  function GetPaymentStatus(db: Db, cfg: PaymentService.PaymentConfig, reference: string, now: Time)
    : (o: Outcome<PaymentService.StatusResponse>)
    ensures var s := PaymentService.GetPaymentStatus(db, cfg, reference, now);
            o.db == s.db &&
            (s.result.Err? && s.result.error.IllegalArgument? ==> o.result == Err(Runtime(Some("Payment not found: " + reference)))) &&
            (!(s.result.Err? && s.result.error.IllegalArgument?) ==> o.result == s.result)
  {
    var s := PaymentService.GetPaymentStatus(db, cfg, reference, now);
    if s.result.Err? && s.result.error.IllegalArgument? then Outcome(s.db, Err(Runtime(Some("Payment not found: " + reference))))
    else s
  }

  /**
   * The service reports an unknown reference as a missing resource, never as
   * an illegal argument, so the translation never applies: an unknown
   * reference is answered 404.
   */
  lemma UnknownReferenceIsNotFound(db: Db, cfg: PaymentService.PaymentConfig, reference: string, now: Time)
    requires Database.FindPaymentByReference(db, Some(reference)).NoMatch?
    ensures var o := GetPaymentStatus(db, cfg, reference, now);
            o.db == db && o.result.Err? && ErrorHandling.Handle(o.result.error).status == ErrorHandling.NotFound
  {
  }

  /**
   * `handlePayHeroCallback`: always 200. `parse` reads the body; a callback
   * without a response object is acknowledged as invalid, any exception
   * (unreadable body, failed processing) as received.
   */
  function HandleCallback(db: Db, body: string, parse: string -> Result<Option<PaymentService.CallbackResponse>>,
                          now: Time): (o: Outcome<string>)
    ensures o.result.Ok?
    ensures o.result.value in {CallbackReceived, InvalidStructure, CallbackProcessed}
    ensures parse(body).Err? ==> o == Outcome(db, Ok(CallbackReceived))
    ensures parse(body) == Ok(None) ==> o == Outcome(db, Ok(InvalidStructure))
    ensures parse(body).Ok? && parse(body).value.Some? ==>
              var p := PaymentService.ProcessCallback(db, parse(body).value, now);
              (o.result.value == CallbackProcessed <==> p.result.Ok?) &&
              (p.result.Ok? ==> o.db == p.db) && (p.result.Err? ==> o.db == db)
  {
    match parse(body)
    case Err(_) => Outcome(db, Ok(CallbackReceived))
    case Ok(None) => Outcome(db, Ok(InvalidStructure))
    case Ok(Some(r)) =>
      // processCallback is transactional: the exception it ends with rolls
      // its writes back before the handler swallows it.
      var p := PaymentService.ProcessCallback(db, Some(r), now);
      if p.result.Ok? then Outcome(p.db, Ok(CallbackProcessed)) else Outcome(Committed(db, p), Ok(CallbackReceived))
  }

  /** Acknowledging a callback twice: the second delivery answers as the first and changes nothing more. */
  lemma CallbackAcknowledgedTwice(db: Db, body: string, parse: string -> Result<Option<PaymentService.CallbackResponse>>,
                                  now: Time, later: Time)
    requires parse(body).Ok? && parse(body).value.Some?
    requires PaymentService.ProcessCallback(db, parse(body).value, now).result.Ok?
    ensures var db1 := HandleCallback(db, body, parse, now).db;
            HandleCallback(db1, body, parse, later) == Outcome(db1, Ok(CallbackProcessed))
  {
    var r := parse(body).value;
    var db1 := PaymentService.ProcessCallback(db, r, now).db;
    assert HandleCallback(db, body, parse, now).db == db1;
    PaymentService.CallbackIdempotent(db, r, now, later);
    assert PaymentService.ProcessCallback(db1, r, later).result.Ok?;
  }
}

=== FILE: course.dfy ===
/**
 * The URL-slug pipeline shared by courses and categories: lower-case, trim,
 * whitespace runs to '-', drop everything outside [a-z0-9-], hyphen runs to '-'.
 */
module Slugs {
  import opened Strings

  predicate IsSlugChar(c: char) {
    IsLowerLetter(c) || IsDigit(c) || c == '-'
  }

  predicate IsHyphen(c: char) {
    c == '-'
  }

  function Slugify(text: string): (r: string)
    ensures All(r, IsSlugChar)
    ensures NoDoubled(r, '-')
  {
    var hyphenated := CollapseRuns(Trim(Lower(text)), IsRegexSpace, '-');
    var filtered := Filter(hyphenated, IsSlugChar);
    CollapseRunsChars(filtered, IsHyphen, '-', IsSlugChar);
    CollapseRunsNoDoubled(filtered, IsHyphen, '-');
    CollapseRuns(filtered, IsHyphen, '-')
  }

  /** The letters and digits a slug is built from. */
  predicate IsLowerAlnum(c: char) {
    IsLowerLetter(c) || IsDigit(c)
  }

  /**
   * A slug keeps exactly the letters and digits of the lower-cased text, in
   * their order: the pipeline only removes or rewrites other characters.
   */
  lemma SlugKeepsAlphanumerics(text: string)
    ensures Filter(Slugify(text), IsLowerAlnum) == Filter(Lower(text), IsLowerAlnum)
  {
    var trimmed := Trim(Lower(text));
    var hyphenated := CollapseRuns(trimmed, IsRegexSpace, '-');
    var filtered := Filter(hyphenated, IsSlugChar);
    FilterCollapseRuns(filtered, IsHyphen, '-', IsLowerAlnum);
    FilterFilter(hyphenated, IsSlugChar, IsLowerAlnum);
    FilterCollapseRuns(trimmed, IsRegexSpace, '-', IsLowerAlnum);
    FilterTrim(Lower(text), IsLowerAlnum);
  }

  /** A text that already is a slug (slug characters, no doubled hyphen) is its own slug. */
  lemma SlugifyFixesSlugs(text: string)
    requires All(text, IsSlugChar) && NoDoubled(text, '-')
    ensures Slugify(text) == text
  {
    assert Lower(text) == text by {
      forall i | 0 <= i < |text| ensures Lower(text)[i] == text[i] {
        assert IsSlugChar(text[i]);
      }
    }
    if |text| > 0 {
      assert IsSlugChar(text[0]) && IsSlugChar(text[|text| - 1]);
    }
    assert Trim(text) == text by {
      assert TrimStart(text) == text;
    }
    CollapseRunsOfSingles(text, IsRegexSpace, '-');
    assert CollapseRuns(Trim(Lower(text)), IsRegexSpace, '-') == text;
    FilterKeepsConforming(text, IsSlugChar);
    CollapseRunsOfSingles(text, IsHyphen, '-');
  }

  /** Every prefix of a slug is again made of slug characters without doubled hyphens. */
  lemma PrefixOfSlug(s: string, n: nat)
    requires n <= |s| && All(s, IsSlugChar) && NoDoubled(s, '-')
    ensures All(s[..n], IsSlugChar) && NoDoubled(s[..n], '-')
  {
    assert forall i :: 0 <= i < n ==> s[..n][i] == s[i];
  }

  /**
   * A text holding a character that is not blank and, lower-cased, not a
   * slug character (a '+', a '.', an accented letter) has a slug shorter than
   * itself: trimming and the whitespace step keep that character, the filter
   * then drops it, and no step lengthens the text.
   */
  lemma SlugShorterThanText(text: string, k: nat)
    requires k < |text| && !IsTrimmable(text[k]) && !IsSlugChar(LowerChar(text[k]))
    ensures |Slugify(text)| < |text|
  {
    var x := LowerChar(text[k]);
    var lowered := Lower(text);
    assert lowered[k] == x && !IsTrimmable(x);
    TrimKeeps(lowered, x);
    var trimmed := Trim(lowered);
    CollapseRunsKeeps(trimmed, IsRegexSpace, '-', x);
    CollapseRunsNoLonger(trimmed, IsRegexSpace, '-');
    var hyphenated := CollapseRuns(trimmed, IsRegexSpace, '-');
    FilterDropsShorter(hyphenated, IsSlugChar, x);
    CollapseRunsNoLonger(Filter(hyphenated, IsSlugChar), IsHyphen, '-');
  }
}

/** A course: price and discount, enrollment counter, rating average, publication and slug. */
module Courses {
  import opened Wrappers
  import opened Common
  import opened Strings
  import opened Slugs
  import opened Arith

  datatype CourseStatus = Draft | PendingReview | Approved | Published | Rejected | Archived

  /** `averageRating` is held in hundredths (the column has two decimals). */
  datatype Course = Course(
    title: Option<string>,
    slug: Option<string>,
    price: Cents,
    originalPrice: Option<Cents>,
    status: CourseStatus,
    enrollmentCount: int,
    averageRating: int,
    ratingCount: int,
    isPublished: bool,
    publishedAt: Option<Time>)

  /** A course as the builder produces it. */
  function Create(title: Option<string>, price: Cents, originalPrice: Option<Cents>): (c: Course)
    ensures c.status == Draft && !c.isPublished
    ensures c.enrollmentCount == 0 && c.averageRating == 0 && c.ratingCount == 0
    ensures c.slug.None? && c.title == title && c.price == price && c.originalPrice == originalPrice
  {
    Course(title, None, price, originalPrice, Draft, 0, 0, 0, false, None)
  }

  function IsFree(c: Course): (r: bool)
    ensures r <==> c.price == 0
  {
    c.price == 0
  }

  function HasDiscount(c: Course): (r: bool)
    ensures r <==> c.originalPrice.Some? && c.originalPrice.value > c.price
  {
    c.originalPrice.Some? && c.originalPrice.value > c.price
  }

  /**
   * The discount in whole percent: (original - price) / original rounded
   * half-up to two decimals, times 100. Bean validation keeps both prices at
   * or above zero.
   */
  function DiscountPercentage(c: Course): (r: int)
    requires c.price >= 0
    requires c.originalPrice.Some? ==> c.originalPrice.value >= 0
    ensures 0 <= r <= 100
    ensures !HasDiscount(c) ==> r == 0
    ensures HasDiscount(c) ==>
              var o := c.originalPrice.value;
              var n := 100 * (o - c.price);
              2 * n - o < 2 * r * o <= 2 * n + o
  {
    if !HasDiscount(c) then 0
    else
      var o := c.originalPrice.value;
      RoundHalfUpDivAtMost(100 * (o - c.price), o, 100);
      RoundHalfUpDiv(100 * (o - c.price), o)
  }

  function IncrementEnrollmentCount(c: Course): (r: Course)
    ensures r.enrollmentCount == c.enrollmentCount + 1
    ensures r.(enrollmentCount := c.enrollmentCount) == c
  {
    c.(enrollmentCount := c.enrollmentCount + 1)
  }

  /**
   * Folds one more rating (in hundredths) into the average: the first rating
   * becomes the average, later ones give the mean rounded half up (a tie
   * goes away from zero).
   */
  function UpdateRating(c: Course, rating: int): (r: Course)
    requires c.ratingCount >= 0
    ensures r.ratingCount == c.ratingCount + 1
    ensures c.ratingCount == 0 ==> r.averageRating == rating
    ensures c.ratingCount > 0 ==>
              var total := c.averageRating * c.ratingCount + rating;
              var m := c.ratingCount + 1;
              (total >= 0 ==> 2 * total - m < 2 * r.averageRating * m <= 2 * total + m) &&
              (total < 0 ==> 2 * total - m <= 2 * r.averageRating * m < 2 * total + m)
    ensures r.(averageRating := c.averageRating, ratingCount := c.ratingCount) == c
  {
    if c.ratingCount == 0 then c.(averageRating := rating, ratingCount := 1)
    else
      var total := c.averageRating * c.ratingCount + rating;
      c.(averageRating := RoundHalfUpDiv(total, c.ratingCount + 1), ratingCount := c.ratingCount + 1)
  }

  /** A rating between 0.00 and 5.00 keeps an average between 0.00 and 5.00. */
  lemma UpdateRatingStaysInRange(c: Course, rating: int)
    requires c.ratingCount >= 0
    requires 0 <= c.averageRating <= 500 && 0 <= rating <= 500
    ensures 0 <= UpdateRating(c, rating).averageRating <= 500
  {
    if c.ratingCount > 0 {
      var n := c.ratingCount + 1;
      MulMonotone(c.averageRating, 500, c.ratingCount);
      RoundHalfUpDivAtMost(c.averageRating * c.ratingCount + rating, n, 500);
    }
  }

  function Publish(c: Course, now: Time): (r: Course)
    ensures r.isPublished && r.status == Published && r.publishedAt == Some(now)
    ensures r.(isPublished := c.isPublished, status := c.status, publishedAt := c.publishedAt) == c
  {
    c.(isPublished := true, publishedAt := Some(now), status := Published)
  }

  function Unpublish(c: Course): (r: Course)
    ensures !r.isPublished && r.status == Draft
    ensures r.(isPublished := c.isPublished, status := c.status) == c
  {
    c.(isPublished := false, status := Draft)
  }

  /** Publishing and then unpublishing leaves a draft that keeps its publication time. */
  lemma UnpublishAfterPublish(c: Course, now: Time)
    ensures Unpublish(Publish(c, now)).status == Draft
    ensures !Unpublish(Publish(c, now)).isPublished
    ensures Unpublish(Publish(c, now)).publishedAt == Some(now)
  {
  }

  /**
   * The slug callback as written: the slug is cut to the title's length
   * (at most 200), which fails with an index error whenever the pipeline made
   * the text shorter than that.
   */
  function GenerateSlug(c: Course): (r: Result<Course>)
    ensures c.slug.Some? || c.title.None? ==> r == Ok(c)
    ensures c.slug.None? && c.title.Some? ==>
              var s := Slugify(c.title.value);
              var bound := if |c.title.value| < 200 then |c.title.value| else 200;
              (r.Ok? <==> bound <= |s|) &&
              (r.Ok? ==> r.value == c.(slug := Some(s[..bound])))
  {
    if c.slug.None? && c.title.Some? then
      var title := c.title.value;
      var s := Slugify(title);
      var bound := if |title| < 200 then |title| else 200;
      if bound > |s| then
        Err(Runtime(Some("begin 0, end " + NatToString(bound) + ", length " + NatToString(|s|))))
      else
        Ok(c.(slug := Some(s[..bound])))
    else
      Ok(c)
  }

  /**
   * The callback as written fails for every title of at most 200 characters
   * that holds a character the slug drops: the slug comes out shorter than
   * the cut asks for.
   */
  lemma GenerateSlugFailsOnDroppedChar(c: Course, k: nat)
    requires c.slug.None? && c.title.Some? && |c.title.value| <= 200
    requires k < |c.title.value| && !IsTrimmable(c.title.value[k]) && !IsSlugChar(LowerChar(c.title.value[k]))
    ensures GenerateSlug(c).Err?
  {
    SlugShorterThanText(c.title.value, k);
  }

  /** "C++ Basics", a title within the 10..200 characters the title's size constraint allows, is one of them. */
  lemma GenerateSlugFailsOnCppBasics(c: Course)
    requires c.slug.None? && c.title == Some("C++ Basics")
    ensures 10 <= |c.title.value| <= 200
    ensures GenerateSlug(c).Err?
  {
    assert c.title.value[1] == '+';
    GenerateSlugFailsOnDroppedChar(c, 1);
  }

  /** The slug callback cut to the slug's own length (at most 200): it always succeeds. */
  function GenerateSlugFixed(c: Course): (r: Course)
    ensures c.slug.Some? || c.title.None? ==> r == c
    ensures c.slug.None? && c.title.Some? ==>
              r.slug.Some? && |r.slug.value| <= 200 &&
              All(r.slug.value, IsSlugChar) && NoDoubled(r.slug.value, '-') &&
              StartsWith(Slugify(c.title.value), r.slug.value) &&
              (|Slugify(c.title.value)| <= 200 ==> r.slug.value == Slugify(c.title.value))
    ensures r.(slug := c.slug) == c
  {
    if c.slug.None? && c.title.Some? then
      var s := Slugify(c.title.value);
      var bound := if |s| < 200 then |s| else 200;
      PrefixOfSlug(s, bound);
      c.(slug := Some(s[..bound]))
    else
      c
  }
}

=== FILE: database.dfy ===
/**
 * The persistent state of the backend: one table per repository, and the
 * repository queries the services rely on.
 */
module Database {
  import opened Wrappers
  import opened Common
  import opened Strings
  import opened Tables
  import Courses
  import Enrollments
  import Payments
  import Videos
  import VideoProgresses
  import Sections
  import Quizzes
  import QuizAttempts
  import Users

  datatype Db = Db(
    courses: seq<Courses.Course>,
    enrollments: seq<Enrollments.Enrollment>,
    payments: seq<Payments.Payment>,
    videos: seq<Videos.Video>,
    sections: seq<Sections.Section>,
    progress: seq<VideoProgresses.VideoProgress>,
    quizzes: seq<Quizzes.Quiz>,
    questions: seq<Quizzes.Question>,
    answers: seq<Quizzes.Answer>,
    attempts: seq<QuizAttempts.QuizAttempt>,
    studentAnswers: seq<QuizAttempts.StudentAnswer>,
    users: seq<Users.User>)

  /**
   * The state after a service call together with its answer. Nothing is
   * rolled back: writes made before an exception stay in `db`.
   */
  datatype Outcome<T> = Outcome(db: Db, result: Result<T>)

  /**
   * The state a `@Transactional` method commits: an unchecked exception
   * rolls every write of the call back, anything else keeps them.
   */
  function Committed<T>(before: Db, o: Outcome<T>): (db: Db)
    ensures o.result.Err? && o.result.error.IsRuntime() ==> db == before
    ensures o.result.Ok? ==> db == o.db
  {
    if o.result.Err? && o.result.error.IsRuntime() then before else o.db
  }

  /** The text of an id inside a message (the UUID's `toString`). */
  function IdText(id: Id): string {
    NatToString(id)
  }

  /** `findById(..).orElseThrow(() -> new ResourceNotFoundException(resource, "id", id))`. */
  function NotFoundById(resource: string, id: Id): (e: Exception)
    ensures e.ResourceNotFound? && e.resource == resource && e.field == "id"
  {
    ResourceNotFound(resource, "id", IdText(id))
  }

  /** A finder's optional row: a row index, nothing, or the failure for a non-unique result. */
  function AsOptional(m: Match): (r: Result<Option<nat>>)
    ensures m.NoMatch? <==> r == Ok(None)
    ensures m.OneMatch? <==> r.Ok? && r.value.Some?
    ensures m.OneMatch? ==> r.value.value == m.index
    ensures m.ManyMatches? <==> r == Err(NonUniqueResult)
  {
    match m
    case NoMatch => Ok(None)
    case OneMatch(i) => Ok(Some(i))
    case ManyMatches => Err(NonUniqueResult)
  }

  // Enrollment queries

  function OfStudentAndCourse(studentId: Id, courseId: Id): Enrollments.Enrollment -> bool {
    (e: Enrollments.Enrollment) => e.studentId == studentId && e.courseId == courseId
  }

  /** `existsByStudentIdAndCourseId`: some enrollment pairs the student with the course. */
  function EnrollmentExists(db: Db, studentId: Id, courseId: Id): (b: bool)
    ensures b <==>
              (exists i :: 0 <= i < |db.enrollments| &&
                 db.enrollments[i].studentId == studentId && db.enrollments[i].courseId == courseId)
  {
    Exists(db.enrollments, OfStudentAndCourse(studentId, courseId))
  }

  /** `findByStudentIdAndCourseId`: empty, the enrollment of the pair, or a failure when the pair occurs more than once. */
  function FindEnrollment(db: Db, studentId: Id, courseId: Id): (m: Match)
    ensures m.NoMatch? <==>
              (forall i :: 0 <= i < |db.enrollments| ==>
                 !(db.enrollments[i].studentId == studentId && db.enrollments[i].courseId == courseId))
    ensures m.OneMatch? ==>
              (m.index < |db.enrollments| &&
                 db.enrollments[m.index].studentId == studentId && db.enrollments[m.index].courseId == courseId)
  {
    FindOneRows(db.enrollments, OfStudentAndCourse(studentId, courseId));
    FindOne(db.enrollments, OfStudentAndCourse(studentId, courseId))
  }

  /** The unique constraint on (student, course): every pair occurs at most once. */
  predicate EnrollmentsUnique(db: Db) {
    forall i :: 0 <= i < |db.enrollments| ==>
      Count(db.enrollments, OfStudentAndCourse(db.enrollments[i].studentId, db.enrollments[i].courseId)) == 1
  }

  /** Under the unique constraint the (student, course) finder never sees two rows. */
  lemma UniqueEnrollmentFound(db: Db, studentId: Id, courseId: Id)
    requires EnrollmentsUnique(db)
    ensures !FindEnrollment(db, studentId, courseId).ManyMatches?
  {
  }

  /** Rewriting one enrollment without changing its student or course keeps the constraint. */
  lemma UpdateKeepsEnrollmentsUnique(db: Db, i: nat, e: Enrollments.Enrollment)
    requires EnrollmentsUnique(db) && i < |db.enrollments|
    requires e.studentId == db.enrollments[i].studentId && e.courseId == db.enrollments[i].courseId
    ensures EnrollmentsUnique(db.(enrollments := db.enrollments[i := e]))
  {
    var s := db.enrollments;
    var t := s[i := e];
    forall j | 0 <= j < |t|
      ensures Count(t, OfStudentAndCourse(t[j].studentId, t[j].courseId)) == 1
    {
      assert t[j].studentId == s[j].studentId && t[j].courseId == s[j].courseId;
      UpdateKeepsMatches(s, i, e, OfStudentAndCourse(s[j].studentId, s[j].courseId));
    }
  }

  /** Appending an enrollment for a pair that had none keeps the constraint. */
  lemma AppendKeepsEnrollmentsUnique(db: Db, e: Enrollments.Enrollment)
    requires EnrollmentsUnique(db) && !EnrollmentExists(db, e.studentId, e.courseId)
    ensures EnrollmentsUnique(db.(enrollments := db.enrollments + [e]))
  {
    var s := db.enrollments;
    var t := s + [e];
    forall j | 0 <= j < |t|
      ensures Count(t, OfStudentAndCourse(t[j].studentId, t[j].courseId)) == 1
    {
      var p := OfStudentAndCourse(t[j].studentId, t[j].courseId);
      CountAppend(s, e, p);
      if j < |s| {
        assert t[j] == s[j];
      }
    }
  }

  // Payment queries

  function SuccessfulPaymentOf(enrollmentId: Id): Payments.Payment -> bool {
    (p: Payments.Payment) => p.enrollmentId == enrollmentId && p.status == Payments.Success
  }

  /** `hasSuccessfulPayment`: some payment of the enrollment is SUCCESS. */
  function HasSuccessfulPayment(db: Db, enrollmentId: Id): (b: bool)
    ensures b <==>
              (exists i :: 0 <= i < |db.payments| &&
                 db.payments[i].enrollmentId == enrollmentId && db.payments[i].status == Payments.Success)
  {
    Exists(db.payments, SuccessfulPaymentOf(enrollmentId))
  }

  /** `findByCheckoutRequestId`; a null argument matches the payments that have no checkout id. */
  function ByCheckoutRequestId(checkoutRequestId: Option<string>): Payments.Payment -> bool {
    (p: Payments.Payment) => p.checkoutRequestId == checkoutRequestId
  }

  /** `findByTransactionReference`; a null argument matches no payment, every payment having a reference. */
  function ByTransactionReference(reference: Option<string>): Payments.Payment -> bool {
    (p: Payments.Payment) => Some(p.transactionReference) == reference
  }

  /** The payment carrying the checkout id: empty, that payment, or a failure when several carry it. */
  function FindPaymentByCheckout(db: Db, checkoutRequestId: Option<string>): (m: Match)
    ensures m.NoMatch? <==> forall i :: 0 <= i < |db.payments| ==> db.payments[i].checkoutRequestId != checkoutRequestId
    ensures m.OneMatch? ==> m.index < |db.payments| && db.payments[m.index].checkoutRequestId == checkoutRequestId
  {
    FindOneRows(db.payments, ByCheckoutRequestId(checkoutRequestId));
    FindOne(db.payments, ByCheckoutRequestId(checkoutRequestId))
  }

  /** The payment with the reference: empty (always, for a null reference), that payment, or a failure when several have it. */
  function FindPaymentByReference(db: Db, reference: Option<string>): (m: Match)
    ensures reference.None? ==> m.NoMatch?
    ensures m.NoMatch? <==> forall i :: 0 <= i < |db.payments| ==> Some(db.payments[i].transactionReference) != reference
    ensures m.OneMatch? ==> m.index < |db.payments| && Some(db.payments[m.index].transactionReference) == reference
  {
    FindOneRows(db.payments, ByTransactionReference(reference));
    FindOne(db.payments, ByTransactionReference(reference))
  }

  /** Rewriting one payment without changing its keys leaves both payment finders as they were. */
  lemma UpdateKeepsPaymentLookups(db: Db, i: nat, p: Payments.Payment, checkoutRequestId: Option<string>,
                                  reference: Option<string>)
    requires i < |db.payments|
    requires p.checkoutRequestId == db.payments[i].checkoutRequestId
    requires p.transactionReference == db.payments[i].transactionReference
    ensures FindPaymentByCheckout(db.(payments := db.payments[i := p]), checkoutRequestId)
         == FindPaymentByCheckout(db, checkoutRequestId)
    ensures FindPaymentByReference(db.(payments := db.payments[i := p]), reference)
         == FindPaymentByReference(db, reference)
  {
    UpdateKeepsMatches(db.payments, i, p, ByCheckoutRequestId(checkoutRequestId));
    UpdateKeepsMatches(db.payments, i, p, ByTransactionReference(reference));
  }

  // Video and progress queries

  function OfStudentAndVideo(studentId: Id, videoId: Id): VideoProgresses.VideoProgress -> bool {
    (p: VideoProgresses.VideoProgress) => p.studentId == studentId && p.videoId == videoId
  }

  /** `findByStudentIdAndVideoId`: empty, the student's row for the video, or a failure when there are several. */
  function FindProgress(db: Db, studentId: Id, videoId: Id): (m: Match)
    ensures m.NoMatch? <==>
              (forall i :: 0 <= i < |db.progress| ==>
                 !(db.progress[i].studentId == studentId && db.progress[i].videoId == videoId))
    ensures m.OneMatch? ==>
              (m.index < |db.progress| &&
                 db.progress[m.index].studentId == studentId && db.progress[m.index].videoId == videoId)
  {
    FindOneRows(db.progress, OfStudentAndVideo(studentId, videoId));
    FindOne(db.progress, OfStudentAndVideo(studentId, videoId))
  }

  function CompletedProgressOf(enrollmentId: Id): VideoProgresses.VideoProgress -> bool {
    (p: VideoProgresses.VideoProgress) => p.enrollmentId == enrollmentId && p.isCompleted
  }

  /** `countCompletedVideosByEnrollmentId`: completed progress rows of the enrollment. */
  function CompletedVideos(db: Db, enrollmentId: Id): (n: nat)
    ensures n == |set i: nat | i < |db.progress| && db.progress[i].enrollmentId == enrollmentId && db.progress[i].isCompleted|
  {
    CountIsCardinality(db.progress, CompletedProgressOf(enrollmentId),
                       set i: nat | i < |db.progress| && db.progress[i].enrollmentId == enrollmentId && db.progress[i].isCompleted);
    Count(db.progress, CompletedProgressOf(enrollmentId))
  }

  function VideoOfCourse(courseId: Id): Videos.Video -> bool {
    (v: Videos.Video) => v.courseId == courseId
  }

  /** `countByCourseId` on videos. */
  function VideosInCourse(db: Db, courseId: Id): (n: nat)
    ensures n == |set i: nat | i < |db.videos| && db.videos[i].courseId == courseId|
  {
    CountIsCardinality(db.videos, VideoOfCourse(courseId), set i: nat | i < |db.videos| && db.videos[i].courseId == courseId);
    Count(db.videos, VideoOfCourse(courseId))
  }

  // Quiz queries

  function InProgressOf(studentId: Id, quizId: Id): QuizAttempts.QuizAttempt -> bool {
    (a: QuizAttempts.QuizAttempt) => a.studentId == studentId && a.quizId == quizId && a.status == QuizAttempts.InProgress
  }

  /** `findInProgressAttempt`: empty, the student's IN_PROGRESS attempt at the quiz, or a failure when there are several. */
  function FindInProgressAttempt(db: Db, studentId: Id, quizId: Id): (m: Match)
    ensures m.NoMatch? <==>
              (forall i :: 0 <= i < |db.attempts| ==>
                 !(db.attempts[i].studentId == studentId && db.attempts[i].quizId == quizId &&
                   db.attempts[i].status == QuizAttempts.InProgress))
    ensures m.OneMatch? ==>
              (m.index < |db.attempts| &&
                 db.attempts[m.index].studentId == studentId && db.attempts[m.index].quizId == quizId &&
                 db.attempts[m.index].status == QuizAttempts.InProgress)
  {
    FindOneRows(db.attempts, InProgressOf(studentId, quizId));
    FindOne(db.attempts, InProgressOf(studentId, quizId))
  }

  function AttemptOf(studentId: Id, quizId: Id): QuizAttempts.QuizAttempt -> bool {
    (a: QuizAttempts.QuizAttempt) => a.studentId == studentId && a.quizId == quizId
  }

  /** `countAttemptsByStudentAndQuiz`: attempts of any status. */
  function AttemptCount(db: Db, studentId: Id, quizId: Id): (n: nat)
    ensures n == |set i: nat | i < |db.attempts| && db.attempts[i].studentId == studentId && db.attempts[i].quizId == quizId|
  {
    CountIsCardinality(db.attempts, AttemptOf(studentId, quizId),
                       set i: nat | i < |db.attempts| && db.attempts[i].studentId == studentId && db.attempts[i].quizId == quizId);
    Count(db.attempts, AttemptOf(studentId, quizId))
  }

  function PassedAttemptOf(enrollmentId: Id): QuizAttempts.QuizAttempt -> bool {
    (a: QuizAttempts.QuizAttempt) => a.enrollmentId == enrollmentId && a.isPassed == Some(true)
  }

  /** `countPassedQuizzesByEnrollmentId`: passed attempts, not distinct quizzes. */
  function PassedAttempts(db: Db, enrollmentId: Id): (n: nat)
    ensures n == |set i: nat | i < |db.attempts| && db.attempts[i].enrollmentId == enrollmentId && db.attempts[i].isPassed == Some(true)|
  {
    CountIsCardinality(db.attempts, PassedAttemptOf(enrollmentId),
                       set i: nat | i < |db.attempts| && db.attempts[i].enrollmentId == enrollmentId && db.attempts[i].isPassed == Some(true));
    Count(db.attempts, PassedAttemptOf(enrollmentId))
  }

  function RequiredQuizOf(courseId: Id): Quizzes.Quiz -> bool {
    (q: Quizzes.Quiz) => q.courseId == courseId && q.isRequired
  }

  /** The size of `findRequiredQuizzesByCourseId`: required quizzes, published or not. */
  function RequiredQuizzes(db: Db, courseId: Id): (n: nat)
    ensures n == |set i: nat | i < |db.quizzes| && db.quizzes[i].courseId == courseId && db.quizzes[i].isRequired|
  {
    CountIsCardinality(db.quizzes, RequiredQuizOf(courseId),
                       set i: nat | i < |db.quizzes| && db.quizzes[i].courseId == courseId && db.quizzes[i].isRequired);
    Count(db.quizzes, RequiredQuizOf(courseId))
  }

  function ActivePointsOf(quizId: Id): Quizzes.Question -> int {
    (q: Quizzes.Question) => if q.quizId == quizId && q.isActive then q.points else 0
  }

  /** `getTotalPointsByQuizId`: the points of the quiz's active questions, 0 when there are none. */
  function TotalPoints(db: Db, quizId: Id): (r: int)
    ensures (forall i :: 0 <= i < |db.questions| ==> !(db.questions[i].quizId == quizId && db.questions[i].isActive)) ==> r == 0
    ensures (forall i :: 0 <= i < |db.questions| && db.questions[i].quizId == quizId && db.questions[i].isActive ==>
               db.questions[i].points >= 0) ==> r >= 0
  {
    SumBounds(db.questions, ActivePointsOf(quizId));
    Sum(db.questions, ActivePointsOf(quizId))
  }

  function AnswerOf(attemptId: Id, questionId: Id): QuizAttempts.StudentAnswer -> bool {
    (a: QuizAttempts.StudentAnswer) => a.attemptId == attemptId && a.questionId == questionId
  }

  /** `findByAttemptIdAndQuestionId`: empty, the attempt's answer to the question, or a failure when there are several. */
  function FindAnswer(db: Db, attemptId: Id, questionId: Id): (m: Match)
    ensures m.NoMatch? <==>
              (forall i :: 0 <= i < |db.studentAnswers| ==>
                 !(db.studentAnswers[i].attemptId == attemptId && db.studentAnswers[i].questionId == questionId))
    ensures m.OneMatch? ==>
              (m.index < |db.studentAnswers| &&
                 db.studentAnswers[m.index].attemptId == attemptId && db.studentAnswers[m.index].questionId == questionId)
  {
    FindOneRows(db.studentAnswers, AnswerOf(attemptId, questionId));
    FindOne(db.studentAnswers, AnswerOf(attemptId, questionId))
  }

  function CorrectAnswerOf(attemptId: Id): QuizAttempts.StudentAnswer -> bool {
    (a: QuizAttempts.StudentAnswer) => a.attemptId == attemptId && a.isCorrect
  }

  /** The correct answers among `findByAttemptId`. */
  function CorrectAnswers(db: Db, attemptId: Id): (n: nat)
    ensures n == |set i: nat | i < |db.studentAnswers| && db.studentAnswers[i].attemptId == attemptId && db.studentAnswers[i].isCorrect|
  {
    CountIsCardinality(db.studentAnswers, CorrectAnswerOf(attemptId),
                       set i: nat | i < |db.studentAnswers| && db.studentAnswers[i].attemptId == attemptId && db.studentAnswers[i].isCorrect);
    Count(db.studentAnswers, CorrectAnswerOf(attemptId))
  }

  function PointsOf(attemptId: Id): QuizAttempts.StudentAnswer -> int {
    (a: QuizAttempts.StudentAnswer) => if a.attemptId == attemptId then a.pointsEarned else 0
  }

  /** The points earned over `findByAttemptId`. */
  function PointsEarned(db: Db, attemptId: Id): (r: int)
    ensures (forall i :: 0 <= i < |db.studentAnswers| ==> db.studentAnswers[i].attemptId != attemptId) ==> r == 0
    ensures (forall i :: 0 <= i < |db.studentAnswers| && db.studentAnswers[i].attemptId == attemptId ==>
               db.studentAnswers[i].pointsEarned >= 0) ==> r >= 0
  {
    SumBounds(db.studentAnswers, PointsOf(attemptId));
    Sum(db.studentAnswers, PointsOf(attemptId))
  }

  // User queries

  function WithEmail(email: Option<string>): Users.User -> bool {
    (u: Users.User) => Some(u.email) == email
  }

  /** `findByEmail`: exact, case-sensitive match; empty for a null email. */
  function FindUserByEmail(db: Db, email: Option<string>): (m: Match)
    ensures email.None? ==> m.NoMatch?
    ensures m.NoMatch? <==> forall i :: 0 <= i < |db.users| ==> Some(db.users[i].email) != email
    ensures m.OneMatch? ==> m.index < |db.users| && Some(db.users[m.index].email) == email
  {
    FindOneRows(db.users, WithEmail(email));
    FindOne(db.users, WithEmail(email))
  }

  function WithEmailIgnoreCase(email: string): Users.User -> bool {
    (u: Users.User) => EqualsIgnoreCase(u.email, email)
  }

  /** `existsByEmailIgnoreCase`: some user's email equals `email` up to ASCII case. */
  function EmailTaken(db: Db, email: string): (b: bool)
    ensures b <==> exists i :: 0 <= i < |db.users| && EqualsIgnoreCase(db.users[i].email, email)
  {
    Exists(db.users, WithEmailIgnoreCase(email))
  }
}

=== FILE: enrollment.dfy ===
/** A student's enrollment in a course: its status machine, progress and access rule. */
module Enrollments {
  import opened Wrappers
  import opened Common

  datatype EnrollmentStatus = PendingPayment | Active | Completed | Suspended | Cancelled | Expired

  datatype Enrollment = Enrollment(
    studentId: Id,
    courseId: Id,
    pricePaid: Cents,
    paymentId: Option<Id>,
    status: EnrollmentStatus,
    progressPercentage: int,
    videosCompleted: bool,
    quizzesCompleted: bool,
    isCompleted: bool,
    completedAt: Option<Time>,
    lastAccessedAt: Option<Time>,
    expiresAt: Option<Time>)

  /** An enrollment as the builder produces it when only the owner, course and price are given. */
  function Create(studentId: Id, courseId: Id, pricePaid: Cents): (e: Enrollment)
    ensures e.status == PendingPayment && e.progressPercentage == 0
    ensures !e.videosCompleted && !e.quizzesCompleted && !e.isCompleted
    ensures e.paymentId.None? && e.completedAt.None? && e.expiresAt.None?
    ensures e.studentId == studentId && e.courseId == courseId && e.pricePaid == pricePaid
  {
    Enrollment(studentId, courseId, pricePaid, None, PendingPayment, 0, false, false, false, None, None, None)
  }

  /** Stores the percentage clamped into [0, 100] and touches the last-access time. */
  function UpdateProgress(e: Enrollment, percentage: int, now: Time): (r: Enrollment)
    ensures 0 <= r.progressPercentage <= 100
    ensures 0 <= percentage <= 100 ==> r.progressPercentage == percentage
    ensures percentage < 0 ==> r.progressPercentage == 0
    ensures percentage > 100 ==> r.progressPercentage == 100
    ensures r.lastAccessedAt == Some(now)
    ensures r.(progressPercentage := e.progressPercentage, lastAccessedAt := e.lastAccessedAt) == e
  {
    var clamped := if percentage < 0 then 0 else if percentage > 100 then 100 else percentage;
    e.(progressPercentage := clamped, lastAccessedAt := Some(now))
  }

  /** Only a PENDING_PAYMENT enrollment becomes ACTIVE (recording the payment); any other is left as is. */
  function Activate(e: Enrollment, paymentId: Id): (r: Enrollment)
    ensures e.status == PendingPayment ==> r.status == Active && r.paymentId == Some(paymentId)
    ensures e.status == PendingPayment ==> r.(status := e.status, paymentId := e.paymentId) == e
    ensures e.status != PendingPayment ==> r == e
  {
    if e.status == PendingPayment then e.(status := Active, paymentId := Some(paymentId)) else e
  }

  /** Completes the enrollment unconditionally: whatever its status or flags were. */
  function MarkAsCompleted(e: Enrollment, now: Time): (r: Enrollment)
    ensures r.isCompleted && r.progressPercentage == 100 && r.status == Completed
    ensures r.completedAt == Some(now)
    ensures r.videosCompleted == e.videosCompleted && r.quizzesCompleted == e.quizzesCompleted
    ensures r.studentId == e.studentId && r.courseId == e.courseId && r.pricePaid == e.pricePaid
    ensures r.paymentId == e.paymentId && r.expiresAt == e.expiresAt
  {
    e.(isCompleted := true, completedAt := Some(now), progressPercentage := 100, status := Completed)
  }

  function IsExpired(e: Enrollment, now: Time): (r: bool)
    ensures r <==> e.expiresAt.Some? && now > e.expiresAt.value
    ensures e.expiresAt.None? ==> !r
  {
    match e.expiresAt
    case None => false
    case Some(t) => now > t
  }

  /** Content is reachable only through an ACTIVE or COMPLETED enrollment that has not expired. */
  function IsAccessible(e: Enrollment, now: Time): (r: bool)
    ensures r <==> (e.status == Active || e.status == Completed) && !(e.expiresAt.Some? && now > e.expiresAt.value)
    ensures e.status in {PendingPayment, Suspended, Cancelled, Expired} ==> !r
  {
    (e.status == Active || e.status == Completed) && !IsExpired(e, now)
  }

  /** Activation never revives an enrollment that was cancelled, suspended or expired. */
  lemma ActivateNeverRevives(e: Enrollment, paymentId: Id, now: Time)
    requires e.status in {Suspended, Cancelled, Expired}
    ensures !IsAccessible(Activate(e, paymentId), now)
    ensures Activate(e, paymentId).status == e.status
  {
  }

  /** Clamping is idempotent: storing the stored percentage again changes nothing but the access time. */
  lemma UpdateProgressIdempotent(e: Enrollment, percentage: int, now: Time, later: Time)
    ensures UpdateProgress(UpdateProgress(e, percentage, now), UpdateProgress(e, percentage, now).progressPercentage, later)
         == UpdateProgress(e, percentage, later)
  {
  }
}

=== FILE: enrollment_service.dfy ===
/**
 * Enrolment of students in courses: a free course gives an active enrollment
 * at once, a priced one waits for its payment; activation after payment;
 * the access check and the stored progress.
 */
module EnrollmentService {
  import opened Wrappers
  import opened Common
  import opened Tables
  import opened Database
  import Courses
  import Enrollments

  const AlreadyEnrolled: Exception := IllegalArgument("You are already enrolled in this course")
  const NotAvailable: Exception := IllegalArgument("This course is not available for enrollment")

  /**
   * `enrollInCourse`: rejects a pair that is already enrolled before reading
   * the course, then a missing or unpublished course; otherwise appends the
   * enrollment (its id is the answer) and counts a free course's new student.
   */
  function EnrollInCourse(db: Db, studentId: Id, courseId: Id): (o: Outcome<Id>)
    ensures EnrollmentExists(db, studentId, courseId) ==> o == Outcome(db, Err(AlreadyEnrolled))
    ensures !EnrollmentExists(db, studentId, courseId) && courseId >= |db.courses| ==>
              o == Outcome(db, Err(NotFoundById("Course", courseId)))
    ensures !EnrollmentExists(db, studentId, courseId) && courseId < |db.courses| &&
            !db.courses[courseId].isPublished ==>
              o == Outcome(db, Err(NotAvailable))
    ensures o.result.Ok? <==>
              !EnrollmentExists(db, studentId, courseId) && courseId < |db.courses| && db.courses[courseId].isPublished
    ensures o.result.Ok? ==>
              var c := db.courses[courseId];
              o.result.value == |db.enrollments| && |o.db.enrollments| == |db.enrollments| + 1 &&
              o.db.enrollments[..|db.enrollments|] == db.enrollments &&
              var e := o.db.enrollments[o.result.value];
              e.studentId == studentId && e.courseId == courseId && e.pricePaid == c.price &&
              (e.status == Enrollments.Active <==> c.price == 0) &&
              (c.price != 0 ==> e.status == Enrollments.PendingPayment) &&
              e.progressPercentage == 0 && !e.videosCompleted && !e.quizzesCompleted && !e.isCompleted &&
              |o.db.courses| == |db.courses| &&
              o.db.courses == db.courses[courseId := o.db.courses[courseId]] &&
              o.db.courses[courseId].enrollmentCount == c.enrollmentCount + (if c.price == 0 then 1 else 0) &&
              o.db.courses[courseId].(enrollmentCount := c.enrollmentCount) == c
    ensures o.db.(enrollments := db.enrollments, courses := db.courses) == db
  {
    if EnrollmentExists(db, studentId, courseId) then Outcome(db, Err(AlreadyEnrolled))
    else if courseId >= |db.courses| then Outcome(db, Err(NotFoundById("Course", courseId)))
    else
      var course := db.courses[courseId];
      if !course.isPublished then Outcome(db, Err(NotAvailable))
      else
        var status := if Courses.IsFree(course) then Enrollments.Active else Enrollments.PendingPayment;
        var e := Enrollments.Create(studentId, courseId, course.price).(status := status);
        var courses := if Courses.IsFree(course) then db.courses[courseId := Courses.IncrementEnrollmentCount(course)]
                       else db.courses;
        Outcome(db.(enrollments := db.enrollments + [e], courses := courses), Ok(|db.enrollments|))
  }

  /**
   * `activateEnrollment`: activates the enrollment (a no-op unless it is
   * pending payment) and then adds one to its course's counter on every call.
   * A missing course is reported after the activation has been written.
   */
  function ActivateEnrollment(db: Db, enrollmentId: Id, paymentId: Id): (o: Outcome<()>)
    ensures enrollmentId >= |db.enrollments| ==> o == Outcome(db, Err(NotFoundById("Enrollment", enrollmentId)))
    ensures enrollmentId < |db.enrollments| ==>
              var e := db.enrollments[enrollmentId];
              o.db.enrollments == db.enrollments[enrollmentId := Enrollments.Activate(e, paymentId)] &&
              (e.courseId >= |db.courses| ==>
                 o.result == Err(NotFoundById("Course", e.courseId)) && o.db.courses == db.courses) &&
              (e.courseId < |db.courses| ==>
                 o.result == Ok(()) && |o.db.courses| == |db.courses| &&
                 o.db.courses == db.courses[e.courseId := o.db.courses[e.courseId]] &&
                 o.db.courses[e.courseId].enrollmentCount == db.courses[e.courseId].enrollmentCount + 1 &&
                 o.db.courses[e.courseId].(enrollmentCount := db.courses[e.courseId].enrollmentCount)
                   == db.courses[e.courseId])
    ensures o.db.(enrollments := db.enrollments, courses := db.courses) == db
  {
    if enrollmentId >= |db.enrollments| then Outcome(db, Err(NotFoundById("Enrollment", enrollmentId)))
    else
      var e := Enrollments.Activate(db.enrollments[enrollmentId], paymentId);
      var db1 := db.(enrollments := db.enrollments[enrollmentId := e]);
      if e.courseId >= |db1.courses| then Outcome(db1, Err(NotFoundById("Course", e.courseId)))
      else
        var c := Courses.IncrementEnrollmentCount(db1.courses[e.courseId]);
        Outcome(db1.(courses := db1.courses[e.courseId := c]), Ok(()))
  }

  /** `hasAccess`: some enrollment of the pair is accessible (a non-unique pair is a failure). */
  function HasAccess(db: Db, studentId: Id, courseId: Id, now: Time): (r: Result<bool>)
    ensures r.Err? <==> Count(db.enrollments, OfStudentAndCourse(studentId, courseId)) >= 2
    ensures r.Err? ==> r.error == NonUniqueResult
    ensures r.Ok? ==>
              (r.value <==> exists i :: 0 <= i < |db.enrollments| && db.enrollments[i].studentId == studentId &&
                                       db.enrollments[i].courseId == courseId &&
                                       Enrollments.IsAccessible(db.enrollments[i], now))
  {
    match FindEnrollment(db, studentId, courseId)
    case NoMatch => Ok(false)
    case OneMatch(i) => Ok(Enrollments.IsAccessible(db.enrollments[i], now))
    case ManyMatches => Err(NonUniqueResult)
  }

  /** `updateProgress`: stores the percentage, clamped into [0, 100], on an existing enrollment. */
  function UpdateProgress(db: Db, enrollmentId: Id, percentage: int, now: Time): (o: Outcome<()>)
    ensures enrollmentId >= |db.enrollments| ==> o == Outcome(db, Err(NotFoundById("Enrollment", enrollmentId)))
    ensures enrollmentId < |db.enrollments| ==>
              o.result == Ok(()) && |o.db.enrollments| == |db.enrollments| &&
              o.db.enrollments == db.enrollments[enrollmentId := o.db.enrollments[enrollmentId]] &&
              var e := o.db.enrollments[enrollmentId];
              0 <= e.progressPercentage <= 100 &&
              (0 <= percentage <= 100 ==> e.progressPercentage == percentage) &&
              e.status == db.enrollments[enrollmentId].status &&
              e.isCompleted == db.enrollments[enrollmentId].isCompleted
    ensures o.db.(enrollments := db.enrollments) == db
  {
    if enrollmentId >= |db.enrollments| then Outcome(db, Err(NotFoundById("Enrollment", enrollmentId)))
    else
      var e := Enrollments.UpdateProgress(db.enrollments[enrollmentId], percentage, now);
      Outcome(db.(enrollments := db.enrollments[enrollmentId := e]), Ok(()))
  }

  /** Enrolling the same pair a second time is rejected as "already enrolled" and changes nothing. */
  lemma EnrollTwiceRejected(db: Db, studentId: Id, courseId: Id)
    requires EnrollInCourse(db, studentId, courseId).result.Ok?
    ensures var db1 := EnrollInCourse(db, studentId, courseId).db;
            EnrollInCourse(db1, studentId, courseId) == Outcome(db1, Err(AlreadyEnrolled))
  {
    var o := EnrollInCourse(db, studentId, courseId);
    var p := OfStudentAndCourse(studentId, courseId);
    assert o.db.enrollments == db.enrollments + [o.db.enrollments[|db.enrollments|]];
    CountAppend(db.enrollments, o.db.enrollments[|db.enrollments|], p);
  }

  /** Enrolment keeps every (student, course) pair unique. */
  lemma EnrollKeepsUnique(db: Db, studentId: Id, courseId: Id)
    requires EnrollmentsUnique(db)
    ensures EnrollmentsUnique(EnrollInCourse(db, studentId, courseId).db)
  {
    var o := EnrollInCourse(db, studentId, courseId);
    if o.result.Ok? {
      var e := o.db.enrollments[|db.enrollments|];
      assert o.db.enrollments == db.enrollments + [e];
      AppendKeepsEnrollmentsUnique(db, e);
    }
  }

  /** A new enrollment in a free course gives access at once; in a priced course it does not. */
  lemma EnrollmentAccessFollowsPrice(db: Db, studentId: Id, courseId: Id, now: Time)
    requires EnrollInCourse(db, studentId, courseId).result.Ok?
    ensures var db1 := EnrollInCourse(db, studentId, courseId).db;
            HasAccess(db1, studentId, courseId, now) == Ok(db.courses[courseId].price == 0)
  {
    var o := EnrollInCourse(db, studentId, courseId);
    var e := o.db.enrollments[|db.enrollments|];
    assert o.db.enrollments == db.enrollments + [e];
    CountAppend(db.enrollments, e, OfStudentAndCourse(studentId, courseId));
  }

  /**
   * Activation counts a student again on every call: activating twice adds
   * two to the course counter although the second call leaves the enrollment
   * as the first one did.
   */
  lemma ActivationCountsEveryCall(db: Db, enrollmentId: Id, paymentId: Id)
    requires enrollmentId < |db.enrollments| && db.enrollments[enrollmentId].courseId < |db.courses|
    ensures var db1 := ActivateEnrollment(db, enrollmentId, paymentId).db;
            var db2 := ActivateEnrollment(db1, enrollmentId, paymentId).db;
            var c := db.enrollments[enrollmentId].courseId;
            db2.enrollments == db1.enrollments &&
            db2.courses[c].enrollmentCount == db.courses[c].enrollmentCount + 2
  {
  }

  /** Activation and progress updates keep every (student, course) pair unique. */
  lemma ActivateAndProgressKeepUnique(db: Db, enrollmentId: Id, paymentId: Id, percentage: int, now: Time)
    requires EnrollmentsUnique(db)
    ensures EnrollmentsUnique(ActivateEnrollment(db, enrollmentId, paymentId).db)
    ensures EnrollmentsUnique(UpdateProgress(db, enrollmentId, percentage, now).db)
  {
    if enrollmentId < |db.enrollments| {
      var e := db.enrollments[enrollmentId];
      UpdateKeepsEnrollmentsUnique(db, enrollmentId, Enrollments.Activate(e, paymentId));
      UpdateKeepsEnrollmentsUnique(db, enrollmentId, Enrollments.UpdateProgress(e, percentage, now));
    }
  }
}

=== FILE: mediaconvert.dfy ===
/**
 * `MediaConvertService`: creating a transcoding job for an uploaded video,
 * either simulated (mock mode, or no client available) or submitted to AWS
 * Elemental MediaConvert, and polling a job's status. The submission to AWS
 * and the status it reports are outcomes supplied by the caller.
 */
module MediaConvert {
  import opened Wrappers
  import opened Common
  import opened Strings

  datatype JobStatus = Submitted | Processing | Complete | Error | Disabled

  /** What a job yields; `qualityOutputs` maps a quality name ("720p") to an object key. */
  datatype TranscodingJobResult = TranscodingJobResult(
    videoId: Option<Id>,
    jobId: Option<string>,
    originalS3Key: Option<string>,
    qualityOutputs: map<string, string>,
    durationSeconds: Option<int>,
    status: JobStatus,
    errorMessage: Option<string>)

  /** `TranscodingJobResult.failed`. */
  function Failed(videoId: Option<Id>, key: Option<string>, error: string): (r: TranscodingJobResult)
    ensures r.status == Error && r.errorMessage == Some(error)
    ensures r.videoId == videoId && r.originalS3Key == key
    ensures r.jobId.None? && r.durationSeconds.None? && r.qualityOutputs == map[]
  {
    TranscodingJobResult(videoId, None, key, map[], None, Error, Some(error))
  }

  /** `TranscodingJobResult.disabled`. */
  function DisabledResult(videoId: Option<Id>, key: Option<string>): (r: TranscodingJobResult)
    ensures r.status == Disabled && r.errorMessage.None?
    ensures r.videoId == videoId && r.originalS3Key == key
    ensures r.jobId.None? && r.durationSeconds.None? && r.qualityOutputs == map[]
  {
    TranscodingJobResult(videoId, None, key, map[], None, Disabled, None)
  }

  /** The service's settings; `hasClient` says whether an AWS client was configured. */
  datatype Config = Config(enabled: bool, useMock: bool, hasClient: bool, outputBucket: string, roleArn: string)

  /** What submitting a job to AWS yields: its id, a service error, or any other exception. */
  datatype Submission = Created(jobId: string) | AwsFailure(errorMessage: string) | OtherFailure(message: Option<string>)

  const MockDurationSeconds := 300
  const MockQualities: set<string> := {"360p", "720p", "1080p"}

  /** `generateMockOutputKey`: every ".mp4" in the key gets the quality before it. */
  function MockOutputKey(baseKey: string, quality: string): string {
    ReplaceAll(baseKey, ".mp4", "_" + quality + ".mp4")
  }

  /** A name with no "." before its ".mp4" ending gets the quality just before that ending. */
  lemma MockOutputKeyOfName(name: string, quality: string)
    requires '.' !in name
    ensures MockOutputKey(name + ".mp4", quality) == name + "_" + quality + ".mp4"
  {
    var x := "_" + quality + ".mp4";
    ReplaceAllBefore(name, ".mp4", ".mp4", x);
    ReplaceAllLeading(".mp4", "", x);
    assert ".mp4" + "" == ".mp4";
  }

  /** A key without any "." has no ".mp4" to mark and is kept as it is. */
  lemma MockOutputKeyWithoutExtension(key: string, quality: string)
    requires '.' !in key
    ensures MockOutputKey(key, quality) == key
  {
    ReplaceAllBefore(key, "", ".mp4", "_" + quality + ".mp4");
    assert key + "" == key;
  }

  /** The object key a mock rendition of `key` has for `quality`. */
  function MockRenditionKey(key: string, quality: string): string {
    MockOutputKey(ReplaceAll(key, "videos/", "processed/"), quality)
  }

  /**
   * `mockTranscodingJob` after its simulated delay: a complete job with the
   * three renditions and a fixed duration; `jobUuid` is the random UUID the
   * job id is made from.
   */
  function MockJob(videoId: Id, key: string, jobUuid: string): (r: TranscodingJobResult)
    requires |jobUuid| >= 8
    ensures r.status == Complete && r.videoId == Some(videoId) && r.originalS3Key == Some(key)
    ensures r.jobId == Some("MOCK-JOB-" + jobUuid[..8])
    ensures r.qualityOutputs.Keys == MockQualities
    ensures forall q :: q in r.qualityOutputs ==> r.qualityOutputs[q] == MockRenditionKey(key, q)
    ensures r.durationSeconds == Some(MockDurationSeconds) && r.errorMessage.None?
  {
    var outputs := map q | q in MockQualities :: MockRenditionKey(key, q);
    TranscodingJobResult(Some(videoId), Some("MOCK-JOB-" + jobUuid[..8]), Some(key), outputs,
                         Some(MockDurationSeconds), Complete, None)
  }

  /**
   * `realTranscodingJob`: the output bucket and IAM role must be configured;
   * an accepted job is only submitted, its completion arrives later by webhook.
   */
  function RealJob(cfg: Config, videoId: Id, key: string, submission: Submission): (r: TranscodingJobResult)
    ensures r.videoId == Some(videoId) && r.originalS3Key == Some(key)
    ensures r.status == Submitted <==> cfg.outputBucket != "" && cfg.roleArn != "" && submission.Created?
    ensures r.status == Submitted ==> r.jobId == Some(submission.jobId) && r.errorMessage.None?
    ensures r.status != Submitted ==> r.status == Error && r.errorMessage.Some?
    ensures cfg.outputBucket == "" ==> r.errorMessage == Some("Output bucket not configured")
    ensures cfg.outputBucket != "" && cfg.roleArn == "" ==> r.errorMessage == Some("IAM role ARN not configured")
  {
    if cfg.outputBucket == "" then Failed(Some(videoId), Some(key), "Output bucket not configured")
    else if cfg.roleArn == "" then Failed(Some(videoId), Some(key), "IAM role ARN not configured")
    else
      match submission
      case Created(id) => TranscodingJobResult(Some(videoId), Some(id), Some(key), map[], None, Submitted, None)
      case AwsFailure(m) => Failed(Some(videoId), Some(key), "AWS error: " + m)
      case OtherFailure(m) => Failed(Some(videoId), Some(key), "Unexpected error: " + m.UnwrapOr("null"))
  }

  /** The arguments `createTranscodingJob` accepts: an id and a non-empty key. */
  predicate ValidRequest(videoId: Option<Id>, key: Option<string>) {
    videoId.Some? && key.Some? && key.value != ""
  }

  /**
   * `createTranscodingJob`: invalid arguments and a disabled service are
   * answered at once; otherwise the mock runs when asked for or when there is
   * no client, and the AWS job otherwise.
   */
  function CreateTranscodingJob(cfg: Config, videoId: Option<Id>, key: Option<string>,
                                jobUuid: string, submission: Submission): (r: TranscodingJobResult)
    requires |jobUuid| >= 8
    ensures r.videoId == videoId && r.originalS3Key == key
    ensures !ValidRequest(videoId, key) ==> r == Failed(videoId, key, "Invalid parameters")
    ensures ValidRequest(videoId, key) && !cfg.enabled ==> r == DisabledResult(videoId, key)
    ensures r.status == Complete <==> ValidRequest(videoId, key) && cfg.enabled && (cfg.useMock || !cfg.hasClient)
    ensures r.status == Complete ==> r == MockJob(videoId.value, key.value, jobUuid)
    ensures r.status == Submitted <==>
              ValidRequest(videoId, key) && cfg.enabled && !cfg.useMock && cfg.hasClient &&
              cfg.outputBucket != "" && cfg.roleArn != "" && submission.Created?
    ensures r.status != Processing
  {
    if !ValidRequest(videoId, key) then Failed(videoId, key, "Invalid parameters")
    else if !cfg.enabled then DisabledResult(videoId, key)
    else if cfg.useMock || !cfg.hasClient then MockJob(videoId.value, key.value, jobUuid)
    else RealJob(cfg, videoId.value, key.value, submission)
  }

  /** `mapJobStatus`: AWS's job states onto the service's; an unknown state reads as submitted. */
  function MapJobStatus(awsStatus: string): (r: JobStatus)
    ensures r == Processing <==> awsStatus == "SUBMITTED" || awsStatus == "PROGRESSING"
    ensures r == Complete <==> awsStatus == "COMPLETE"
    ensures r == Error <==> awsStatus == "ERROR" || awsStatus == "CANCELED"
    ensures r != Disabled
  {
    if awsStatus == "SUBMITTED" || awsStatus == "PROGRESSING" then Processing
    else if awsStatus == "COMPLETE" then Complete
    else if awsStatus == "ERROR" || awsStatus == "CANCELED" then Error
    else Submitted
  }

  /**
   * `getJobStatus`: mock jobs are always complete; otherwise the state AWS
   * reports (or the failure to ask) is mapped.
   */
  function GetJobStatus(cfg: Config, reported: Result<string>): (r: JobStatus)
    ensures cfg.useMock ==> r == Complete
    ensures !cfg.useMock && reported.Err? ==> r == Error
    ensures !cfg.useMock && reported.Ok? ==> r == MapJobStatus(reported.value)
  {
    if cfg.useMock then Complete
    else
      match reported
      case Ok(s) => MapJobStatus(s)
      case Err(_) => Error
  }

  /** Polling agrees with creation in mock mode: a created mock job is complete, and so is its polled status. */
  lemma MockJobsPollComplete(cfg: Config, videoId: Id, key: string, jobUuid: string, submission: Submission,
                             reported: Result<string>)
    requires cfg.enabled && cfg.useMock && key != "" && |jobUuid| >= 8
    ensures CreateTranscodingJob(cfg, Some(videoId), Some(key), jobUuid, submission).status ==
            GetJobStatus(cfg, reported)
  {
  }

  /**
   * The mock rendition of an upload "videos/<rest>.mp4" is
   * "processed/<rest>_<quality>.mp4" whenever `rest` holds neither
   * "videos/" nor ".mp4" itself.
   */
  lemma MockRenditionOfUpload(rest: string, quality: string)
    requires !Occurs("videos/", rest) && !Occurs(".mp4", rest)
    ensures MockRenditionKey("videos/" + rest + ".mp4", quality) == "processed/" + rest + "_" + quality + ".mp4"
  {
    var p := "processed/";
    var x := "_" + quality + ".mp4";
    assert "videos/" + rest + ".mp4" == "videos/" + (rest + ".mp4");
    ReplaceAllLeading("videos/", rest + ".mp4", p);
    ReplaceAllSkipFront(rest, ".mp4", "videos/", p);
    var base := (p + rest) + ".mp4";
    assert ReplaceAll("videos/" + rest + ".mp4", "videos/", p) == base;
    NoOccurrenceBehind(p, rest, ".mp4");
    ReplaceAllSkipFront(p + rest, ".mp4", ".mp4", x);
    ReplaceAllLeading(".mp4", "", x);
    assert ".mp4" + "" == ".mp4";
  }



}

=== FILE: payhero.dfy ===
/**
 * The PayHero STK-push client as far as it decides anything itself: the
 * amount guard and Kenyan phone-number normalisation. The HTTP exchange is an
 * outcome supplied by the caller.
 */
module PayHero {
  import opened Wrappers
  import opened Common
  import opened Strings

  const EmptyPhone: Exception := IllegalArgument("Phone number cannot be null or empty")
  const NonPositiveAmount: Exception := IllegalArgument("Amount must be greater than zero")

  /** The phone numbers `NormalizePhone` accepts, stated on the digits of the input. */
  predicate AcceptedDigits(d: string) {
    (StartsWith(d, "0") && |d| == 10) || (StartsWith(d, "254") && |d| == 12)
  }

  /**
   * `normalizePhone`: keep the digits; a leading 0 becomes 254; the result
   * must start with 254 and have 12 digits. Since only digits are kept, the
   * source's branch for a leading "+254" can never be taken.
   */
  function NormalizePhone(phone: Option<string>): (r: Result<string>)
    ensures phone.None? || phone.value == "" ==> r == Err(EmptyPhone)
    ensures r.Ok? ==> |r.value| == 12 && All(r.value, IsDigit) && StartsWith(r.value, "254")
    ensures r.Ok? <==> phone.Some? && phone.value != "" && AcceptedDigits(Filter(phone.value, IsDigit))
    ensures r.Err? ==> r.error.IllegalArgument?
    ensures phone.Some? ==> !StartsWith(Filter(phone.value, IsDigit), "+254")
  {
    if phone.None? || phone.value == "" then Err(EmptyPhone)
    else
      var d := Filter(phone.value, IsDigit);
      assert d != [] ==> IsDigit(d[0]);
      if StartsWith(d, "0") then
        var n := "254" + d[1..];
        assert n[..3] == "254";
        assert forall i :: 3 <= i < |n| ==> n[i] == d[i - 2];
        if |n| != 12 then Err(IllegalArgument("Invalid phone number length: " + phone.value)) else Ok(n)
      else if !StartsWith(d, "254") then Err(IllegalArgument("Invalid Kenyan phone number: " + phone.value))
      else if |d| != 12 then Err(IllegalArgument("Invalid phone number length: " + phone.value))
      else Ok(d)
  }

  /** A normalised number is a fixed point: normalising it again gives it back. */
  lemma NormalizeIdempotent(phone: Option<string>)
    requires NormalizePhone(phone).Ok?
    ensures NormalizePhone(Some(NormalizePhone(phone).value)) == NormalizePhone(phone)
  {
    var n := NormalizePhone(phone).value;
    FilterKeepsConforming(n, IsDigit);
    assert n[..1] != "0" by {
      assert n[0] == '2';
    }
  }

  /**
   * `initiatePayment` up to the HTTP call: the amount is checked first, then
   * the phone number; `network` is what the exchange with PayHero yields (the
   * checkout request id of a 2xx answer, which may be absent, or the
   * exception it raised).
   */
  function Initiate(phone: Option<string>, amount: Cents, network: Result<Option<string>>): (r: Result<Option<string>>)
    ensures amount <= 0 ==> r == Err(NonPositiveAmount)
    ensures amount > 0 && NormalizePhone(phone).Err? ==> r == Err(NormalizePhone(phone).error)
    ensures r.Ok? <==> amount > 0 && NormalizePhone(phone).Ok? && network.Ok?
    ensures amount > 0 && NormalizePhone(phone).Ok? ==> r == network
  {
    if amount <= 0 then Err(NonPositiveAmount)
    else
      var normalized :- NormalizePhone(phone);
      network
  }
}

=== FILE: payment.dfy ===
/** An M-Pesa payment record: status transitions, the pending and staleness tests. */
module Payments {
  import opened Wrappers
  import opened Common

  datatype PaymentStatus = Initiated | Pending | Success | Failed | Refunded

  datatype Payment = Payment(
    enrollmentId: Id,
    studentId: Id,
    courseId: Id,
    transactionReference: string,
    checkoutRequestId: Option<string>,
    mpesaReceiptNumber: Option<string>,
    amount: Cents,
    currency: string,
    phoneNumber: string,
    paymentMethod: string,
    status: PaymentStatus,
    resultCode: Option<int>,
    resultDesc: Option<string>,
    failureReason: Option<string>,
    callbackReceived: bool,
    paymentDate: Option<Time>,
    createdAt: Time)

  /** A payment as the builder produces it: INITIATED, no callback yet, paid by M-Pesa. */
  function Create(enrollmentId: Id, studentId: Id, courseId: Id, reference: string,
                  amount: Cents, currency: string, phone: string, now: Time): (p: Payment)
    ensures p.status == Initiated && !p.callbackReceived
    ensures p.amount == amount && p.transactionReference == reference && p.currency == currency
    ensures p.paymentMethod == "MPESA" && p.createdAt == now
    ensures p.checkoutRequestId.None? && p.failureReason.None? && p.paymentDate.None?
    ensures p.enrollmentId == enrollmentId && p.studentId == studentId && p.courseId == courseId
  {
    Payment(enrollmentId, studentId, courseId, reference, None, None, amount, currency, phone, "MPESA",
            Initiated, None, None, None, false, None, now)
  }

  /**
   * Records a success whatever the prior status; the failure reason of an
   * earlier failure is kept.
   */
  function MarkAsSuccess(p: Payment, receipt: Option<string>, code: Option<int>, desc: Option<string>, now: Time): (r: Payment)
    ensures r.status == Success && r.mpesaReceiptNumber == receipt
    ensures r.resultCode == code && r.resultDesc == desc && r.paymentDate == Some(now)
    ensures r.failureReason == p.failureReason && r.amount == p.amount
    ensures r.callbackReceived == p.callbackReceived && r.checkoutRequestId == p.checkoutRequestId
    ensures r.transactionReference == p.transactionReference && r.enrollmentId == p.enrollmentId
  {
    p.(status := Success, mpesaReceiptNumber := receipt, resultCode := code, resultDesc := desc, paymentDate := Some(now))
  }

  /** Records a failure whatever the prior status. */
  function MarkAsFailed(p: Payment, reason: Option<string>, code: Option<int>, desc: Option<string>, now: Time): (r: Payment)
    ensures r.status == Failed && r.failureReason == reason
    ensures r.resultCode == code && r.resultDesc == desc && r.paymentDate == Some(now)
    ensures r.mpesaReceiptNumber == p.mpesaReceiptNumber && r.amount == p.amount
    ensures r.callbackReceived == p.callbackReceived && r.checkoutRequestId == p.checkoutRequestId
    ensures r.transactionReference == p.transactionReference && r.enrollmentId == p.enrollmentId
  {
    p.(status := Failed, failureReason := reason, resultCode := code, resultDesc := desc, paymentDate := Some(now))
  }

  function IsPending(p: Payment): (r: bool)
    ensures r <==> p.status in {Initiated, Pending}
    ensures r ==> p.status != Success && p.status != Failed
  {
    p.status == Initiated || p.status == Pending
  }

  /** Pending, and created strictly before `timeoutMinutes` minutes ago. */
  function IsStale(p: Payment, timeoutMinutes: int, now: Time): (r: bool)
    ensures r ==> IsPending(p)
    ensures r <==> p.status in {Initiated, Pending} && p.createdAt < now - 60 * timeoutMinutes
  {
    IsPending(p) && p.createdAt < now - MinutesToSeconds(timeoutMinutes)
  }

  /** A settled payment is never stale, however long ago it was created. */
  lemma SettledNeverStale(p: Payment, timeoutMinutes: int, now: Time)
    requires p.status in {Success, Failed, Refunded}
    ensures !IsStale(p, timeoutMinutes, now)
  {
  }

  /** A failure followed by a success leaves a SUCCESS payment that still carries the failure reason. */
  lemma SuccessAfterFailureKeepsReason(p: Payment, reason: string, receipt: Option<string>, code: Option<int>,
                                       desc: Option<string>, t1: Time, t2: Time)
    ensures var r := MarkAsSuccess(MarkAsFailed(p, Some(reason), None, None, t1), receipt, code, desc, t2);
            r.status == Success && r.failureReason == Some(reason) && r.amount == p.amount
  {
  }
}

=== FILE: payment_service.dfy ===
/**
 * M-Pesa payments for enrollments: initiation through PayHero, status
 * polling that times out stale payments, and the gateway callback that
 * settles a payment and activates its enrollment.
 */
module PaymentService {
  import opened Wrappers
  import opened Common
  import opened Strings
  import opened Tables
  import opened Database
  import Enrollments
  import Payments
  import PayHero
  import EnrollmentService

  datatype PaymentConfig = PaymentConfig(currency: string, timeoutMinutes: int)

  const AlreadyPaid: Exception := IllegalState("Payment already completed for this enrollment")
  const PushFailed: string := "PayHero STK push failed"
  const InitiationFailed: Exception := Runtime(Some("Failed to initiate payment"))
  const TimeoutReason: string := "Payment verification timeout - no response from M-Pesa"
  const SettlementFailed: Exception := Runtime(Some("Failed to process successful payment"))

  /** "MWZ-" and the first eight characters of a fresh UUID, upper-cased. */
  function TransactionReference(uuid: string): (r: string)
    requires |uuid| >= 8
    ensures |r| == 12 && StartsWith(r, "MWZ-")
    ensures forall i :: 4 <= i < 12 ==> r[i] == UpperChar(uuid[i - 4]) && !IsLowerLetter(r[i])
  {
    "MWZ-" + Upper(uuid[..8])
  }

  /**
   * `initiatePayment` as its statements run: the amount is the enrollment's
   * `pricePaid`; a new INITIATED payment is appended, then the gateway's
   * outcome decides: PENDING with its checkout id, FAILED when no checkout id
   * came back, and FAILED followed by a failure of the call when the gateway
   * raised. The answer is the new payment's id. Keeping the FAILED record of
   * a gateway error is what the method evidently means to do; as committed it
   * does not (`InitiatePaymentCommitted`).
   */
  function InitiatePayment(db: Db, cfg: PaymentConfig, enrollmentId: Id, phone: Option<string>, uuid: string,
                           network: Result<Option<string>>, now: Time): (o: Outcome<Id>)
    requires |uuid| >= 8
    ensures enrollmentId >= |db.enrollments| ==> o == Outcome(db, Err(NotFoundById("Enrollment", enrollmentId)))
    ensures enrollmentId < |db.enrollments| && HasSuccessfulPayment(db, enrollmentId) ==> o == Outcome(db, Err(AlreadyPaid))
    ensures enrollmentId < |db.enrollments| && !HasSuccessfulPayment(db, enrollmentId) ==>
              var e := db.enrollments[enrollmentId];
              var g := PayHero.Initiate(phone, e.pricePaid, network);
              |o.db.payments| == |db.payments| + 1 && o.db.payments[..|db.payments|] == db.payments &&
              var p := o.db.payments[|db.payments|];
              p.amount == e.pricePaid && p.enrollmentId == enrollmentId &&
              p.studentId == e.studentId && p.courseId == e.courseId &&
              p.transactionReference == TransactionReference(uuid) && p.currency == cfg.currency &&
              !p.callbackReceived && p.createdAt == now && p.mpesaReceiptNumber.None? &&
              (g.Ok? && g.value.Some? ==>
                 p.status == Payments.Pending && p.checkoutRequestId == g.value && o.result == Ok(|db.payments|)) &&
              (g.Ok? && g.value.None? ==>
                 p.status == Payments.Failed && p.failureReason == Some(PushFailed) && o.result == Ok(|db.payments|)) &&
              (g.Err? ==>
                 p.status == Payments.Failed && p.failureReason == Some("Payment initiation error: " + g.error.MessageText()) &&
                 o.result == Err(InitiationFailed))
    ensures o.db.(payments := db.payments) == db
  {
    if enrollmentId >= |db.enrollments| then Outcome(db, Err(NotFoundById("Enrollment", enrollmentId)))
    else if HasSuccessfulPayment(db, enrollmentId) then Outcome(db, Err(AlreadyPaid))
    else
      var e := db.enrollments[enrollmentId];
      var id := |db.payments|;
      var p := Payments.Create(enrollmentId, e.studentId, e.courseId, TransactionReference(uuid), e.pricePaid,
                               cfg.currency, phone.UnwrapOr(""), now);
      var settled :=
        match PayHero.Initiate(phone, e.pricePaid, network)
        case Ok(Some(checkoutId)) => p.(checkoutRequestId := Some(checkoutId), status := Payments.Pending)
        case Ok(None) => Payments.MarkAsFailed(p, Some(PushFailed), None, None, now)
        case Err(ex) => Payments.MarkAsFailed(p, Some("Payment initiation error: " + ex.MessageText()), None, None, now);
      var result := if PayHero.Initiate(phone, e.pricePaid, network).Err? then Err(InitiationFailed) else Ok(id);
      assert (db.payments + [settled])[..id] == db.payments;
      Outcome(db.(payments := db.payments + [settled]), result)
  }

  /**
   * `initiatePayment` as committed: it runs in one transaction, and the
   * RuntimeException it throws after a gateway error is unchecked, so the
   * FAILED payment saved just before is rolled back with it.
   */
  function InitiatePaymentCommitted(db: Db, cfg: PaymentConfig, enrollmentId: Id, phone: Option<string>, uuid: string,
                                    network: Result<Option<string>>, now: Time): (o: Outcome<Id>)
    requires |uuid| >= 8
    ensures o.result == InitiatePayment(db, cfg, enrollmentId, phone, uuid, network, now).result
    ensures o.result.Err? ==> o.db == db
    ensures o.result.Ok? ==> o.db == InitiatePayment(db, cfg, enrollmentId, phone, uuid, network, now).db
  {
    var s := InitiatePayment(db, cfg, enrollmentId, phone, uuid, network, now);
    Outcome(Committed(db, s), s.result)
  }

  /**
   * As committed, a gateway error leaves no trace: the payment row written
   * for the attempt, with its "Payment initiation error" reason, is gone.
   */
  lemma GatewayErrorForgotten(db: Db, cfg: PaymentConfig, enrollmentId: Id, phone: Option<string>, uuid: string,
                              network: Result<Option<string>>, now: Time)
    requires |uuid| >= 8 && enrollmentId < |db.enrollments| && !HasSuccessfulPayment(db, enrollmentId)
    requires PayHero.Initiate(phone, db.enrollments[enrollmentId].pricePaid, network).Err?
    ensures |InitiatePayment(db, cfg, enrollmentId, phone, uuid, network, now).db.payments| == |db.payments| + 1
    ensures InitiatePaymentCommitted(db, cfg, enrollmentId, phone, uuid, network, now) == Outcome(db, Err(InitiationFailed))
  {
  }

  /** What a status poll answers. */
  datatype StatusResponse = StatusResponse(
    status: Payments.PaymentStatus,
    transactionReference: string,
    mpesaReceiptNumber: Option<string>,
    failureReason: Option<string>,
    shouldContinuePolling: bool)

  /** `shouldContinuePolling`: the payment is still waiting for the gateway. */
  function ShouldContinuePolling(p: Payments.Payment): (r: bool)
    ensures r <==> Payments.IsPending(p)
    ensures r ==> p.status != Payments.Success && p.status != Payments.Failed
  {
    p.status == Payments.Initiated || p.status == Payments.Pending
  }

  /**
   * `getPaymentStatus`: a payment that has waited longer than the timeout is
   * marked FAILED before the answer is built; any other payment is left as is.
   */
  function GetPaymentStatus(db: Db, cfg: PaymentConfig, reference: string, now: Time): (o: Outcome<StatusResponse>)
    ensures FindPaymentByReference(db, Some(reference)).NoMatch? ==>
              o == Outcome(db, Err(ResourceNotFound("Payment", "transactionReference", reference)))
    ensures FindPaymentByReference(db, Some(reference)).ManyMatches? ==> o == Outcome(db, Err(NonUniqueResult))
    ensures FindPaymentByReference(db, Some(reference)).OneMatch? ==>
              var i := FindPaymentByReference(db, Some(reference)).index;
              var p := db.payments[i];
              |o.db.payments| == |db.payments| && o.db.payments == db.payments[i := o.db.payments[i]] &&
              var q := o.db.payments[i];
              !Payments.IsStale(q, cfg.timeoutMinutes, now) &&
              (Payments.IsStale(p, cfg.timeoutMinutes, now) ==>
                 q.status == Payments.Failed && q.failureReason == Some(TimeoutReason) && q.amount == p.amount &&
                 q == Payments.MarkAsFailed(p, Some(TimeoutReason), None, None, now)) &&
              (!Payments.IsStale(p, cfg.timeoutMinutes, now) ==> q == p) &&
              o.result.Ok? && o.result.value.status == q.status && o.result.value.transactionReference == reference &&
              o.result.value.failureReason == q.failureReason &&
              o.result.value.mpesaReceiptNumber == q.mpesaReceiptNumber &&
              (o.result.value.shouldContinuePolling <==> q.status in {Payments.Initiated, Payments.Pending})
    ensures o.db.(payments := db.payments) == db
  {
    match FindPaymentByReference(db, Some(reference))
    case NoMatch => Outcome(db, Err(ResourceNotFound("Payment", "transactionReference", reference)))
    case ManyMatches => Outcome(db, Err(NonUniqueResult))
    case OneMatch(i) =>
      var p := db.payments[i];
      var q := if Payments.IsStale(p, cfg.timeoutMinutes, now)
               then Payments.MarkAsFailed(p, Some(TimeoutReason), None, None, now) else p;
      var response := StatusResponse(q.status, q.transactionReference, q.mpesaReceiptNumber, q.failureReason,
                                     ShouldContinuePolling(q));
      Outcome(db.(payments := db.payments[i := q]), Ok(response))
  }

  /** The part of the gateway's callback that the service reads. */
  datatype CallbackResponse = CallbackResponse(
    externalReference: Option<string>,
    checkoutRequestId: Option<string>,
    resultCode: Option<int>,
    resultDesc: Option<string>,
    mpesaReceiptNumber: Option<string>)

  /**
   * The payment a callback is about: by checkout request id, and only when
   * that finds nothing, by external reference.
   */
  function LocatePayment(db: Db, r: CallbackResponse): (m: Result<Option<nat>>)
    ensures m.Ok? && m.value.Some? ==>
              m.value.value < |db.payments| &&
              (db.payments[m.value.value].checkoutRequestId == r.checkoutRequestId ||
               Some(db.payments[m.value.value].transactionReference) == r.externalReference)
    ensures m == Ok(None) <==>
              Count(db.payments, ByCheckoutRequestId(r.checkoutRequestId)) == 0 &&
              Count(db.payments, ByTransactionReference(r.externalReference)) == 0
    ensures m.Err? ==> m.error == NonUniqueResult
  {
    match FindPaymentByCheckout(db, r.checkoutRequestId)
    case OneMatch(i) => Ok(Some(i))
    case ManyMatches => Err(NonUniqueResult)
    case NoMatch => AsOptional(FindPaymentByReference(db, r.externalReference))
  }

  /** The success branch: a payment already SUCCESS is only flagged; any other is settled and its enrollment activated. */
  function HandleSuccessfulPayment(db: Db, i: nat, r: CallbackResponse, now: Time): (o: Outcome<()>)
    requires i < |db.payments|
    ensures |o.db.payments| == |db.payments| && o.db.payments == db.payments[i := o.db.payments[i]]
    ensures |o.db.enrollments| == |db.enrollments|
    ensures db.payments[i].status == Payments.Success ==> o == Outcome(db, Ok(()))
    ensures db.payments[i].status != Payments.Success ==>
              var p := db.payments[i];
              o.db.payments[i] == Payments.MarkAsSuccess(p, r.mpesaReceiptNumber, r.resultCode, r.resultDesc, now) &&
              var a := EnrollmentService.ActivateEnrollment(db.(payments := o.db.payments), p.enrollmentId, i);
              o.db == a.db && (o.result.Ok? <==> a.result.Ok?) && (o.result.Err? ==> o.result.error == SettlementFailed)
  {
    var p := db.payments[i];
    if p.status == Payments.Success then Outcome(db, Ok(()))
    else
      var settled := Payments.MarkAsSuccess(p, r.mpesaReceiptNumber, r.resultCode, r.resultDesc, now);
      var db1 := db.(payments := db.payments[i := settled]);
      var a := EnrollmentService.ActivateEnrollment(db1, settled.enrollmentId, i);
      Outcome(a.db, if a.result.Err? then Err(SettlementFailed) else Ok(()))
  }

  /** The failure branch: a SUCCESS payment is never turned into a failure. */
  function HandleFailedPayment(db: Db, i: nat, r: CallbackResponse, now: Time): (o: Outcome<()>)
    requires i < |db.payments|
    ensures o.result == Ok(()) && o.db.(payments := db.payments) == db
    ensures |o.db.payments| == |db.payments| && o.db.payments == db.payments[i := o.db.payments[i]]
    ensures db.payments[i].status == Payments.Success ==> o.db == db
    ensures db.payments[i].status != Payments.Success ==>
              o.db.payments[i].status == Payments.Failed && o.db.payments[i].failureReason == r.resultDesc &&
              o.db.payments[i].resultCode == r.resultCode
  {
    var p := db.payments[i];
    if p.status == Payments.Success then Outcome(db, Ok(()))
    else
      var failed := Payments.MarkAsFailed(p, r.resultDesc, r.resultCode, r.resultDesc, now);
      Outcome(db.(payments := db.payments[i := failed]), Ok(()))
  }

  /** The payment a callback settles: found, and not yet called back. */
  predicate Handles(db: Db, r: CallbackResponse, i: nat) {
    LocatePayment(db, r) == Ok(Some(i)) && i < |db.payments| && !db.payments[i].callbackReceived
  }

  /**
   * `processCallback`: a callback without a response, for no known payment,
   * or for a payment already called back changes nothing. Otherwise the
   * payment is flagged as called back and settled: ResultCode 0 is success,
   * anything else (a missing code included) is failure.
   */
  function ProcessCallback(db: Db, response: Option<CallbackResponse>, now: Time): (o: Outcome<()>)
    ensures response.None? ==> o == Outcome(db, Ok(()))
    ensures response.Some? && LocatePayment(db, response.value).Err? ==> o == Outcome(db, Err(NonUniqueResult))
    ensures response.Some? && LocatePayment(db, response.value) == Ok(None) ==> o == Outcome(db, Ok(()))
    ensures response.Some? ==>
              var m := LocatePayment(db, response.value);
              (m.Ok? && m.value.Some? && db.payments[m.value.value].callbackReceived ==> o == Outcome(db, Ok(())))
    ensures |o.db.payments| == |db.payments| && |o.db.enrollments| == |db.enrollments|
    ensures forall j :: 0 <= j < |db.payments| && db.payments[j].status == Payments.Success ==>
              o.db.payments[j].status == Payments.Success
    ensures forall i: nat :: response.Some? && Handles(db, response.value, i) ==>
              var r := response.value;
              var p := db.payments[i];
              var q := o.db.payments[i];
              q.callbackReceived && q.amount == p.amount &&
              q.checkoutRequestId == p.checkoutRequestId && q.transactionReference == p.transactionReference &&
              (forall j :: 0 <= j < |db.payments| && j != i ==> o.db.payments[j] == db.payments[j]) &&
              (p.status != Payments.Success && r.resultCode == Some(0) ==>
                 q.status == Payments.Success && q.failureReason == p.failureReason &&
                 q.mpesaReceiptNumber == r.mpesaReceiptNumber &&
                 (p.enrollmentId < |db.enrollments| ==>
                    o.db.enrollments[p.enrollmentId] == Enrollments.Activate(db.enrollments[p.enrollmentId], i))) &&
              (p.status != Payments.Success && r.resultCode != Some(0) ==>
                 q.status == Payments.Failed && q.failureReason == r.resultDesc && o.result == Ok(())) &&
              (p.status == Payments.Success ==> q == p.(callbackReceived := true) && o.result == Ok(()))
  {
    if response.None? then Outcome(db, Ok(()))
    else
      var r := response.value;
      match LocatePayment(db, r)
      case Err(e) => Outcome(db, Err(e))
      case Ok(None) => Outcome(db, Ok(()))
      case Ok(Some(i)) =>
        var p := db.payments[i];
        if p.callbackReceived then Outcome(db, Ok(()))
        else
          var db1 := db.(payments := db.payments[i := p.(callbackReceived := true)]);
          if r.resultCode == Some(0) then HandleSuccessfulPayment(db1, i, r, now)
          else HandleFailedPayment(db1, i, r, now)
  }

  /** Initiation never adds a SUCCESS payment: whether an enrollment is paid is the same before and after. */
  lemma InitiateKeepsPaidEnrollments(db: Db, cfg: PaymentConfig, enrollmentId: Id, phone: Option<string>, uuid: string,
                                     network: Result<Option<string>>, now: Time, other: Id)
    requires |uuid| >= 8
    ensures HasSuccessfulPayment(InitiatePayment(db, cfg, enrollmentId, phone, uuid, network, now).db, other)
        <==> HasSuccessfulPayment(db, other)
  {
    var o := InitiatePayment(db, cfg, enrollmentId, phone, uuid, network, now);
    if enrollmentId < |db.enrollments| && !HasSuccessfulPayment(db, enrollmentId) {
      var p := o.db.payments[|db.payments|];
      assert o.db.payments == db.payments + [p];
      CountAppend(db.payments, p, SuccessfulPaymentOf(other));
    }
  }

  /** Polling twice at the same instant leaves the same state as polling once. */
  lemma PollIdempotent(db: Db, cfg: PaymentConfig, reference: string, now: Time)
    ensures var db1 := GetPaymentStatus(db, cfg, reference, now).db;
            GetPaymentStatus(db1, cfg, reference, now).db == db1
  {
    var o := GetPaymentStatus(db, cfg, reference, now);
    var m := FindPaymentByReference(db, Some(reference));
    if m.OneMatch? {
      UpdateKeepsPaymentLookups(db, m.index, o.db.payments[m.index], None, Some(reference));
    }
  }

  /**
   * A callback delivered again, at any later time, changes nothing: the
   * first delivery flagged the payment as called back, so neither the
   * payment nor the enrollment counter moves a second time.
   */
  lemma CallbackIdempotent(db: Db, response: Option<CallbackResponse>, now: Time, later: Time)
    ensures var db1 := ProcessCallback(db, response, now).db;
            ProcessCallback(db1, response, later).db == db1
    ensures ProcessCallback(db, response, now).result.Ok? ==>
              ProcessCallback(ProcessCallback(db, response, now).db, response, later).result.Ok?
  {
    var o := ProcessCallback(db, response, now);
    if response.Some? {
      var r := response.value;
      var m := LocatePayment(db, r);
      if m.Ok? && m.value.Some? && !db.payments[m.value.value].callbackReceived {
        var i := m.value.value;
        assert Handles(db, r, i);
        assert o.db.payments == db.payments[i := o.db.payments[i]];
        UpdateKeepsPaymentLookups(db, i, o.db.payments[i], r.checkoutRequestId, r.externalReference);
        assert LocatePayment(o.db, r) == m;
      }
    }
  }

  /**
   * A success callback that arrives after a poll timed the payment out is
   * still applied: the payment ends SUCCESS but keeps the timeout reason.
   */
  lemma LateSuccessAfterTimeout(db: Db, cfg: PaymentConfig, i: nat, r: CallbackResponse, t1: Time, t2: Time)
    requires i < |db.payments| && !db.payments[i].callbackReceived
    requires Payments.IsStale(db.payments[i], cfg.timeoutMinutes, t1)
    requires FindPaymentByReference(db, Some(db.payments[i].transactionReference)) == OneMatch(i)
    requires FindPaymentByCheckout(db, r.checkoutRequestId) == OneMatch(i) && r.resultCode == Some(0)
    ensures var db1 := GetPaymentStatus(db, cfg, db.payments[i].transactionReference, t1).db;
            var db2 := ProcessCallback(db1, Some(r), t2).db;
            db1.payments[i].status == Payments.Failed &&
            db2.payments[i].status == Payments.Success && db2.payments[i].failureReason == Some(TimeoutReason)
  {
    var reference := db.payments[i].transactionReference;
    var db1 := GetPaymentStatus(db, cfg, reference, t1).db;
    UpdateKeepsPaymentLookups(db, i, db1.payments[i], r.checkoutRequestId, Some(reference));
    assert LocatePayment(db1, r) == Ok(Some(i));
    assert Handles(db1, r, i);
  }
}

=== FILE: quiz_attempt.dfy ===
/** One attempt of a student at a quiz: scoring, pass/fail and the time limit; and the answers given in it. */
module QuizAttempts {
  import opened Wrappers
  import opened Common
  import opened Arith

  datatype AttemptStatus = InProgress | Submitted | Abandoned | Flagged

  datatype QuizAttempt = QuizAttempt(
    studentId: Id,
    enrollmentId: Id,
    quizId: Id,
    courseId: Id,
    attemptNumber: int,
    score: Option<int>,
    pointsEarned: Option<int>,
    totalPoints: int,
    correctAnswers: Option<int>,
    totalQuestions: int,
    isPassed: Option<bool>,
    status: AttemptStatus,
    startedAt: Time,
    submittedAt: Option<Time>,
    timeTakenSeconds: Option<int>)

  /** The answer a student gave to one question within one attempt. */
  datatype StudentAnswer = StudentAnswer(
    attemptId: Id,
    questionId: Id,
    selectedAnswerId: Id,
    isCorrect: bool,
    pointsEarned: int,
    answeredAt: Time)

  /** A new attempt: in progress, started now, not yet scored. */
  function Create(studentId: Id, enrollmentId: Id, quizId: Id, courseId: Id, attemptNumber: int,
                  totalQuestions: int, totalPoints: int, now: Time): (a: QuizAttempt)
    ensures a.status == InProgress && a.startedAt == now
    ensures a.score.None? && a.isPassed.None? && a.submittedAt.None?
    ensures a.attemptNumber == attemptNumber && a.totalQuestions == totalQuestions && a.totalPoints == totalPoints
    ensures a.studentId == studentId && a.enrollmentId == enrollmentId && a.quizId == quizId && a.courseId == courseId
  {
    QuizAttempt(studentId, enrollmentId, quizId, courseId, attemptNumber, None, None, totalPoints, None,
                totalQuestions, None, InProgress, now, None, None)
  }

  function IsInProgress(a: QuizAttempt): (r: bool)
    ensures r <==> a.status == InProgress
  {
    a.status == InProgress
  }

  /**
   * True only for a limit above zero, once more than that many minutes have
   * passed since the start, while the attempt is still in progress.
   */
  function HasTimedOut(a: QuizAttempt, timeLimitMinutes: Option<int>, now: Time): (r: bool)
    ensures timeLimitMinutes.None? ==> !r
    ensures timeLimitMinutes.Some? && timeLimitMinutes.value <= 0 ==> !r
    ensures timeLimitMinutes.Some? && timeLimitMinutes.value > 0 ==>
              (r <==> now > a.startedAt + 60 * timeLimitMinutes.value && a.status == InProgress)
  {
    match timeLimitMinutes
    case None => false
    case Some(limit) =>
      if limit <= 0 then false
      else now > a.startedAt + MinutesToSeconds(limit) && IsInProgress(a)
  }

  /**
   * Scores the attempt: the percentage of points earned (truncated; 0 when
   * there are no points to earn) and pass when it reaches the passing score.
   */
  function Submit(a: QuizAttempt, correct: int, totalQuestions: int, points: int, totalPoints: int,
                  passingScore: int, now: Time): (r: QuizAttempt)
    ensures r.status == Submitted && r.submittedAt == Some(now)
    ensures r.correctAnswers == Some(correct) && r.totalQuestions == totalQuestions
    ensures r.pointsEarned == Some(points) && r.totalPoints == totalPoints
    ensures r.score.Some? && r.isPassed == Some(r.score.value >= passingScore)
    ensures totalPoints <= 0 ==> r.score == Some(0)
    ensures totalPoints > 0 && 0 <= points <= totalPoints ==> 0 <= r.score.value <= 100
    ensures totalPoints > 0 && points >= 0 ==>
              r.score.value * totalPoints <= 100 * points < (r.score.value + 1) * totalPoints
    ensures totalPoints > 0 && points < 0 ==>
              (r.score.value - 1) * totalPoints < 100 * points <= r.score.value * totalPoints
    ensures totalPoints > 0 && passingScore >= 1 ==>
              (r.isPassed == Some(true) <==> 100 * points >= passingScore * totalPoints)
    ensures r.timeTakenSeconds == Some(now - a.startedAt)
    ensures r.enrollmentId == a.enrollmentId && r.quizId == a.quizId && r.studentId == a.studentId
    ensures r.attemptNumber == a.attemptNumber && r.startedAt == a.startedAt
  {
    var score :=
      if totalPoints > 0 then
        if passingScore >= 1 then
          TruncDivAtLeast(points * 100, totalPoints, passingScore);
          TruncDiv(points * 100, totalPoints)
        else
          TruncDiv(points * 100, totalPoints)
      else 0;
    assert totalPoints > 0 && 0 <= points <= totalPoints ==> score <= 100 by {
      if totalPoints > 0 && 0 <= points <= totalPoints && score > 100 {
        TruncDivAtLeast(points * 100, totalPoints, 101);
        assert false;
      }
    }
    a.(correctAnswers := Some(correct), totalQuestions := totalQuestions, pointsEarned := Some(points),
       totalPoints := totalPoints, score := Some(score), isPassed := Some(score >= passingScore),
       status := Submitted, submittedAt := Some(now), timeTakenSeconds := Some(now - a.startedAt))
  }
}

=== FILE: quiz_service.dfy ===
/**
 * `QuizService`: starting, answering and submitting quiz attempts, and the
 * quiz half of course completion.
 */
module QuizService {
  import opened Wrappers
  import opened Common
  import opened Strings
  import opened Tables
  import opened Database
  import Quizzes
  import QuizAttempts
  import Enrollments

  const NotEnrolled: Exception := IllegalState("Student not enrolled in course")
  const NotActive: Exception := IllegalState("Enrollment not active")
  const NotInProgress: Exception := IllegalState("Quiz attempt is not in progress")
  const AlreadySubmitted: Exception := IllegalState("Quiz attempt already submitted")

  /** The refusal once a limited quiz has been attempted `max` times. */
  function AttemptsExhausted(max: nat): (e: Exception)
    ensures e.IllegalState? && StartsWith(e.message, "Maximum attempts (")
  {
    IllegalState("Maximum attempts (" + NatToString(max) + ") reached for this quiz")
  }

  /** Whether a quiz with an attempt limit has been attempted that many times. */
  predicate LimitReached(quiz: Quizzes.Quiz, count: nat) {
    Quizzes.HasAttemptLimit(quiz) && count >= quiz.maxAttempts.value
  }

  /** The enrollment `startQuizAttempt` needs: it must exist and be accessible. */
  function AccessibleEnrollment(db: Db, studentId: Id, courseId: Id, now: Time): (r: Result<nat>)
    ensures FindEnrollment(db, studentId, courseId).NoMatch? ==> r == Err(NotEnrolled)
    ensures FindEnrollment(db, studentId, courseId).ManyMatches? ==> r == Err(NonUniqueResult)
    ensures FindEnrollment(db, studentId, courseId).OneMatch? ==>
              var e := db.enrollments[FindEnrollment(db, studentId, courseId).index];
              r == (if Enrollments.IsAccessible(e, now) then Ok(FindEnrollment(db, studentId, courseId).index) else Err(NotActive))
  {
    match FindEnrollment(db, studentId, courseId)
    case NoMatch => Err(NotEnrolled)
    case ManyMatches => Err(NonUniqueResult)
    case OneMatch(i) => if Enrollments.IsAccessible(db.enrollments[i], now) then Ok(i) else Err(NotActive)
  }

  /** The state once a timed-out in-progress attempt, if any, has been abandoned. */
  function AbandonTimedOut(db: Db, quiz: Quizzes.Quiz, studentId: Id, quizId: Id, now: Time): (db1: Db)
    requires !FindInProgressAttempt(db, studentId, quizId).ManyMatches?
    ensures db1.(attempts := db.attempts) == db && |db1.attempts| == |db.attempts|
    ensures AttemptCount(db1, studentId, quizId) == AttemptCount(db, studentId, quizId)
    ensures TotalPoints(db1, quizId) == TotalPoints(db, quizId)
    ensures FindInProgressAttempt(db1, studentId, quizId).NoMatch?
    ensures FindInProgressAttempt(db, studentId, quizId).NoMatch? ==> db1 == db
    ensures FindInProgressAttempt(db, studentId, quizId).OneMatch? ==>
              var i := FindInProgressAttempt(db, studentId, quizId).index;
              db1.attempts == db.attempts[i := db.attempts[i].(status := QuizAttempts.Abandoned)]
  {
    match FindInProgressAttempt(db, studentId, quizId)
    case NoMatch => db
    case OneMatch(i) =>
      var a := db.attempts[i].(status := QuizAttempts.Abandoned);
      UpdateKeepsMatches(db.attempts, i, a, AttemptOf(studentId, quizId));
      UpdateDropsMatch(db.attempts, i, a, InProgressOf(studentId, quizId));
      db.(attempts := db.attempts[i := a])
  }

  /**
   * `startQuizAttempt`: the quiz must exist and the student hold an
   * accessible enrollment in its course. An in-progress attempt within its
   * time limit is handed back as it is; one past its time limit is
   * abandoned. A new attempt then needs the attempt limit not to be reached,
   * and is numbered one past the attempts made so far. The answer is the id
   * of the attempt.
   */
  function StartQuizAttempt(db: Db, studentId: Id, quizId: Id, now: Time): (o: Outcome<Id>)
    ensures quizId >= |db.quizzes| ==> o == Outcome(db, Err(NotFoundById("Quiz", quizId)))
    ensures quizId < |db.quizzes| ==>
              var access := AccessibleEnrollment(db, studentId, db.quizzes[quizId].courseId, now);
              access.Err? ==> o == Outcome(db, Err(access.error))
    ensures o.result.Ok? ==>
              var i := o.result.value;
              i < |o.db.attempts| && o.db.attempts[i].studentId == studentId && o.db.attempts[i].quizId == quizId &&
              o.db.attempts[i].status == QuizAttempts.InProgress
    ensures o.result.Ok? && o.result.value < |db.attempts| ==>
              o.db == db && FindInProgressAttempt(db, studentId, quizId) == OneMatch(o.result.value) &&
              !QuizAttempts.HasTimedOut(db.attempts[o.result.value], db.quizzes[quizId].timeLimitMinutes, now)
    ensures o.result.Ok? && o.result.value >= |db.attempts| ==>
              var quiz := db.quizzes[quizId];
              var a := o.db.attempts[o.result.value];
              o.result.value == |db.attempts| && |o.db.attempts| == |db.attempts| + 1 &&
              !LimitReached(quiz, AttemptCount(db, studentId, quizId)) &&
              a == QuizAttempts.Create(studentId, AccessibleEnrollment(db, studentId, quiz.courseId, now).value, quizId,
                                       quiz.courseId, AttemptCount(db, studentId, quizId) + 1, quiz.questionCount,
                                       TotalPoints(db, quizId), now) &&
              AttemptCount(o.db, studentId, quizId) == AttemptCount(db, studentId, quizId) + 1 &&
              Count(o.db.attempts, InProgressOf(studentId, quizId)) == 1
    ensures quizId < |db.quizzes| && AccessibleEnrollment(db, studentId, db.quizzes[quizId].courseId, now).Ok? &&
            FindInProgressAttempt(db, studentId, quizId).NoMatch? &&
            LimitReached(db.quizzes[quizId], AttemptCount(db, studentId, quizId)) ==>
              o == Outcome(db, Err(AttemptsExhausted(db.quizzes[quizId].maxAttempts.value)))
    ensures o.result.Err? && o.db != db ==>
              quizId < |db.quizzes| && LimitReached(db.quizzes[quizId], AttemptCount(db, studentId, quizId)) &&
              o.result.error == AttemptsExhausted(db.quizzes[quizId].maxAttempts.value) &&
              FindInProgressAttempt(o.db, studentId, quizId).NoMatch? &&
              AttemptCount(o.db, studentId, quizId) == AttemptCount(db, studentId, quizId)
    ensures quizId < |db.quizzes| && AccessibleEnrollment(db, studentId, db.quizzes[quizId].courseId, now).Ok? ==>
              var current := FindInProgressAttempt(db, studentId, quizId);
              (current.NoMatch? ==> |o.db.attempts| >= |db.attempts| && o.db.attempts[..|db.attempts|] == db.attempts) &&
              (current.OneMatch? && QuizAttempts.HasTimedOut(db.attempts[current.index], db.quizzes[quizId].timeLimitMinutes, now) ==>
                 |o.db.attempts| >= |db.attempts| &&
                 o.db.attempts[..|db.attempts|] ==
                   db.attempts[current.index := db.attempts[current.index].(status := QuizAttempts.Abandoned)])
    ensures o.db.(attempts := db.attempts) == db
  {
    if quizId >= |db.quizzes| then Outcome(db, Err(NotFoundById("Quiz", quizId)))
    else
      var quiz := db.quizzes[quizId];
      match AccessibleEnrollment(db, studentId, quiz.courseId, now)
      case Err(e) => Outcome(db, Err(e))
      case Ok(ei) => StartWithAccess(db, studentId, quizId, ei, now)
  }

  /**
   * `startQuizAttempt` once the student's enrollment `enrollmentId` gives
   * access: a live attempt is handed back, a timed-out one is abandoned and
   * a new one started within the attempt limit.
   */
  function StartWithAccess(db: Db, studentId: Id, quizId: Id, enrollmentId: Id, now: Time): (o: Outcome<Id>)
    requires quizId < |db.quizzes|
    ensures o.result.Ok? ==>
              var i := o.result.value;
              i < |o.db.attempts| && o.db.attempts[i].studentId == studentId && o.db.attempts[i].quizId == quizId &&
              o.db.attempts[i].status == QuizAttempts.InProgress
    ensures o.result.Ok? && o.result.value < |db.attempts| ==>
              o.db == db && FindInProgressAttempt(db, studentId, quizId) == OneMatch(o.result.value) &&
              !QuizAttempts.HasTimedOut(db.attempts[o.result.value], db.quizzes[quizId].timeLimitMinutes, now)
    ensures o.result.Ok? && o.result.value >= |db.attempts| ==>
              var quiz := db.quizzes[quizId];
              var a := o.db.attempts[o.result.value];
              o.result.value == |db.attempts| && |o.db.attempts| == |db.attempts| + 1 &&
              !LimitReached(quiz, AttemptCount(db, studentId, quizId)) &&
              a == QuizAttempts.Create(studentId, enrollmentId, quizId, quiz.courseId, AttemptCount(db, studentId, quizId) + 1,
                                       quiz.questionCount, TotalPoints(db, quizId), now) &&
              AttemptCount(o.db, studentId, quizId) == AttemptCount(db, studentId, quizId) + 1 &&
              Count(o.db.attempts, InProgressOf(studentId, quizId)) == 1
    ensures FindInProgressAttempt(db, studentId, quizId).NoMatch? &&
            LimitReached(db.quizzes[quizId], AttemptCount(db, studentId, quizId)) ==>
              o == Outcome(db, Err(AttemptsExhausted(db.quizzes[quizId].maxAttempts.value)))
    ensures o.result.Err? && o.db != db ==>
              LimitReached(db.quizzes[quizId], AttemptCount(db, studentId, quizId)) &&
              o.result.error == AttemptsExhausted(db.quizzes[quizId].maxAttempts.value) &&
              FindInProgressAttempt(o.db, studentId, quizId).NoMatch? &&
              AttemptCount(o.db, studentId, quizId) == AttemptCount(db, studentId, quizId)
    ensures var current := FindInProgressAttempt(db, studentId, quizId);
            (current.NoMatch? ==> |o.db.attempts| >= |db.attempts| && o.db.attempts[..|db.attempts|] == db.attempts) &&
            (current.OneMatch? && QuizAttempts.HasTimedOut(db.attempts[current.index], db.quizzes[quizId].timeLimitMinutes, now) ==>
               |o.db.attempts| >= |db.attempts| &&
               o.db.attempts[..|db.attempts|] ==
                 db.attempts[current.index := db.attempts[current.index].(status := QuizAttempts.Abandoned)])
    ensures o.db.(attempts := db.attempts) == db
  {
    var quiz := db.quizzes[quizId];
    var current := FindInProgressAttempt(db, studentId, quizId);
    if current.ManyMatches? then Outcome(db, Err(NonUniqueResult))
    else if current.OneMatch? && !QuizAttempts.HasTimedOut(db.attempts[current.index], quiz.timeLimitMinutes, now) then
      Outcome(db, Ok(current.index))
    else
      StartFresh(AbandonTimedOut(db, quiz, studentId, quizId, now), quiz, studentId, quizId, enrollmentId, now)
  }

  /**
   * The second half of `startQuizAttempt`, once no attempt is in progress:
   * refuse at the attempt limit, or append attempt number count + 1.
   */
  function StartFresh(db: Db, quiz: Quizzes.Quiz, studentId: Id, quizId: Id, enrollmentId: Id, now: Time)
    : (o: Outcome<Id>)
    requires FindInProgressAttempt(db, studentId, quizId).NoMatch?
    ensures o.db.(attempts := db.attempts) == db
    ensures LimitReached(quiz, AttemptCount(db, studentId, quizId)) ==>
              o == Outcome(db, Err(AttemptsExhausted(quiz.maxAttempts.value)))
    ensures !LimitReached(quiz, AttemptCount(db, studentId, quizId)) ==>
              o.result == Ok(|db.attempts|) && |o.db.attempts| == |db.attempts| + 1 &&
              o.db.attempts[..|db.attempts|] == db.attempts &&
              o.db.attempts[|db.attempts|] ==
                QuizAttempts.Create(studentId, enrollmentId, quizId, quiz.courseId, AttemptCount(db, studentId, quizId) + 1,
                                    quiz.questionCount, TotalPoints(db, quizId), now) &&
              AttemptCount(o.db, studentId, quizId) == AttemptCount(db, studentId, quizId) + 1 &&
              Count(o.db.attempts, InProgressOf(studentId, quizId)) == 1
  {
    var count := AttemptCount(db, studentId, quizId);
    if LimitReached(quiz, count) then Outcome(db, Err(AttemptsExhausted(quiz.maxAttempts.value)))
    else
      var a := QuizAttempts.Create(studentId, enrollmentId, quizId, quiz.courseId, count + 1, quiz.questionCount,
                                   TotalPoints(db, quizId), now);
      AppendAttempt(db, a, studentId, quizId);
      var db1 := db.(attempts := db.attempts + [a]);
      assert db1.(attempts := db.attempts) == db;
      Outcome(db1, Ok(|db.attempts|))
  }

  /** Appending a student's first live attempt at a quiz: one more attempt, and the only live one. */
  lemma AppendAttempt(db: Db, a: QuizAttempts.QuizAttempt, studentId: Id, quizId: Id)
    requires FindInProgressAttempt(db, studentId, quizId).NoMatch?
    requires a.studentId == studentId && a.quizId == quizId && a.status == QuizAttempts.InProgress
    ensures AttemptCount(db.(attempts := db.attempts + [a]), studentId, quizId) == AttemptCount(db, studentId, quizId) + 1
    ensures Count(db.attempts + [a], InProgressOf(studentId, quizId)) == 1
    ensures (db.attempts + [a])[..|db.attempts|] == db.attempts
  {
    CountAppend(db.attempts, a, AttemptOf(studentId, quizId));
    CountAppend(db.attempts, a, InProgressOf(studentId, quizId));
    assert (db.attempts + [a])[..|db.attempts|] == db.attempts;
  }

  /**
   * Starting keeps the attempts within the limit: a quiz whose limit held
   * before still holds it after any start, successful or not.
   */
  lemma StartKeepsAttemptLimit(db: Db, studentId: Id, quizId: Id, now: Time)
    requires quizId < |db.quizzes| && Quizzes.HasAttemptLimit(db.quizzes[quizId])
    requires AttemptCount(db, studentId, quizId) <= db.quizzes[quizId].maxAttempts.value
    ensures AttemptCount(StartQuizAttempt(db, studentId, quizId, now).db, studentId, quizId) <=
            db.quizzes[quizId].maxAttempts.value
  {
  }

  /**
   * `canStartQuiz`: false without an accessible enrollment; with an attempt
   * limit, whether attempts remain; true otherwise.
   */
  function CanStartQuiz(db: Db, studentId: Id, quizId: Id, now: Time): (r: Result<bool>)
    ensures quizId >= |db.quizzes| ==> r == Err(NotFoundById("Quiz", quizId))
    ensures quizId < |db.quizzes| ==>
              var quiz := db.quizzes[quizId];
              var access := AccessibleEnrollment(db, studentId, quiz.courseId, now);
              (access == Err(NonUniqueResult) ==> r == access.PropagateFailure()) &&
              (access.Err? && access != Err(NonUniqueResult) ==> r == Ok(false)) &&
              (access.Ok? ==> r == Ok(!LimitReached(quiz, AttemptCount(db, studentId, quizId))))
  {
    if quizId >= |db.quizzes| then Err(NotFoundById("Quiz", quizId))
    else
      var quiz := db.quizzes[quizId];
      match FindEnrollment(db, studentId, quiz.courseId)
      case ManyMatches => Err(NonUniqueResult)
      case NoMatch => Ok(false)
      case OneMatch(i) =>
        if !Enrollments.IsAccessible(db.enrollments[i], now) then Ok(false)
        else if Quizzes.HasAttemptLimit(quiz) then Ok(AttemptCount(db, studentId, quizId) < quiz.maxAttempts.value)
        else Ok(true)
  }

  /**
   * The check and the action agree: with no attempt in progress, a start
   * succeeds exactly when `canStartQuiz` says it may.
   */
  lemma CanStartAgreesWithStart(db: Db, studentId: Id, quizId: Id, now: Time)
    requires quizId < |db.quizzes| && FindInProgressAttempt(db, studentId, quizId).NoMatch?
    requires CanStartQuiz(db, studentId, quizId, now).Ok?
    ensures StartQuizAttempt(db, studentId, quizId, now).result.Ok? <==> CanStartQuiz(db, studentId, quizId, now) == Ok(true)
  {
  }

  /**
   * `answerQuestion`: the attempt must exist and be in progress, the question
   * and the chosen answer must exist. The answer for (attempt, question) is
   * created or overwritten: it records the choice, whether it is correct,
   * and the question's points when it is. The answer is the row's id.
   */
  function AnswerQuestion(db: Db, attemptId: Id, questionId: Id, answerId: Id, now: Time): (o: Outcome<Id>)
    ensures attemptId >= |db.attempts| ==> o == Outcome(db, Err(NotFoundById("QuizAttempt", attemptId)))
    ensures attemptId < |db.attempts| && !QuizAttempts.IsInProgress(db.attempts[attemptId]) ==>
              o == Outcome(db, Err(NotInProgress))
    ensures attemptId < |db.attempts| && QuizAttempts.IsInProgress(db.attempts[attemptId]) ==>
              (questionId >= |db.questions| ==> o == Outcome(db, Err(NotFoundById("Question", questionId)))) &&
              (questionId < |db.questions| && answerId >= |db.answers| ==>
                 o == Outcome(db, Err(NotFoundById("Answer", answerId))))
    ensures o.result.Ok? ==>
              var k := o.result.value;
              questionId < |db.questions| && answerId < |db.answers| && k < |o.db.studentAnswers| &&
              var row := o.db.studentAnswers[k];
              row.attemptId == attemptId && row.questionId == questionId && row.selectedAnswerId == answerId &&
              row.isCorrect == db.answers[answerId].isCorrect &&
              row.pointsEarned == (if db.answers[answerId].isCorrect then db.questions[questionId].points else 0) &&
              FindAnswer(o.db, attemptId, questionId) == OneMatch(k)
    ensures o.result.Ok? ==>
              (o.result.value < |db.studentAnswers| <==> FindAnswer(db, attemptId, questionId).OneMatch?) &&
              (o.result.value < |db.studentAnswers| ==>
                 o.db.studentAnswers == db.studentAnswers[o.result.value := o.db.studentAnswers[o.result.value]]) &&
              (o.result.value >= |db.studentAnswers| ==>
                 o.db.studentAnswers == db.studentAnswers + [o.db.studentAnswers[o.result.value]])
    ensures o.db.(studentAnswers := db.studentAnswers) == db
  {
    if attemptId >= |db.attempts| then Outcome(db, Err(NotFoundById("QuizAttempt", attemptId)))
    else if !QuizAttempts.IsInProgress(db.attempts[attemptId]) then Outcome(db, Err(NotInProgress))
    else if questionId >= |db.questions| then Outcome(db, Err(NotFoundById("Question", questionId)))
    else if answerId >= |db.answers| then Outcome(db, Err(NotFoundById("Answer", answerId)))
    else
      var correct := db.answers[answerId].isCorrect;
      var points := if correct then db.questions[questionId].points else 0;
      var p := AnswerOf(attemptId, questionId);
      match FindAnswer(db, attemptId, questionId)
      case ManyMatches => Outcome(db, Err(NonUniqueResult))
      case OneMatch(k) =>
        var row := db.studentAnswers[k].(selectedAnswerId := answerId, isCorrect := correct, pointsEarned := points);
        UpdateKeepsMatches(db.studentAnswers, k, row, p);
        Outcome(db.(studentAnswers := db.studentAnswers[k := row]), Ok(k))
      case NoMatch =>
        var row := QuizAttempts.StudentAnswer(attemptId, questionId, answerId, correct, points, now);
        CountAppend(db.studentAnswers, row, p);
        assert (db.studentAnswers + [row])[|db.studentAnswers|] == row;
        Outcome(db.(studentAnswers := db.studentAnswers + [row]), Ok(|db.studentAnswers|))
  }

  /**
   * The chosen answer is not checked against the question: an answer
   * option of another question is accepted, and scored by its own flag.
   */
  lemma AnswerOfOtherQuestionAccepted(db: Db, attemptId: Id, questionId: Id, answerId: Id, now: Time)
    requires attemptId < |db.attempts| && QuizAttempts.IsInProgress(db.attempts[attemptId])
    requires questionId < |db.questions| && answerId < |db.answers| && db.answers[answerId].questionId != questionId
    requires !FindAnswer(db, attemptId, questionId).ManyMatches?
    ensures AnswerQuestion(db, attemptId, questionId, answerId, now).result.Ok?
  {
  }

  /**
   * `updateEnrollmentQuizCompletion`: the quizzes count as done once there is
   * at least one required quiz and at least as many passed attempts as
   * required quizzes; the course is then complete if its videos are.
   */
  function UpdateEnrollmentQuizCompletion(db: Db, enrollmentId: Id, now: Time): (o: Outcome<()>)
    ensures enrollmentId >= |db.enrollments| ==> o == Outcome(db, Err(NotFoundById("Enrollment", enrollmentId)))
    ensures enrollmentId < |db.enrollments| ==> o.result == Ok(())
    ensures enrollmentId < |db.enrollments| ==>
              var e := db.enrollments[enrollmentId];
              var done := RequiredQuizzes(db, e.courseId) > 0 && PassedAttempts(db, enrollmentId) >= RequiredQuizzes(db, e.courseId);
              (!done ==> o.db == db) &&
              (done ==> |o.db.enrollments| == |db.enrollments| &&
                        o.db.enrollments == db.enrollments[enrollmentId := o.db.enrollments[enrollmentId]] &&
                        o.db.enrollments[enrollmentId].quizzesCompleted &&
                        (e.videosCompleted ==> o.db.enrollments[enrollmentId] ==
                                               Enrollments.MarkAsCompleted(e.(quizzesCompleted := true), now)) &&
                        (!e.videosCompleted ==> o.db.enrollments[enrollmentId] == e.(quizzesCompleted := true)))
    ensures o.db.(enrollments := db.enrollments) == db
  {
    if enrollmentId >= |db.enrollments| then Outcome(db, Err(NotFoundById("Enrollment", enrollmentId)))
    else
      var e := db.enrollments[enrollmentId];
      var required := RequiredQuizzes(db, e.courseId);
      if required > 0 && PassedAttempts(db, enrollmentId) >= required then
        var e1 := e.(quizzesCompleted := true);
        var e2 := if e1.videosCompleted then Enrollments.MarkAsCompleted(e1, now) else e1;
        Outcome(db.(enrollments := db.enrollments[enrollmentId := e2]), Ok(()))
      else Outcome(db, Ok(()))
  }

  /**
   * `submitQuiz`: only an attempt in progress is scored, from the number of
   * its correct answers and the sum of their points, against the quiz's
   * passing score; a pass then updates the enrollment's quiz completion.
   */
  function SubmitQuiz(db: Db, attemptId: Id, now: Time): (o: Outcome<Id>)
    ensures attemptId >= |db.attempts| ==> o == Outcome(db, Err(NotFoundById("QuizAttempt", attemptId)))
    ensures attemptId < |db.attempts| && !QuizAttempts.IsInProgress(db.attempts[attemptId]) ==>
              o == Outcome(db, Err(AlreadySubmitted))
    ensures attemptId < |db.attempts| && QuizAttempts.IsInProgress(db.attempts[attemptId]) &&
            db.attempts[attemptId].quizId >= |db.quizzes| ==>
              o == Outcome(db, Err(NotFoundById("Quiz", db.attempts[attemptId].quizId)))
    ensures attemptId < |db.attempts| && QuizAttempts.IsInProgress(db.attempts[attemptId]) &&
            db.attempts[attemptId].quizId < |db.quizzes| ==>
              var a := db.attempts[attemptId];
              var s := QuizAttempts.Submit(a, CorrectAnswers(db, attemptId), a.totalQuestions, PointsEarned(db, attemptId),
                                           a.totalPoints, db.quizzes[a.quizId].passingScore, now);
              var db1 := db.(attempts := db.attempts[attemptId := s]);
              o.db.attempts == db1.attempts &&
              (s.isPassed == Some(true) ==> o.db == UpdateEnrollmentQuizCompletion(db1, a.enrollmentId, now).db &&
                                            (o.result.Ok? <==> a.enrollmentId < |db.enrollments|)) &&
              (s.isPassed != Some(true) ==> o == Outcome(db1, Ok(attemptId)))
    ensures o.result.Ok? ==> o.result.value == attemptId
    ensures o.db.(attempts := db.attempts, enrollments := db.enrollments) == db
  {
    if attemptId >= |db.attempts| then Outcome(db, Err(NotFoundById("QuizAttempt", attemptId)))
    else
      var a := db.attempts[attemptId];
      if !QuizAttempts.IsInProgress(a) then Outcome(db, Err(AlreadySubmitted))
      else if a.quizId >= |db.quizzes| then Outcome(db, Err(NotFoundById("Quiz", a.quizId)))
      else
        var s := QuizAttempts.Submit(a, CorrectAnswers(db, attemptId), a.totalQuestions, PointsEarned(db, attemptId),
                                     a.totalPoints, db.quizzes[a.quizId].passingScore, now);
        var db1 := db.(attempts := db.attempts[attemptId := s]);
        if s.isPassed == Some(true) then
          var u := UpdateEnrollmentQuizCompletion(db1, a.enrollmentId, now);
          match u.result
          case Err(e) => Outcome(u.db, Err(e))
          case Ok(_) => Outcome(u.db, Ok(attemptId))
        else Outcome(db1, Ok(attemptId))
  }

  /** A submitted attempt cannot be submitted again: the second call is refused and changes nothing. */
  lemma SubmitOnce(db: Db, attemptId: Id, now: Time, later: Time)
    requires SubmitQuiz(db, attemptId, now).result.Ok?
    ensures var db1 := SubmitQuiz(db, attemptId, now).db;
            SubmitQuiz(db1, attemptId, later) == Outcome(db1, Err(AlreadySubmitted))
  {
  }

  /**
   * A course without required quizzes never has its quizzes completed: no
   * submission, however good, sets the flag.
   */
  lemma ZeroRequiredQuizzesNeverComplete(db: Db, attemptId: Id, now: Time)
    requires attemptId < |db.attempts|
    requires var ei := db.attempts[attemptId].enrollmentId;
             ei < |db.enrollments| && !db.enrollments[ei].quizzesCompleted &&
             RequiredQuizzes(db, db.enrollments[ei].courseId) == 0
    ensures var ei := db.attempts[attemptId].enrollmentId;
            !SubmitQuiz(db, attemptId, now).db.enrollments[ei].quizzesCompleted
  {
  }

  /**
   * Passed attempts are counted, not distinct quizzes: with two required
   * quizzes and one passed attempt, passing the same quiz again completes
   * the quizzes although the other was never attempted.
   */
  lemma RepeatedPassCompletesQuizzes(db: Db, attemptId: Id, now: Time)
    requires attemptId < |db.attempts|
    requires var a := db.attempts[attemptId];
             QuizAttempts.IsInProgress(a) && a.isPassed != Some(true) && a.quizId < |db.quizzes| &&
             a.enrollmentId < |db.enrollments| &&
             RequiredQuizzes(db, db.enrollments[a.enrollmentId].courseId) == 2 &&
             PassedAttempts(db, a.enrollmentId) == 1
    requires var a := db.attempts[attemptId];
             QuizAttempts.Submit(a, CorrectAnswers(db, attemptId), a.totalQuestions, PointsEarned(db, attemptId),
                                 a.totalPoints, db.quizzes[a.quizId].passingScore, now).isPassed == Some(true)
    ensures var ei := db.attempts[attemptId].enrollmentId;
            SubmitQuiz(db, attemptId, now).db.enrollments[ei].quizzesCompleted
  {
    var a := db.attempts[attemptId];
    var s := QuizAttempts.Submit(a, CorrectAnswers(db, attemptId), a.totalQuestions, PointsEarned(db, attemptId),
                                 a.totalPoints, db.quizzes[a.quizId].passingScore, now);
    UpdateAddsMatch(db.attempts, attemptId, s, PassedAttemptOf(a.enrollmentId));
    var db1 := db.(attempts := db.attempts[attemptId := s]);
    assert PassedAttempts(db1, a.enrollmentId) == 2;
    assert RequiredQuizzes(db1, db.enrollments[a.enrollmentId].courseId) == 2;
  }
}

=== FILE: storage.dfy ===
/**
 * Object storage settings and the URL forms shared by the S3 and CloudFront
 * services: a CDN URL under a domain, a LocalStack URL under a custom
 * endpoint, and a virtual-hosted AWS S3 URL.
 */
module Urls {
  import opened Strings

  /** The storage settings both services read (an unset text setting is ""). */
  datatype StorageConfig = StorageConfig(
    cloudFrontEnabled: bool,
    cloudFrontDomain: string,
    endpoint: string,
    bucket: string,
    region: string,
    useLocalStack: bool)

  /** A key under a base URL, with exactly the one "/" the base does not already end with. */
  function JoinPath(base: string, key: string): (r: string)
    ensures StartsWith(r, base)
    ensures EndsWith(r, "/" + key)
    ensures |r| == |base| + |key| + (if EndsWith(base, "/") then 0 else 1)
  {
    if EndsWith(base, "/") then
      assert (base + key)[|base| - 1] == '/';
      base + key
    else base + "/" + key
  }

  /** A URL served by S3 itself: under the custom endpoint when one is set, else AWS's virtual-hosted form. */
  function DirectS3Url(cfg: StorageConfig, key: string): (r: string)
    ensures EndsWith(r, "/" + key)
    ensures cfg.endpoint != "" ==> StartsWith(r, cfg.endpoint + "/" + cfg.bucket + "/")
    ensures cfg.endpoint == "" ==> StartsWith(r, "https://" + cfg.bucket + ".s3.")
  {
    if cfg.endpoint == "" then
      var head := "https://" + cfg.bucket + ".s3.";
      var r := head + cfg.region + ".amazonaws.com/" + key;
      assert r[..|head|] == head;
      r
    else
      var head := cfg.endpoint + "/" + cfg.bucket + "/";
      var r := head + key;
      assert r[..|head|] == head;
      r
  }
}

/**
 * `CloudFrontService`: streaming URLs through the CDN when it is enabled
 * (and LocalStack is not in use), direct S3 URLs otherwise, and the URLs of
 * the transcoded renditions of an upload.
 */
module CloudFront {
  import opened Wrappers
  import opened Strings
  import opened Urls

  const EmptyKey: Exception := IllegalArgument("S3 key cannot be null or empty")
  const StreamingUrlFailed: Exception := Runtime(Some("Failed to generate streaming URL"))
  const EmptyBaseKey: Exception := IllegalArgument("Base S3 key cannot be null or empty")
  const EmptyQuality: Exception := IllegalArgument("Quality cannot be null or empty")
  const QualityUrlFailed: Exception := Runtime(Some("Failed to generate quality URL"))

  /** `isEnabled`: the CDN is used only when it is switched on and LocalStack is not. */
  predicate IsEnabled(cfg: StorageConfig) {
    cfg.cloudFrontEnabled && !cfg.useLocalStack
  }

  /**
   * `generateStreamingUrl`: an empty key is rejected; with the CDN enabled
   * but no domain the configuration error surfaces as a runtime failure.
   */
  function GenerateStreamingUrl(cfg: StorageConfig, key: Option<string>): (r: Result<string>)
    ensures key.None? || key.value == "" ==> r == Err(EmptyKey)
    ensures r.Ok? <==> key.Some? && key.value != "" && !(IsEnabled(cfg) && cfg.cloudFrontDomain == "")
    ensures r.Err? && key.Some? && key.value != "" ==> r.error == StreamingUrlFailed
    ensures r.Ok? ==> EndsWith(r.value, "/" + key.value)
    ensures r.Ok? && IsEnabled(cfg) ==> StartsWith(r.value, cfg.cloudFrontDomain)
    ensures r.Ok? && IsEnabled(cfg) ==> r.value == JoinPath(cfg.cloudFrontDomain, key.value)
    ensures r.Ok? && !IsEnabled(cfg) ==> r.value == DirectS3Url(cfg, key.value)
  {
    if key.None? || key.value == "" then Err(EmptyKey)
    else if IsEnabled(cfg) then
      if cfg.cloudFrontDomain == "" then Err(StreamingUrlFailed)
      else Ok(JoinPath(cfg.cloudFrontDomain, key.value))
    else Ok(DirectS3Url(cfg, key.value))
  }

  /** `getDomain`: the CDN domain when enabled, else the endpoint and bucket. */
  function GetDomain(cfg: StorageConfig): string {
    if cfg.cloudFrontEnabled then cfg.cloudFrontDomain else cfg.endpoint + "/" + cfg.bucket
  }

  /** With LocalStack the CDN is off whatever its switch says: every streaming URL is the direct S3 URL. */
  lemma LocalStackBypassesCdn(cfg: StorageConfig, key: string)
    requires cfg.useLocalStack && key != ""
    ensures !IsEnabled(cfg)
    ensures GenerateStreamingUrl(cfg, Some(key)) == Ok(DirectS3Url(cfg, key))
  {
  }

  /**
   * `getDomain` reads only the CDN switch: with LocalStack on as well it
   * reports the CDN domain while the streaming URLs go to S3 directly.
   */
  lemma DomainIgnoresLocalStack(cfg: StorageConfig, key: string)
    requires cfg.cloudFrontEnabled && cfg.useLocalStack && key != ""
    ensures GetDomain(cfg) == cfg.cloudFrontDomain
    ensures GenerateStreamingUrl(cfg, Some(key)) == Ok(DirectS3Url(cfg, key))
  {
  }

  /**
   * The domain `getDomain` reports prefixes the streaming URLs, separated by
   * one "/", both for the CDN (when the domain has no trailing "/") and for
   * LocalStack.
   */
  lemma DomainPrefixesStreamingUrl(cfg: StorageConfig, key: string)
    requires key != ""
    requires (IsEnabled(cfg) && cfg.cloudFrontDomain != "" && !EndsWith(cfg.cloudFrontDomain, "/")) ||
             (!cfg.cloudFrontEnabled && cfg.endpoint != "")
    ensures GenerateStreamingUrl(cfg, Some(key)) == Ok(GetDomain(cfg) + "/" + key)
  {
  }

  /** A CDN domain that already ends in "/" is followed by the key directly, without a second slash. */
  lemma TrailingSlashDomainNotDoubled(cfg: StorageConfig, key: string)
    requires key != "" && IsEnabled(cfg) && EndsWith(cfg.cloudFrontDomain, "/")
    ensures GenerateStreamingUrl(cfg, Some(key)) == Ok(cfg.cloudFrontDomain + key)
  {
  }

  /**
   * `convertToQualityKey`: "videos/<id>/<name>" becomes
   * "processed/<quality>/<id>_<quality>.mp4", the second "/"-separated part
   * being the id; a key with fewer than two parts is kept whole under
   * "processed/<quality>/".
   */
  function ConvertToQualityKey(key: string, quality: string): (r: string)
    ensures StartsWith(r, "processed/" + quality + "/")
    ensures |JavaSplit(key, '/')| < 2 ==> r == "processed/" + quality + "/" + key
    ensures |JavaSplit(key, '/')| >= 2 ==> EndsWith(r, "_" + quality + ".mp4")
  {
    var parts := JavaSplit(key, '/');
    var head := "processed/" + quality + "/";
    var r := if |parts| < 2 then head + key else head + parts[1] + "_" + quality + ".mp4";
    assert r[..|head|] == head;
    assert |parts| >= 2 ==> r[|r| - |"_" + quality + ".mp4"|..] == "_" + quality + ".mp4";
    r
  }

  /**
   * The quality key of an uploaded "videos/<id>/<name>" key names the id,
   * whatever the file name is, as long as the id is non-empty and has no "/".
   */
  lemma QualityKeyOfUpload(id: string, name: string, quality: string)
    requires id != "" && '/' !in id
    ensures ConvertToQualityKey("videos/" + id + "/" + name, quality) ==
            "processed/" + quality + "/" + id + "_" + quality + ".mp4"
  {
    var key := "videos/" + id + "/" + name;
    assert key == "videos" + ['/'] + (id + "/" + name);
    FieldsAfterSeparator("videos", '/', id + "/" + name);
    assert id + "/" + name == id + ['/'] + name;
    FieldsAfterSeparator(id, '/', name);
    var fs := Fields(key, '/');
    assert fs[0] == "videos" && fs[1] == id;
    assert key[6] == '/';
    var parts := DropTrailingEmpty(fs);
    assert |parts| >= 2 && parts[1] == id;
  }

  /**
   * `generateQualityUrl`: both arguments must be non-empty; the streaming URL
   * of the quality key, any failure in producing it reported as a
   * quality-URL failure.
   */
  function GenerateQualityUrl(cfg: StorageConfig, baseKey: Option<string>, quality: Option<string>): (r: Result<string>)
    ensures baseKey.None? || baseKey.value == "" ==> r == Err(EmptyBaseKey)
    ensures baseKey.Some? && baseKey.value != "" && (quality.None? || quality.value == "") ==> r == Err(EmptyQuality)
    ensures r.Ok? <==> baseKey.Some? && baseKey.value != "" && quality.Some? && quality.value != "" &&
                       !(IsEnabled(cfg) && cfg.cloudFrontDomain == "")
    ensures r.Err? && baseKey.Some? && baseKey.value != "" && quality.Some? && quality.value != "" ==>
              r.error == QualityUrlFailed
    ensures r.Ok? ==>
              var qualityKey := ConvertToQualityKey(baseKey.value, quality.value);
              r == GenerateStreamingUrl(cfg, Some(qualityKey)) && EndsWith(r.value, "/" + qualityKey)
  {
    if baseKey.None? || baseKey.value == "" then Err(EmptyBaseKey)
    else if quality.None? || quality.value == "" then Err(EmptyQuality)
    else
      match GenerateStreamingUrl(cfg, Some(ConvertToQualityKey(baseKey.value, quality.value)))
      case Ok(url) => Ok(url)
      case Err(_) => Err(QualityUrlFailed)
  }
}

/**
 * `S3Service`: content-type checks, file-name sanitising, object keys of
 * uploads, presigned upload URLs (the signature itself is supplied by the
 * caller) and its own form of streaming URL.
 */
module S3 {
  import opened Wrappers
  import opened Strings
  import opened Urls
  import opened Common

  const MaxFileNameLength := 200

  const EmptyFileName: Exception := IllegalArgument("Filename cannot be null or empty")
  const EmptyContentType: Exception := IllegalArgument("Content type cannot be null or empty")
  const EmptyKey: Exception := IllegalArgument("S3 key cannot be null or empty")
  /** `substring` with a negative end index; its exact message is not modelled. */
  const SubstringOutOfRange: Exception := Runtime(Some("begin 0, end < 0"))

  /** The characters `[a-zA-Z0-9._-]` a sanitised file name keeps. */
  predicate IsSafeChar(c: char) {
    IsLowerLetter(c) || IsUpperLetter(c) || IsDigit(c) || c == '.' || c == '_' || c == '-'
  }

  function SafeChar(c: char): char {
    if IsSafeChar(c) then c else '_'
  }

  /** The name before truncation: ".." removed, slashes and unsafe characters turned into "_". */
  function Cleaned(name: string): (r: string)
    ensures All(r, IsSafeChar)
  {
    MapChars(ReplaceAll(ReplaceAll(ReplaceAll(name, "..", ""), "/", "_"), "\\", "_"), SafeChar)
  }

  /** Cleaning keeps the name's length after ".." removal, and leaves no two adjacent dots. */
  lemma CleanedShape(name: string)
    ensures |Cleaned(name)| == |ReplaceAll(name, "..", "")|
    ensures NoDoubled(Cleaned(name), '.')
  {
    var a := ReplaceAll(name, "..", "");
    RemoveDoubleDotLeavesNone(name);
    ReplaceCharIsMap(a, '/', '_');
    var b := ReplaceAll(a, "/", "_");
    ReplaceCharIsMap(b, '\\', '_');
    var c := ReplaceAll(b, "\\", "_");
    assert forall i :: 0 <= i < |a| ==> (b[i] == '.' <==> a[i] == '.');
    assert forall i :: 0 <= i < |b| ==> (c[i] == '.' <==> b[i] == '.');
    assert forall i :: 0 <= i < |c| ==> (Cleaned(name)[i] == '.' <==> c[i] == '.');
  }

  /**
   * `sanitizeFileName`: a name longer than 200 characters is cut to 200,
   * keeping from its last dot on (when that dot is not the first character);
   * an extension longer than 200 characters makes the cut fail.
   */
  function SanitizeFileName(fileName: Option<string>): (r: Result<string>)
    ensures fileName.None? || fileName.value == "" <==> r == Err(EmptyFileName)
    ensures r.Ok? ==> |r.value| <= MaxFileNameLength && All(r.value, IsSafeChar)
    ensures r.Ok? && |Cleaned(fileName.value)| <= MaxFileNameLength ==>
              r.value == Cleaned(fileName.value) && NoDoubled(r.value, '.')
    ensures r.Ok? && |Cleaned(fileName.value)| > MaxFileNameLength ==>
              var s := Cleaned(fileName.value);
              var dot := LastIndexOf(s, '.');
              |r.value| == MaxFileNameLength &&
              (dot > 0 ==> |s| - dot <= MaxFileNameLength && r.value == s[..MaxFileNameLength - (|s| - dot)] + s[dot..] &&
                           EndsWith(r.value, s[dot..])) &&
              (dot <= 0 ==> r.value == s[..MaxFileNameLength])
    ensures r.Err? && r != Err(EmptyFileName) ==>
              var s := Cleaned(fileName.value);
              var dot := LastIndexOf(s, '.');
              r.error == SubstringOutOfRange && |s| > MaxFileNameLength && dot > 0 && |s| - dot > MaxFileNameLength
  {
    if fileName.None? || fileName.value == "" then Err(EmptyFileName)
    else
      var s := Cleaned(fileName.value);
      CleanedShape(fileName.value);
      if |s| <= MaxFileNameLength then Ok(s)
      else
        var dot := LastIndexOf(s, '.');
        if dot > 0 then
          var extension := s[dot..];
          if |extension| > MaxFileNameLength then Err(SubstringOutOfRange)
          else
            var r := s[..MaxFileNameLength - |extension|] + extension;
            assert r[|r| - |extension|..] == extension;
            Ok(r)
        else Ok(s[..MaxFileNameLength])
  }

  /**
   * A sanitised name that was not cut (or was cut without creating "..") is
   * sanitised to itself.
   */
  lemma SanitizeIdempotent(fileName: Option<string>)
    requires SanitizeFileName(fileName).Ok? && SanitizeFileName(fileName).value != ""
    requires NoDoubled(SanitizeFileName(fileName).value, '.')
    ensures SanitizeFileName(Some(SanitizeFileName(fileName).value)) == SanitizeFileName(fileName)
  {
    var n := SanitizeFileName(fileName).value;
    CleanedFixpoint(n);
    assert |Cleaned(n)| <= MaxFileNameLength;
  }

  /** A name of safe characters with no ".." is already clean. */
  lemma CleanedFixpoint(n: string)
    requires All(n, IsSafeChar) && NoDoubled(n, '.')
    ensures Cleaned(n) == n
  {
    RemoveDoubleDotKeepsClean(n);
    assert '/' !in n && '\\' !in n by {
      assert forall i :: 0 <= i < |n| ==> IsSafeChar(n[i]);
    }
    ReplaceCharIsMap(n, '/', '_');
    assert MapChars(n, c => if c == '/' then '_' else c) == n;
    ReplaceCharIsMap(n, '\\', '_');
    assert MapChars(n, c => if c == '\\' then '_' else c) == n;
    assert MapChars(n, SafeChar) == n;
  }

  /**
   * `validateContentType`: the type must be non-empty and begin, ignoring
   * case, with the expected family.
   */
  function ValidateContentType(contentType: Option<string>, expected: string): (r: Result<()>)
    ensures contentType.None? || contentType.value == "" ==> r == Err(EmptyContentType)
    ensures r.Ok? <==> contentType.Some? && contentType.value != "" &&
                       StartsWith(Lower(contentType.value), Lower(expected))
    ensures r.Err? && contentType.Some? && contentType.value != "" ==>
              r == Err(IllegalArgument("Invalid content type: " + contentType.value + " (expected " + expected + "/*)"))
  {
    if contentType.None? || contentType.value == "" then Err(EmptyContentType)
    else if !StartsWith(Lower(contentType.value), Lower(expected)) then
      Err(IllegalArgument("Invalid content type: " + contentType.value + " (expected " + expected + "/*)"))
    else Ok(())
  }

  /** The content-type check does not depend on the case of the type. */
  lemma ContentTypeIgnoresCase(contentType: string, expected: string)
    ensures ValidateContentType(Some(Upper(contentType)), expected).Ok? ==
            ValidateContentType(Some(contentType), expected).Ok?
  {
    assert Lower(Upper(contentType)) == Lower(contentType);
  }

  /** Only the family is compared: any type that starts with it passes, "/" or not. */
  lemma ContentTypeChecksOnlyPrefix(expected: string, rest: string)
    requires Lower(expected) == expected && expected != ""
    ensures ValidateContentType(Some(expected + rest), expected) == Ok(())
  {
    assert Lower(expected + rest)[..|expected|] == Lower(expected);
  }

  /** `generateS3Key`: "<prefix>/<uuid>/<sanitised name>", the uuid drawn by the caller. */
  function GenerateS3Key(prefix: string, uuid: string, fileName: Option<string>): (r: Result<string>)
    ensures r.Ok? <==> SanitizeFileName(fileName).Ok?
    ensures r.Err? ==> r.error == SanitizeFileName(fileName).error
    ensures r.Ok? ==> r.value == prefix + "/" + uuid + "/" + SanitizeFileName(fileName).value
  {
    var name :- SanitizeFileName(fileName);
    Ok(prefix + "/" + uuid + "/" + name)
  }

  /** The two kinds of presigned upload: videos and thumbnails. */
  datatype UploadKind = VideoUpload | ThumbnailUpload {
    /** The content-type family an upload of this kind must have. */
    function ExpectedType(): string {
      if VideoUpload? then "video" else "image"
    }
    /** The first part of its object key. */
    function KeyPrefix(): string {
      if VideoUpload? then "videos" else "thumbnails"
    }
    /** The failure every error of the upload is reported as. */
    function Failure(): Exception {
      if VideoUpload? then Runtime(Some("Failed to generate video upload URL"))
      else Runtime(Some("Failed to generate thumbnail upload URL"))
    }
  }

  /** The answer to an upload request; `expiresAt` is when the presigned URL stops working. */
  datatype PresignedUploadUrl = PresignedUploadUrl(presignedUrl: string, s3Key: string, bucket: string, expiresAt: Time)

  /**
   * `generateVideoUploadUrl` / `generateThumbnailUploadUrl`: validate the
   * content type, build the key, presign it. `presigned` is what the S3
   * client's signature yields for that key; the URL stays valid for
   * `expirySeconds` from `now`. Every failure, argument errors included,
   * becomes the kind's runtime failure.
   */
  function GenerateUploadUrl(cfg: StorageConfig, kind: UploadKind, fileName: Option<string>, contentType: Option<string>,
                             uuid: string, presigned: Result<string>, now: Time, expirySeconds: int)
    : (r: Result<PresignedUploadUrl>)
    ensures r.Ok? <==> ValidateContentType(contentType, kind.ExpectedType()).Ok? &&
                       SanitizeFileName(fileName).Ok? && presigned.Ok?
    ensures r.Err? ==> r.error == kind.Failure()
    ensures r.Ok? ==>
              r.value.presignedUrl == presigned.value && r.value.bucket == cfg.bucket &&
              r.value.s3Key == kind.KeyPrefix() + "/" + uuid + "/" + SanitizeFileName(fileName).value
    ensures r.Ok? ==> r.value.expiresAt == now + expirySeconds
  {
    var key := GenerateS3Key(kind.KeyPrefix(), uuid, fileName);
    if ValidateContentType(contentType, kind.ExpectedType()).Err? || key.Err? || presigned.Err? then
      Err(kind.Failure())
    else Ok(PresignedUploadUrl(presigned.value, key.value, cfg.bucket, now + expirySeconds))
  }

  /**
   * `S3Service.generateStreamingUrl`: the CDN form whenever CloudFront is
   * switched on with a domain (LocalStack or not), the direct S3 form
   * otherwise.
   */
  function GenerateStreamingUrl(cfg: StorageConfig, key: Option<string>): (r: Result<string>)
    ensures r.Err? <==> key.None? || key.value == ""
    ensures r.Err? ==> r.error == EmptyKey
    ensures r.Ok? ==> EndsWith(r.value, "/" + key.value)
    ensures r.Ok? && cfg.cloudFrontEnabled && cfg.cloudFrontDomain != "" ==>
              StartsWith(r.value, cfg.cloudFrontDomain) && r.value == JoinPath(cfg.cloudFrontDomain, key.value)
    ensures r.Ok? && !(cfg.cloudFrontEnabled && cfg.cloudFrontDomain != "") ==> r.value == DirectS3Url(cfg, key.value)
  {
    if key.None? || key.value == "" then Err(EmptyKey)
    else if cfg.cloudFrontEnabled && cfg.cloudFrontDomain != "" then Ok(JoinPath(cfg.cloudFrontDomain, key.value))
    else Ok(DirectS3Url(cfg, key.value))
  }
}

/** How the two services' streaming URLs relate. */
module StreamingUrls {
  import opened Wrappers
  import opened Urls
  import CloudFront
  import S3

  /**
   * Outside LocalStack the two services agree on every key, except that
   * CloudFront fails where the CDN is switched on without a domain and S3
   * falls back to a direct URL.
   */
  lemma ServicesAgree(cfg: StorageConfig, key: Option<string>)
    requires !cfg.useLocalStack
    ensures !(cfg.cloudFrontEnabled && cfg.cloudFrontDomain == "") ==>
              CloudFront.GenerateStreamingUrl(cfg, key) == S3.GenerateStreamingUrl(cfg, key)
    ensures cfg.cloudFrontEnabled && cfg.cloudFrontDomain == "" && key.Some? && key.value != "" ==>
              CloudFront.GenerateStreamingUrl(cfg, key).Err? &&
              S3.GenerateStreamingUrl(cfg, key) == Ok(DirectS3Url(cfg, key.value))
  {
  }

  /** Under LocalStack, a configured CDN domain is used by S3 but not by CloudFront. */
  lemma LocalStackDisagrees(cfg: StorageConfig, key: string)
    requires cfg.useLocalStack && cfg.cloudFrontEnabled && cfg.cloudFrontDomain != "" && key != ""
    ensures CloudFront.GenerateStreamingUrl(cfg, Some(key)) == Ok(DirectS3Url(cfg, key))
    ensures S3.GenerateStreamingUrl(cfg, Some(key)) == Ok(JoinPath(cfg.cloudFrontDomain, key))
  {
  }

  /** The video key S3 generates for an upload converts to the quality key of its uuid. */
  lemma UploadKeyHasQualityKey(cfg: StorageConfig, uuid: string, fileName: Option<string>, quality: string)
    requires uuid != "" && '/' !in uuid && S3.SanitizeFileName(fileName).Ok?
    ensures CloudFront.ConvertToQualityKey(S3.GenerateS3Key("videos", uuid, fileName).value, quality) ==
            "processed/" + quality + "/" + uuid + "_" + quality + ".mp4"
  {
    var name := S3.SanitizeFileName(fileName).value;
    assert S3.GenerateS3Key("videos", uuid, fileName).value == "videos/" + uuid + "/" + name by {
      assert "videos" + "/" == "videos/";
    }
    CloudFront.QualityKeyOfUpload(uuid, name, quality);
  }
}

=== FILE: strings.dfy ===
/**
 * The java.lang.String and regular-expression operations the backend relies on,
 * over `seq<char>`. Case mapping covers ASCII letters only.
 */
module Strings {

  predicate IsDigit(c: char) {
    '0' <= c <= '9'
  }

  predicate IsLowerLetter(c: char) {
    'a' <= c <= 'z'
  }

  predicate IsUpperLetter(c: char) {
    'A' <= c <= 'Z'
  }

  /** The regular-expression class `\s`: space, tab, newline, vertical tab, form feed, carriage return. */
  predicate IsRegexSpace(c: char) {
    c == ' ' || c == '\t' || c == '\n' || c == '\U{B}' || c == '\U{C}' || c == '\r'
  }

  /** `String.trim` removes every leading and trailing character whose code is at most U+0020. */
  predicate IsTrimmable(c: char) {
    c as int <= 32
  }

  function LowerChar(c: char): char {
    if IsUpperLetter(c) then (c as int + 32) as char else c
  }

  function UpperChar(c: char): char {
    if IsLowerLetter(c) then (c as int - 32) as char else c
  }

  function Lower(s: string): (r: string)
    ensures |r| == |s|
    ensures forall i :: 0 <= i < |s| ==> r[i] == LowerChar(s[i])
  {
    seq(|s|, i requires 0 <= i < |s| => LowerChar(s[i]))
  }

  function Upper(s: string): (r: string)
    ensures |r| == |s|
    ensures forall i :: 0 <= i < |s| ==> r[i] == UpperChar(s[i])
  {
    seq(|s|, i requires 0 <= i < |s| => UpperChar(s[i]))
  }

  predicate EqualsIgnoreCase(a: string, b: string) {
    Lower(a) == Lower(b)
  }

  predicate StartsWith(s: string, prefix: string) {
    |prefix| <= |s| && s[..|prefix|] == prefix
  }

  predicate EndsWith(s: string, suffix: string) {
    |suffix| <= |s| && s[|s| - |suffix|..] == suffix
  }

  /** No two adjacent occurrences of `c`. */
  predicate NoDoubled(s: string, c: char) {
    forall i :: 0 <= i < |s| - 1 ==> !(s[i] == c && s[i + 1] == c)
  }

  /** Every character of `s` satisfies `p`. */
  predicate All(s: string, p: char -> bool) {
    forall i :: 0 <= i < |s| ==> p(s[i])
  }

  function DigitChar(d: nat): char
    requires d < 10
  {
    ('0' as int + d) as char
  }

  /** `String.valueOf` of a non-negative number. */
  function NatToString(n: nat): (r: string)
    ensures |r| > 0
    ensures All(r, IsDigit)
    decreases n
  {
    if n < 10 then [DigitChar(n)] else NatToString(n / 10) + [DigitChar(n % 10)]
  }

  /** `String.lastIndexOf(c)`: the last position holding `c`, or -1. */
  function LastIndexOf(s: string, c: char): (r: int)
    ensures -1 <= r < |s|
    ensures r >= 0 ==> s[r] == c
    ensures forall j :: r < j < |s| ==> s[j] != c
    decreases |s|
  {
    if |s| == 0 then -1
    else if s[|s| - 1] == c then |s| - 1
    else LastIndexOf(s[..|s| - 1], c)
  }

  /** The characters of `s` that satisfy `keep`, in order (a regex replacement of a character class by ""). */
  function Filter(s: string, keep: char -> bool): (r: string)
    ensures |r| <= |s|
    ensures All(r, keep)
    decreases |s|
  {
    if |s| == 0 then ""
    else (if keep(s[0]) then [s[0]] else "") + Filter(s[1..], keep)
  }

  lemma {:induction false} FilterKeepsConforming(s: string, keep: char -> bool)
    requires All(s, keep)
    ensures Filter(s, keep) == s
    decreases |s|
  {
    if |s| > 0 {
      assert keep(s[0]);
      assert All(s[1..], keep) by {
        forall i | 0 <= i < |s[1..]| ensures keep(s[1..][i]) {
          assert s[1..][i] == s[i + 1];
        }
      }
      FilterKeepsConforming(s[1..], keep);
      assert s == [s[0]] + s[1..];
    }
  }

  /** A regex replacement of a character class by a single character: one character in, one out. */
  function MapChars(s: string, f: char -> char): (r: string)
    ensures |r| == |s|
    ensures forall i :: 0 <= i < |s| ==> r[i] == f(s[i])
  {
    seq(|s|, i requires 0 <= i < |s| => f(s[i]))
  }

  /** `String.trim`, leading part. */
  function TrimStart(s: string): (r: string)
    ensures |r| <= |s| && r == s[|s| - |r|..]
    ensures |r| > 0 ==> !IsTrimmable(r[0])
    decreases |s|
  {
    if |s| > 0 && IsTrimmable(s[0]) then TrimStart(s[1..]) else s
  }

  /** `String.trim`, trailing part. */
  function TrimEnd(s: string): (r: string)
    ensures |r| <= |s| && r == s[..|r|]
    ensures |r| > 0 ==> !IsTrimmable(r[|r| - 1])
    decreases |s|
  {
    if |s| > 0 && IsTrimmable(s[|s| - 1]) then TrimEnd(s[..|s| - 1]) else s
  }

  function Trim(s: string): (r: string)
    ensures |r| <= |s|
    ensures |r| > 0 ==> !IsTrimmable(r[0]) && !IsTrimmable(r[|r| - 1])
  {
    TrimEnd(TrimStart(s))
  }

  /**
   * `String.replace(target, replacement)`: every occurrence of the literal
   * `target`, scanning left to right without overlap, is replaced.
   */
  function ReplaceAll(s: string, target: string, replacement: string): (r: string)
    requires |target| > 0
    ensures |replacement| >= |target| ==> |r| >= |s|
    ensures |s| < |target| ==> r == s
    decreases |s|
  {
    if |s| < |target| then s
    else if s[..|target|] == target then replacement + ReplaceAll(s[|target|..], target, replacement)
    else [s[0]] + ReplaceAll(s[1..], target, replacement)
  }

  /** A text that does not begin like the target keeps its first character. */
  lemma ReplaceAllKeepsHead(s: string, target: string, replacement: string)
    requires |target| > 0 && |s| > 0 && s[0] != target[0]
    ensures ReplaceAll(s, target, replacement) == [s[0]] + ReplaceAll(s[1..], target, replacement)
  {
    if |s| >= |target| {
      assert s[..|target|][0] == s[0];
    }
  }

  /** Replacing a one-character target by a one-character replacement maps characters one to one. */
  lemma {:induction false} ReplaceCharIsMap(s: string, x: char, y: char)
    ensures ReplaceAll(s, [x], [y]) == MapChars(s, c => if c == x then y else c)
    decreases |s|
  {
    var f := c => if c == x then y else c;
    if |s| > 0 {
      ReplaceCharIsMap(s[1..], x, y);
      if s[0] == x {
        assert s[..1] == [x];
      } else {
        ReplaceAllKeepsHead(s, [x], [y]);
      }
      assert MapChars(s, f) == [f(s[0])] + MapChars(s[1..], f);
    }
  }

  /** Removing every ".." (left to right) leaves no two adjacent dots. */
  lemma {:induction false} RemoveDoubleDotLeavesNone(s: string)
    ensures NoDoubled(ReplaceAll(s, "..", ""), '.')
    decreases |s|
  {
    var r := ReplaceAll(s, "..", "");
    if |s| < 2 {
    } else if s[..2] == ".." {
      RemoveDoubleDotLeavesNone(s[2..]);
    } else {
      var t := s[1..];
      RemoveDoubleDotLeavesNone(t);
      var rt := ReplaceAll(t, "..", "");
      assert r == [s[0]] + rt;
      if s[0] == '.' {
        assert t[0] != '.' by {
          assert s[..2] == [s[0], s[1]];
        }
        ReplaceAllKeepsHead(t, "..", "");
        assert rt[0] == t[0];
      }
      forall i | 0 <= i < |r| - 1
        ensures !(r[i] == '.' && r[i + 1] == '.')
      {
        if i > 0 {
          assert r[i] == rt[i - 1] && r[i + 1] == rt[i];
        }
      }
    }
  }

  /** The text left after skipping every leading character that satisfies `p`. */
  function DropWhile(s: string, p: char -> bool): (r: string)
    ensures |r| <= |s| && r == s[|s| - |r|..]
    ensures |r| > 0 ==> !p(r[0])
    decreases |s|
  {
    if |s| > 0 && p(s[0]) then DropWhile(s[1..], p) else s
  }

  /** A regex replacement of `X+` by one character: each maximal run of `p`-characters becomes `c`. */
  function CollapseRuns(s: string, p: char -> bool, c: char): string
    decreases |s|
  {
    if |s| == 0 then ""
    else if p(s[0]) then [c] + CollapseRuns(DropWhile(s[1..], p), p, c)
    else [s[0]] + CollapseRuns(s[1..], p, c)
  }

  /** After collapsing, every character is the replacement or one that satisfies `q` in the input. */
  lemma {:induction false} CollapseRunsChars(s: string, p: char -> bool, c: char, q: char -> bool)
    requires All(s, q) && q(c)
    ensures All(CollapseRuns(s, p, c), q)
    decreases |s|
  {
    if |s| > 0 {
      var rest := if p(s[0]) then DropWhile(s[1..], p) else s[1..];
      assert All(rest, q) by {
        forall i | 0 <= i < |rest| ensures q(rest[i]) {
          assert rest[i] == s[|s| - |rest| + i];
        }
      }
      CollapseRunsChars(rest, p, c, q);
      var head := if p(s[0]) then c else s[0];
      var r := CollapseRuns(s, p, c);
      var rr := CollapseRuns(rest, p, c);
      assert r == [head] + rr;
      forall i | 0 <= i < |r| ensures q(r[i]) {
        if i > 0 {
          assert r[i] == rr[i - 1];
        }
      }
    }
  }

  /** When the replacement itself belongs to the run class, no two replacements end up adjacent. */
  lemma {:induction false} CollapseRunsNoDoubled(s: string, p: char -> bool, c: char)
    requires p(c)
    ensures NoDoubled(CollapseRuns(s, p, c), c)
    decreases |s|
  {
    if |s| > 0 {
      var rest := if p(s[0]) then DropWhile(s[1..], p) else s[1..];
      var head := if p(s[0]) then c else s[0];
      CollapseRunsNoDoubled(rest, p, c);
      var rr := CollapseRuns(rest, p, c);
      var r := CollapseRuns(s, p, c);
      assert r == [head] + rr;
      if p(s[0]) && |rest| > 0 {
        assert rr[0] == rest[0];
        assert rest[0] != c;
      }
      forall i | 0 <= i < |r| - 1
        ensures !(r[i] == c && r[i + 1] == c)
      {
        if i > 0 {
          assert r[i] == rr[i - 1] && r[i + 1] == rr[i];
        } else if !p(s[0]) {
          assert head != c;
        }
      }
    }
  }

  /**
   * A text whose `p`-characters are all `c` and never adjacent has only runs
   * of length one, so collapsing leaves it as it is.
   */
  lemma {:induction false} CollapseRunsOfSingles(s: string, p: char -> bool, c: char)
    requires forall i :: 0 <= i < |s| && p(s[i]) ==> s[i] == c
    requires forall i :: 0 <= i < |s| - 1 ==> !(p(s[i]) && p(s[i + 1]))
    ensures CollapseRuns(s, p, c) == s
    decreases |s|
  {
    if |s| > 0 {
      var t := s[1..];
      assert forall i :: 0 <= i < |t| ==> t[i] == s[i + 1];
      CollapseRunsOfSingles(t, p, c);
      if p(s[0]) && |t| > 0 {
        assert !p(t[0]);
      }
      assert [s[0]] + t == s;
    }
  }

  /** Collapsing never lengthens the text. */
  lemma {:induction false} CollapseRunsNoLonger(s: string, p: char -> bool, c: char)
    ensures |CollapseRuns(s, p, c)| <= |s|
    decreases |s|
  {
    if |s| > 0 {
      var rest := if p(s[0]) then DropWhile(s[1..], p) else s[1..];
      CollapseRunsNoLonger(rest, p, c);
    }
  }

  lemma InTail(s: string, x: char)
    requires x in s && s[0] != x
    ensures x in s[1..]
  {
    var k :| 0 <= k < |s| && s[k] == x;
    assert s[1..][k - 1] == x;
  }

  /** A character outside the run class survives the dropping of a leading run. */
  lemma {:induction false} DropWhileKeeps(s: string, p: char -> bool, x: char)
    requires x in s && !p(x)
    ensures x in DropWhile(s, p)
    decreases |s|
  {
    if p(s[0]) {
      InTail(s, x);
      DropWhileKeeps(s[1..], p, x);
    }
  }

  /** A character outside the run class survives collapsing. */
  lemma {:induction false} CollapseRunsKeeps(s: string, p: char -> bool, c: char, x: char)
    requires x in s && !p(x)
    ensures x in CollapseRuns(s, p, c)
    decreases |s|
  {
    var head := if p(s[0]) then c else s[0];
    var rest := if p(s[0]) then DropWhile(s[1..], p) else s[1..];
    assert CollapseRuns(s, p, c) == [head] + CollapseRuns(rest, p, c);
    if s[0] != x {
      InTail(s, x);
      if p(s[0]) {
        DropWhileKeeps(s[1..], p, x);
      }
      CollapseRunsKeeps(rest, p, c, x);
    }
  }

  /** A text holding a character `keep` rejects loses it, and so gets shorter, when filtered. */
  lemma {:induction false} FilterDropsShorter(s: string, keep: char -> bool, x: char)
    requires x in s && !keep(x)
    ensures |Filter(s, keep)| < |s|
    decreases |s|
  {
    if s[0] != x {
      InTail(s, x);
      FilterDropsShorter(s[1..], keep, x);
    }
  }

  /** A character that is not blank survives trimming. */
  lemma {:induction false} TrimKeeps(s: string, x: char)
    requires x in s && !IsTrimmable(x)
    ensures x in Trim(s)
  {
    TrimStartKeeps(s, x);
    TrimEndKeeps(TrimStart(s), x);
  }

  lemma {:induction false} TrimStartKeeps(s: string, x: char)
    requires x in s && !IsTrimmable(x)
    ensures x in TrimStart(s)
    decreases |s|
  {
    if IsTrimmable(s[0]) {
      InTail(s, x);
      TrimStartKeeps(s[1..], x);
    }
  }

  lemma {:induction false} TrimEndKeeps(s: string, x: char)
    requires x in s && !IsTrimmable(x)
    ensures x in TrimEnd(s)
    decreases |s|
  {
    var n := |s| - 1;
    if IsTrimmable(s[n]) {
      assert x in s[..n] by {
        var k :| 0 <= k < |s| && s[k] == x;
        assert k < n && s[..n][k] == x;
      }
      TrimEndKeeps(s[..n], x);
    }
  }

  /** `Filter` distributes over concatenation. */
  lemma {:induction false} FilterConcat(a: string, b: string, keep: char -> bool)
    ensures Filter(a + b, keep) == Filter(a, keep) + Filter(b, keep)
    decreases |a|
  {
    if |a| == 0 {
      assert a + b == b;
    } else {
      var head := if keep(a[0]) then [a[0]] else "";
      var ab := a + b;
      assert ab[0] == a[0] && ab[1..] == a[1..] + b;
      FilterConcat(a[1..], b, keep);
      calc {
        Filter(ab, keep);
        head + Filter(a[1..] + b, keep);
        head + (Filter(a[1..], keep) + Filter(b, keep));
        (head + Filter(a[1..], keep)) + Filter(b, keep);
      }
    }
  }

  /** Filtering one character keeps it exactly when `keep` accepts it. */
  lemma FilterSingle(x: char, keep: char -> bool)
    ensures Filter([x], keep) == if keep(x) then [x] else ""
  {
    assert [x][1..] == "";
  }

  /** Skipping leading characters that `keep` rejects does not change what it keeps. */
  lemma {:induction false} FilterDropWhile(s: string, p: char -> bool, keep: char -> bool)
    requires forall x :: p(x) ==> !keep(x)
    ensures Filter(DropWhile(s, p), keep) == Filter(s, keep)
    decreases |s|
  {
    if |s| > 0 && p(s[0]) {
      FilterDropWhile(s[1..], p, keep);
    }
  }

  /** Collapsing runs of rejected characters into a rejected character does not change what `keep` keeps. */
  lemma {:induction false} FilterCollapseRuns(s: string, p: char -> bool, c: char, keep: char -> bool)
    requires forall x :: p(x) ==> !keep(x)
    requires !keep(c)
    ensures Filter(CollapseRuns(s, p, c), keep) == Filter(s, keep)
    decreases |s|
  {
    if |s| > 0 {
      var head := if p(s[0]) then c else s[0];
      var rest := if p(s[0]) then DropWhile(s[1..], p) else s[1..];
      FilterCollapseRuns(rest, p, c, keep);
      if p(s[0]) {
        FilterDropWhile(s[1..], p, keep);
      }
      FilterConcat([head], CollapseRuns(rest, p, c), keep);
      FilterSingle(head, keep);
    }
  }

  /** Trimming removes only characters at or below U+0020, so it keeps what a `keep` rejecting those keeps. */
  lemma {:induction false} FilterTrim(s: string, keep: char -> bool)
    requires forall x :: IsTrimmable(x) ==> !keep(x)
    ensures Filter(Trim(s), keep) == Filter(s, keep)
  {
    FilterTrimStart(s, keep);
    FilterTrimEnd(TrimStart(s), keep);
  }

  lemma {:induction false} FilterTrimStart(s: string, keep: char -> bool)
    requires forall x :: IsTrimmable(x) ==> !keep(x)
    ensures Filter(TrimStart(s), keep) == Filter(s, keep)
    decreases |s|
  {
    if |s| > 0 && IsTrimmable(s[0]) {
      FilterTrimStart(s[1..], keep);
    }
  }

  lemma {:induction false} FilterTrimEnd(s: string, keep: char -> bool)
    requires forall x :: IsTrimmable(x) ==> !keep(x)
    ensures Filter(TrimEnd(s), keep) == Filter(s, keep)
    decreases |s|
  {
    if |s| > 0 && IsTrimmable(s[|s| - 1]) {
      var t := s[..|s| - 1];
      FilterTrimEnd(t, keep);
      assert t + [s[|s| - 1]] == s;
      FilterConcat(t, [s[|s| - 1]], keep);
      FilterSingle(s[|s| - 1], keep);
    }
  }

  /** Filtering by a wider class first does not change what a narrower filter keeps. */
  lemma {:induction false} FilterFilter(s: string, wide: char -> bool, keep: char -> bool)
    requires forall x :: keep(x) ==> wide(x)
    ensures Filter(Filter(s, wide), keep) == Filter(s, keep)
    decreases |s|
  {
    if |s| > 0 {
      var head := if wide(s[0]) then [s[0]] else "";
      FilterFilter(s[1..], wide, keep);
      FilterConcat(head, Filter(s[1..], wide), keep);
      FilterSingle(s[0], keep);
    }
  }

  /** All fields of `s` separated by `sep`, empty ones included (one more field than separators). */
  function Fields(s: string, sep: char): (r: seq<string>)
    ensures |r| > 0
    decreases |s|
  {
    if |s| == 0 then [""]
    else if s[0] == sep then [""] + Fields(s[1..], sep)
    else
      var rest := Fields(s[1..], sep);
      [[s[0]] + rest[0]] + rest[1..]
  }

  function DropTrailingEmpty(fs: seq<string>): (r: seq<string>)
    ensures |r| <= |fs| && r == fs[..|r|]
    ensures |r| > 0 ==> r[|r| - 1] != ""
    ensures forall i :: |r| <= i < |fs| ==> fs[i] == ""
    decreases |fs|
  {
    if |fs| == 0 then fs
    else if fs[|fs| - 1] == "" then DropTrailingEmpty(fs[..|fs| - 1])
    else fs
  }

  /**
   * `String.split(sep)` for a one-character literal separator: the input
   * itself when the separator does not occur, otherwise its fields with
   * trailing empty fields removed.
   */
  function JavaSplit(s: string, sep: char): seq<string> {
    if sep !in s then [s] else DropTrailingEmpty(Fields(s, sep))
  }

  /** The text before the first separator is the first field. */
  lemma {:induction false} FirstFieldIsPrefix(s: string, sep: char)
    ensures sep in s ==> exists k :: 0 <= k < |s| && s[k] == sep && Fields(s, sep)[0] == s[..k] && sep !in s[..k]
    ensures sep !in s ==> Fields(s, sep)[0] == s
    decreases |s|
  {
    if |s| > 0 && s[0] != sep {
      FirstFieldIsPrefix(s[1..], sep);
      if sep in s {
        assert sep in s[1..];
        var k :| 0 <= k < |s[1..]| && s[1..][k] == sep && Fields(s[1..], sep)[0] == s[1..][..k] && sep !in s[1..][..k];
        assert s[..k + 1] == [s[0]] + s[1..][..k];
        assert s[k + 1] == sep;
      } else {
        assert s == [s[0]] + s[1..];
      }
    } else if |s| > 0 {
      assert s[..0] == "";
    }
  }

  /** A first field free of the separator splits off as a field of its own. */
  lemma {:induction false} FieldsAfterSeparator(a: string, sep: char, rest: string)
    requires sep !in a
    ensures Fields(a + [sep] + rest, sep) == [a] + Fields(rest, sep)
    decreases |a|
  {
    var s := a + [sep] + rest;
    if |a| == 0 {
      assert s[1..] == rest;
    } else {
      assert s[1..] == a[1..] + [sep] + rest;
      FieldsAfterSeparator(a[1..], sep, rest);
      assert [a[0]] + a[1..] == a;
    }
  }

  /** A text without two adjacent dots is left alone by removing "..". */
  lemma {:induction false} RemoveDoubleDotKeepsClean(s: string)
    requires NoDoubled(s, '.')
    ensures ReplaceAll(s, "..", "") == s
    decreases |s|
  {
    if |s| >= 2 {
      assert s[..2] != ".." by {
        assert s[..2] == [s[0], s[1]];
      }
      RemoveDoubleDotKeepsClean(s[1..]);
      assert [s[0]] + s[1..] == s;
    }
  }

  /** Whether `t` occurs in `s` starting at position `i`. */
  predicate OccursAt(t: string, s: string, i: int) {
    0 <= i && i + |t| <= |s| && s[i..i + |t|] == t
  }

  /** Whether `t` occurs in `s` at a position before `n`. */
  predicate OccursBefore(t: string, s: string, n: int) {
    exists i :: 0 <= i < n && OccursAt(t, s, i)
  }

  /** Whether `t` occurs anywhere in `s`. */
  predicate Occurs(t: string, s: string) {
    OccursBefore(t, s, |s|)
  }

  /** A stretch in which no occurrence of the target starts is copied unchanged. */
  lemma {:induction false} ReplaceAllSkip(p: string, s: string, t: string, x: string)
    requires |t| > 0 && !OccursBefore(t, p + s, |p|)
    ensures ReplaceAll(p + s, t, x) == p + ReplaceAll(s, t, x)
    decreases |p|
  {
    if |p| > 0 {
      assert !OccursAt(t, p + s, 0);
      assert (p + s)[1..] == p[1..] + s;
      forall i | 0 <= i < |p| - 1
        ensures !OccursAt(t, p[1..] + s, i)
      {
        assert !OccursAt(t, p + s, i + 1);
        if i + |t| <= |p[1..] + s| {
          assert (p[1..] + s)[i..i + |t|] == (p + s)[i + 1..i + 1 + |t|];
        }
      }
      ReplaceAllSkip(p[1..], s, t, x);
      assert [p[0]] + p[1..] == p;
    } else {
      assert p + s == s;
    }
  }

  /**
   * A front in which the target does not occur is copied unchanged when the
   * tail's first character appears in the target only at its start, so no
   * occurrence can reach across the join.
   */
  lemma ReplaceAllSkipFront(front: string, tail: string, t: string, x: string)
    requires |t| > 0 && |tail| > 0 && !Occurs(t, front) && tail[0] !in t[1..]
    ensures ReplaceAll(front + tail, t, x) == front + ReplaceAll(tail, t, x)
  {
    var s := front + tail;
    forall i | 0 <= i < |front|
      ensures !OccursAt(t, s, i)
    {
      if i + |t| <= |front| {
        assert !OccursAt(t, front, i);
        assert s[i..i + |t|] == front[i..i + |t|];
      } else if i + |t| <= |s| {
        var k := |front| - i;
        assert s[i..i + |t|][k] == tail[0];
        assert t[1..][k - 1] == t[k];
      }
    }
    ReplaceAllSkip(front, tail, t, x);
  }

  /** A prefix without the target's first character adds no occurrence. */
  lemma NoOccurrenceBehind(p: string, s: string, t: string)
    requires |t| > 0 && t[0] !in p && !Occurs(t, s)
    ensures !Occurs(t, p + s)
  {
    forall i | 0 <= i < |p + s|
      ensures !OccursAt(t, p + s, i)
    {
      if i + |t| <= |p + s| {
        if i < |p| {
          assert (p + s)[i..i + |t|][0] == p[i];
        } else {
          assert !OccursAt(t, s, i - |p|);
          assert (p + s)[i..i + |t|] == s[i - |p|..i - |p| + |t|];
        }
      }
    }
  }

  /** A text that starts with the target has it replaced first. */
  lemma ReplaceAllLeading(t: string, s: string, x: string)
    requires |t| > 0
    ensures ReplaceAll(t + s, t, x) == x + ReplaceAll(s, t, x)
  {
    assert (t + s)[..|t|] == t && (t + s)[|t|..] == s;
  }

  /** A stretch without the target's first character is copied unchanged. */
  lemma {:induction false} ReplaceAllBefore(p: string, s: string, t: string, x: string)
    requires |t| > 0 && t[0] !in p
    ensures ReplaceAll(p + s, t, x) == p + ReplaceAll(s, t, x)
    decreases |p|
  {
    if |p| > 0 {
      ReplaceAllKeepsHead(p + s, t, x);
      assert (p + s)[1..] == p[1..] + s;
      ReplaceAllBefore(p[1..], s, t, x);
      assert [p[0]] + p[1..] == p;
    } else {
      assert p + s == s;
    }
  }
}

=== FILE: tables.dfy ===
/**
 * Tables: the rows of one repository as a sequence, a row's id being its
 * position. Counting queries, single-result finders and sums over a table.
 */
module Tables {

  /** What a single-result finder sees: no row, exactly one row (at `index`), or several rows. */
  datatype Match = NoMatch | OneMatch(index: nat) | ManyMatches

  /** The number of rows satisfying `p`. */
  function Count<T>(s: seq<T>, p: T -> bool): (n: nat)
    ensures n <= |s|
    ensures n == 0 <==> forall i :: 0 <= i < |s| ==> !p(s[i])
  {
    if |s| == 0 then 0
    else Count(s[..|s| - 1], p) + (if p(s[|s| - 1]) then 1 else 0)
  }

  /** `SELECT COUNT(*) > 0`. */
  predicate Exists<T>(s: seq<T>, p: T -> bool) {
    Count(s, p) > 0
  }

  /** The sum of `f` over all rows. */
  function Sum<T>(s: seq<T>, f: T -> int): int {
    if |s| == 0 then 0 else Sum(s[..|s| - 1], f) + f(s[|s| - 1])
  }

  /**
   * A finder that returns an optional row: empty when nothing matches, the
   * row when exactly one matches, and a failure when more than one does.
   */
  function FindOne<T>(s: seq<T>, p: T -> bool): (m: Match)
    ensures m.NoMatch? <==> Count(s, p) == 0
    ensures m.OneMatch? <==> Count(s, p) == 1
    ensures m.ManyMatches? <==> Count(s, p) >= 2
    ensures m.OneMatch? ==> m.index < |s| && p(s[m.index])
    ensures m.OneMatch? ==> forall i :: 0 <= i < |s| && i != m.index ==> !p(s[i])
  {
    if |s| == 0 then NoMatch
    else
      var m := FindOne(s[..|s| - 1], p);
      if !p(s[|s| - 1]) then m
      else if m.NoMatch? then OneMatch(|s| - 1)
      else ManyMatches
  }

  /** A count is the number of row positions satisfying `p`. */
  lemma {:induction false} CountIsCardinality<T>(s: seq<T>, p: T -> bool, rows: set<nat>)
    requires forall i: nat :: i in rows <==> i < |s| && p(s[i])
    ensures Count(s, p) == |rows|
  {
    if |s| > 0 {
      var n := |s| - 1;
      var front := set i: nat | i < n && p(s[i]);
      assert forall i :: 0 <= i < n ==> s[..n][i] == s[i];
      CountIsCardinality(s[..n], p, front);
      if p(s[n]) {
        assert rows == front + {n};
      } else {
        assert rows == front;
      }
    }
  }

  /**
   * A finder read row by row: nothing when no row matches, and a failure
   * exactly when two distinct rows match.
   */
  lemma FindOneRows<T>(s: seq<T>, p: T -> bool)
    ensures FindOne(s, p).NoMatch? <==> forall i :: 0 <= i < |s| ==> !p(s[i])
    ensures FindOne(s, p).ManyMatches? <==> exists i, j :: 0 <= i < j < |s| && p(s[i]) && p(s[j])
  {
    if FindOne(s, p).ManyMatches? {
      ManyMatchesHasTwo(s, p);
    }
  }

  lemma {:induction false} ManyMatchesHasTwo<T>(s: seq<T>, p: T -> bool)
    requires FindOne(s, p).ManyMatches?
    ensures exists i, j :: 0 <= i < j < |s| && p(s[i]) && p(s[j])
  {
    var n := |s| - 1;
    var front := s[..n];
    assert forall i :: 0 <= i < n ==> front[i] == s[i];
    if p(s[n]) {
      var i :| 0 <= i < n && p(front[i]);
      assert p(s[i]) && p(s[n]);
    } else {
      ManyMatchesHasTwo(front, p);
      var i, j :| 0 <= i < j < n && p(front[i]) && p(front[j]);
      assert p(s[i]) && p(s[j]);
    }
  }

  /** A sum of terms that are all zero is zero; a sum of non-negative terms is non-negative. */
  lemma {:induction false} SumBounds<T>(s: seq<T>, f: T -> int)
    ensures (forall i :: 0 <= i < |s| ==> f(s[i]) == 0) ==> Sum(s, f) == 0
    ensures (forall i :: 0 <= i < |s| ==> f(s[i]) >= 0) ==> Sum(s, f) >= 0
  {
    if |s| > 0 {
      var n := |s| - 1;
      assert forall i :: 0 <= i < n ==> s[..n][i] == s[i];
      SumBounds(s[..n], f);
    }
  }

  /** A row appended to a table adds one to every count it satisfies. */
  lemma CountAppend<T>(s: seq<T>, x: T, p: T -> bool)
    ensures Count(s + [x], p) == Count(s, p) + (if p(x) then 1 else 0)
  {
    assert (s + [x])[..|s|] == s;
  }

  /** A sum over a table with one more row. */
  lemma SumAppend<T>(s: seq<T>, x: T, f: T -> int)
    ensures Sum(s + [x], f) == Sum(s, f) + f(x)
  {
    assert (s + [x])[..|s|] == s;
  }

  /** Two tables that agree row by row on a predicate have the same count and the same finder result. */
  lemma {:induction false} SameMatches<T, U>(s: seq<T>, p: T -> bool, t: seq<U>, q: U -> bool)
    requires |s| == |t|
    requires forall i :: 0 <= i < |s| ==> p(s[i]) == q(t[i])
    ensures Count(s, p) == Count(t, q)
    ensures FindOne(s, p) == FindOne(t, q)
  {
    if |s| > 0 {
      var n := |s| - 1;
      assert forall i :: 0 <= i < n ==> s[..n][i] == s[i] && t[..n][i] == t[i];
      SameMatches(s[..n], p, t[..n], q);
    }
  }

  /** Replacing a row by one that agrees with it on `p` changes neither the count nor the finder. */
  lemma UpdateKeepsMatches<T>(s: seq<T>, i: nat, x: T, p: T -> bool)
    requires i < |s| && p(x) == p(s[i])
    ensures Count(s[i := x], p) == Count(s, p)
    ensures FindOne(s[i := x], p) == FindOne(s, p)
  {
    SameMatches(s[i := x], p, s, p);
  }

  /** Replacing a row that satisfies `p` by one that does not takes exactly one off the count. */
  lemma {:induction false} UpdateDropsMatch<T>(s: seq<T>, i: nat, x: T, p: T -> bool)
    requires i < |s| && p(s[i]) && !p(x)
    ensures Count(s[i := x], p) == Count(s, p) - 1
  {
    var n := |s| - 1;
    var t := s[i := x];
    assert Count(t, p) == Count(t[..n], p) + (if p(t[n]) then 1 else 0);
    assert Count(s, p) == Count(s[..n], p) + (if p(s[n]) then 1 else 0);
    if i == n {
      assert t[..n] == s[..n];
    } else {
      assert t[..n] == s[..n][i := x];
      assert t[n] == s[n];
      UpdateDropsMatch(s[..n], i, x, p);
    }
  }

  /** Replacing a row that does not satisfy `p` by one that does adds exactly one to the count. */
  lemma {:induction false} UpdateAddsMatch<T>(s: seq<T>, i: nat, x: T, p: T -> bool)
    requires i < |s| && !p(s[i]) && p(x)
    ensures Count(s[i := x], p) == Count(s, p) + 1
  {
    var n := |s| - 1;
    var t := s[i := x];
    assert Count(t, p) == Count(t[..n], p) + (if p(t[n]) then 1 else 0);
    assert Count(s, p) == Count(s[..n], p) + (if p(s[n]) then 1 else 0);
    if i == n {
      assert t[..n] == s[..n];
    } else {
      assert t[..n] == s[..n][i := x];
      assert t[n] == s[n];
      UpdateAddsMatch(s[..n], i, x, p);
    }
  }
}

=== FILE: user.dfy ===
/** A platform account: lockout after repeated failed logins, e-mail verification, Spring Security flags. */
module Users {
  import opened Wrappers
  import opened Common

  datatype UserRole = Student | Instructor | Employer | Admin | SystemAdmin

  /** The number of consecutive failed logins that locks an account. */
  const LockThreshold: int := 5

  datatype User = User(
    email: string,
    password: string,
    role: UserRole,
    isEmailVerified: bool,
    emailVerificationToken: Option<string>,
    verificationTokenExpiry: Option<Time>,
    isActive: bool,
    isLocked: bool,
    failedLoginAttempts: int,
    lockedAt: Option<Time>,
    lastLoginAt: Option<Time>,
    lastLoginIp: Option<string>)

  /** `UserRole.valueOf`: the exact constant name, or an IllegalArgumentException. */
  function ParseRole(name: string): (r: Result<UserRole>)
    ensures r.Ok? <==> name in {"STUDENT", "INSTRUCTOR", "EMPLOYER", "ADMIN", "SYSTEM_ADMIN"}
    ensures r.Err? ==> r.error.IllegalArgument?
  {
    if name == "STUDENT" then Ok(Student)
    else if name == "INSTRUCTOR" then Ok(Instructor)
    else if name == "EMPLOYER" then Ok(Employer)
    else if name == "ADMIN" then Ok(Admin)
    else if name == "SYSTEM_ADMIN" then Ok(SystemAdmin)
    else Err(IllegalArgument("No enum constant com.mdaudev.mwanzo.mwanzocourseplatformbackend.domain.user.UserRole." + name))
  }

  function IsAccountNonLocked(u: User): (r: bool)
    ensures r <==> !u.isLocked
  {
    !u.isLocked
  }

  function IsEnabled(u: User): (r: bool)
    ensures r <==> u.isActive
  {
    u.isActive
  }

  /** Clears the failure count, unlocks a locked account and records time and address. */
  function RecordSuccessfulLogin(u: User, ip: Option<string>, now: Time): (r: User)
    ensures r.failedLoginAttempts == 0 && !r.isLocked
    ensures r.lastLoginAt == Some(now) && r.lastLoginIp == ip
    ensures u.isLocked ==> r.lockedAt.None?
    ensures !u.isLocked ==> r.lockedAt == u.lockedAt
    ensures r.isActive == u.isActive && r.email == u.email && r.password == u.password
    ensures r.(failedLoginAttempts := u.failedLoginAttempts, isLocked := u.isLocked, lockedAt := u.lockedAt,
               lastLoginAt := u.lastLoginAt, lastLoginIp := u.lastLoginIp) == u
  {
    var r := u.(lastLoginAt := Some(now), lastLoginIp := ip, failedLoginAttempts := 0);
    if u.isLocked then r.(isLocked := false, lockedAt := None) else r
  }

  /** Counts one more failure; from the fifth on the account is locked (and the lock time renewed). */
  function RecordFailedLogin(u: User, now: Time): (r: User)
    ensures r.failedLoginAttempts == u.failedLoginAttempts + 1
    ensures r.failedLoginAttempts >= LockThreshold ==> r.isLocked && r.lockedAt == Some(now)
    ensures r.failedLoginAttempts < LockThreshold ==> r.isLocked == u.isLocked && r.lockedAt == u.lockedAt
    ensures r.isActive == u.isActive && r.email == u.email && r.password == u.password
    ensures r.lastLoginAt == u.lastLoginAt && r.lastLoginIp == u.lastLoginIp
    ensures r.(failedLoginAttempts := u.failedLoginAttempts, isLocked := u.isLocked, lockedAt := u.lockedAt) == u
  {
    var r := u.(failedLoginAttempts := u.failedLoginAttempts + 1);
    if r.failedLoginAttempts >= LockThreshold then r.(isLocked := true, lockedAt := Some(now)) else r
  }

  function VerifyEmail(u: User): (r: User)
    ensures r.isEmailVerified && r.emailVerificationToken.None? && r.verificationTokenExpiry.None?
    ensures r.(isEmailVerified := u.isEmailVerified, emailVerificationToken := u.emailVerificationToken,
               verificationTokenExpiry := u.verificationTokenExpiry) == u
  {
    u.(isEmailVerified := true, emailVerificationToken := None, verificationTokenExpiry := None)
  }

  /** `n` failed logins in a row applied to an account. */
  function RecordFailures(u: User, n: nat, now: Time): User
    decreases n
  {
    if n == 0 then u else RecordFailedLogin(RecordFailures(u, n - 1, now), now)
  }

  /** Five consecutive failures lock an account that started with no failures. */
  lemma {:induction false} FiveFailuresLock(u: User, n: nat, now: Time)
    requires u.failedLoginAttempts == 0 && !u.isLocked
    ensures RecordFailures(u, n, now).failedLoginAttempts == n
    ensures RecordFailures(u, n, now).isLocked <==> n >= LockThreshold
    decreases n
  {
    if n > 0 {
      FiveFailuresLock(u, n - 1, now);
    }
  }
}

=== FILE: video.dfy ===
/** A lesson video: processing status, view counter and duration in minutes. */
module Videos {
  import opened Wrappers
  import opened Common
  import opened Arith

  datatype VideoProcessingStatus = Uploaded | Processing | Ready | Failed

  /**
   * `processingJobId`, `processingError` and `qualityUrls` are the fields the
   * video service writes besides the entity's declared ones; `qualityUrls`
   * stands for the JSON object text kept in the quality-URL column.
   */
  datatype Video = Video(
    courseId: Id,
    sectionId: Id,
    durationSeconds: int,
    s3Key: string,
    videoUrl: string,
    streamingUrl: Option<string>,
    isPreview: bool,
    isPublished: bool,
    processingStatus: VideoProcessingStatus,
    viewCount: int,
    processingJobId: Option<string>,
    processingError: Option<string>,
    qualityUrls: map<string, string>)

  function Create(courseId: Id, sectionId: Id, durationSeconds: int, s3Key: string, videoUrl: string): (v: Video)
    ensures !v.isPreview && v.isPublished && v.processingStatus == Uploaded && v.viewCount == 0
    ensures v.courseId == courseId && v.sectionId == sectionId && v.durationSeconds == durationSeconds
    ensures v.s3Key == s3Key && v.videoUrl == videoUrl && v.qualityUrls == map[]
  {
    Video(courseId, sectionId, durationSeconds, s3Key, videoUrl, None, false, true, Uploaded, 0, None, None, map[])
  }

  /** The duration rounded up to whole minutes. */
  function DurationMinutes(v: Video): (r: int)
    ensures 60 * r - 60 < v.durationSeconds <= 60 * r
    ensures v.durationSeconds > 0 ==> r >= 1
  {
    CeilDiv(v.durationSeconds, 60)
  }

  function IncrementViewCount(v: Video): (r: Video)
    ensures r.viewCount == v.viewCount + 1
    ensures r.(viewCount := v.viewCount) == v
  {
    v.(viewCount := v.viewCount + 1)
  }

  function MarkAsReady(v: Video, streamingUrl: string): (r: Video)
    ensures r.processingStatus == Ready && r.streamingUrl == Some(streamingUrl)
    ensures r.(processingStatus := v.processingStatus, streamingUrl := v.streamingUrl) == v
  {
    v.(processingStatus := Ready, streamingUrl := Some(streamingUrl))
  }

  function MarkAsFailed(v: Video): (r: Video)
    ensures r.processingStatus == Failed
    ensures r.(processingStatus := v.processingStatus) == v
  {
    v.(processingStatus := Failed)
  }
}

/** A student's progress through one video: position, percentage and the sticky completed flag. */
module VideoProgresses {
  import opened Wrappers
  import opened Common
  import opened Arith

  datatype VideoProgress = VideoProgress(
    studentId: Id,
    enrollmentId: Id,
    videoId: Id,
    courseId: Id,
    sectionId: Id,
    watchedSeconds: int,
    lastPositionSeconds: int,
    progressPercentage: int,
    isCompleted: bool,
    completedAt: Option<Time>,
    lastWatchedAt: Option<Time>)

  function Create(studentId: Id, enrollmentId: Id, videoId: Id, courseId: Id, sectionId: Id): (p: VideoProgress)
    ensures p.watchedSeconds == 0 && p.lastPositionSeconds == 0 && p.progressPercentage == 0
    ensures !p.isCompleted && p.completedAt.None?
    ensures p.studentId == studentId && p.enrollmentId == enrollmentId && p.videoId == videoId
    ensures p.courseId == courseId && p.sectionId == sectionId
  {
    VideoProgress(studentId, enrollmentId, videoId, courseId, sectionId, 0, 0, 0, false, None, None)
  }

  /**
   * Records the playback position and, for a positive duration, the watched
   * percentage (capped at 100 but not floored). The video counts as completed
   * from the first update whose percentage reaches 80 and stays completed.
   */
  function UpdateProgress(p: VideoProgress, position: int, duration: int, now: Time): (r: VideoProgress)
    ensures r.lastPositionSeconds == position && r.lastWatchedAt == Some(now)
    ensures duration <= 0 ==> r.progressPercentage == p.progressPercentage
    ensures duration > 0 ==> r.progressPercentage <= 100
    ensures duration > 0 && position >= 0 ==> r.progressPercentage >= 0
    ensures duration > 0 && position >= duration ==> r.progressPercentage == 100
    ensures duration > 0 && position < 0 ==> r.progressPercentage <= 0
    ensures duration > 0 && 0 <= position < duration ==>
              r.progressPercentage * duration <= 100 * position < (r.progressPercentage + 1) * duration
    ensures duration > 0 && position < 0 ==>
              (r.progressPercentage - 1) * duration < 100 * position <= r.progressPercentage * duration
    ensures r.isCompleted <==> p.isCompleted || r.progressPercentage >= 80
    ensures duration > 0 ==> (r.progressPercentage >= 80 <==> 100 * position >= 80 * duration)
    ensures p.isCompleted ==> r.completedAt == p.completedAt
    ensures !p.isCompleted && r.isCompleted ==> r.completedAt == Some(now)
    ensures !r.isCompleted ==> r.completedAt == p.completedAt
    ensures r.watchedSeconds == p.watchedSeconds && r.enrollmentId == p.enrollmentId
    ensures r.studentId == p.studentId && r.videoId == p.videoId
  {
    var pct :=
      if duration > 0 then
        var q := TruncDiv(position * 100, duration);
        TruncDivAtLeast(position * 100, duration, 80);
        TruncDivAtLeast(position * 100, duration, 100);
        if q < 100 then q else 100
      else p.progressPercentage;
    var completes := pct >= 80 && !p.isCompleted;
    p.(lastPositionSeconds := position, lastWatchedAt := Some(now), progressPercentage := pct,
       isCompleted := p.isCompleted || completes,
       completedAt := if completes then Some(now) else p.completedAt)
  }

  /** Adds to the watched time; position, percentage and completion are untouched. */
  function AddWatchedSeconds(p: VideoProgress, seconds: int, now: Time): (r: VideoProgress)
    ensures r.watchedSeconds == p.watchedSeconds + seconds
    ensures r.isCompleted == p.isCompleted && r.completedAt == p.completedAt
    ensures r.progressPercentage == p.progressPercentage && r.lastPositionSeconds == p.lastPositionSeconds
    ensures r.lastWatchedAt == Some(now)
  {
    p.(watchedSeconds := p.watchedSeconds + seconds, lastWatchedAt := Some(now))
  }

  /** Once completed, no later sequence of updates clears the flag or moves the completion time. */
  lemma CompletionIsSticky(p: VideoProgress, position: int, duration: int, now: Time)
    requires p.isCompleted
    ensures UpdateProgress(p, position, duration, now).isCompleted
    ensures UpdateProgress(p, position, duration, now).completedAt == p.completedAt
  {
  }
}

=== FILE: video_service.dfy ===
/**
 * `VideoService` as far as it decides anything: a student's progress through
 * a video and its effect on the enrollment, access to a video, and the
 * outcome of transcoding written back to the video and its section.
 */
module VideoService {
  import opened Wrappers
  import opened Common
  import opened Tables
  import opened Database
  import opened Urls
  import Arith
  import CloudFront
  import MediaConvert
  import Videos
  import VideoProgresses
  import Sections
  import Enrollments
  import EnrollmentService

  const NotEnrolled: Exception := IllegalState("Not enrolled")
  /** Saving a video whose non-null duration column was set to null; the exact message is not modelled. */
  const NullDuration: Exception := Runtime(Some("not-null property references a null value: durationSeconds"))

  // Enrollment progress

  /** The enrollment as `updateEnrollmentProgress` leaves it, given its completed and total video counts. */
  function AggregateProgress(e: Enrollments.Enrollment, completed: nat, total: nat, now: Time): (r: Enrollments.Enrollment)
    requires total > 0
    ensures completed <= total && !(completed == total && e.quizzesCompleted) ==>
              r.progressPercentage * total <= completed * 100 < (r.progressPercentage + 1) * total
    ensures r.videosCompleted <==> e.videosCompleted || completed == total
    ensures r.isCompleted <==> e.isCompleted || (completed == total && e.quizzesCompleted)
    ensures r.status == (if completed == total && e.quizzesCompleted then Enrollments.Completed else e.status)
    ensures completed == total && e.quizzesCompleted ==> r.progressPercentage == 100 && r.completedAt == Some(now)
    ensures 0 <= r.progressPercentage <= 100
    ensures r.quizzesCompleted == e.quizzesCompleted && r.studentId == e.studentId && r.courseId == e.courseId
    ensures r.paymentId == e.paymentId && r.expiresAt == e.expiresAt && r.pricePaid == e.pricePaid
  {
    var pct := completed * 100 / total;
    Arith.DivBounds(completed * 100, total);
    assert completed <= total ==> pct <= 100 by {
      if completed <= total && pct > 100 {
        Arith.MulMonotone(101, pct, total);
      }
    }
    var e1 := Enrollments.UpdateProgress(e, pct, now);
    if completed == total then
      var e2 := e1.(videosCompleted := true);
      if e2.quizzesCompleted then Enrollments.MarkAsCompleted(e2, now) else e2
    else e1
  }

  /**
   * `updateEnrollmentProgress`: with at least one video in the course the
   * enrollment's percentage becomes the share of completed videos; all of
   * them completed sets `videosCompleted`, and completes the enrollment when
   * its quizzes are done too. A course without videos leaves it untouched.
   */
  function UpdateEnrollmentProgress(db: Db, enrollmentId: Id, now: Time): (o: Outcome<()>)
    ensures enrollmentId >= |db.enrollments| ==> o == Outcome(db, Err(NotFoundById("Enrollment", enrollmentId)))
    ensures enrollmentId < |db.enrollments| ==> o.result == Ok(())
    ensures enrollmentId < |db.enrollments| && VideosInCourse(db, db.enrollments[enrollmentId].courseId) == 0 ==>
              o.db == db
    ensures enrollmentId < |db.enrollments| && VideosInCourse(db, db.enrollments[enrollmentId].courseId) > 0 ==>
              o.db.enrollments == db.enrollments[enrollmentId := AggregateProgress(db.enrollments[enrollmentId],
                CompletedVideos(db, enrollmentId), VideosInCourse(db, db.enrollments[enrollmentId].courseId), now)]
    ensures o.db.(enrollments := db.enrollments) == db
  {
    if enrollmentId >= |db.enrollments| then Outcome(db, Err(NotFoundById("Enrollment", enrollmentId)))
    else
      var e := db.enrollments[enrollmentId];
      var total := VideosInCourse(db, e.courseId);
      if total == 0 then Outcome(db, Ok(()))
      else
        var e1 := AggregateProgress(e, CompletedVideos(db, enrollmentId), total, now);
        Outcome(db.(enrollments := db.enrollments[enrollmentId := e1]), Ok(()))
  }

  // Video progress

  /**
   * The progress row of (student, video), created when missing: creating one
   * needs the video and an enrollment of the student in the video's course,
   * but not an accessible one.
   */
  function ProgressRow(db: Db, studentId: Id, videoId: Id): (o: Outcome<nat>)
    ensures FindProgress(db, studentId, videoId).ManyMatches? ==> o == Outcome(db, Err(NonUniqueResult))
    ensures FindProgress(db, studentId, videoId).OneMatch? ==>
              o == Outcome(db, Ok(FindProgress(db, studentId, videoId).index))
    ensures FindProgress(db, studentId, videoId).NoMatch? && videoId >= |db.videos| ==>
              o == Outcome(db, Err(NotFoundById("Video", videoId)))
    ensures FindProgress(db, studentId, videoId).NoMatch? && videoId < |db.videos| ==>
              var m := FindEnrollment(db, studentId, db.videos[videoId].courseId);
              (m.NoMatch? ==> o == Outcome(db, Err(NotEnrolled))) &&
              (m.ManyMatches? ==> o == Outcome(db, Err(NonUniqueResult))) &&
              (m.OneMatch? ==>
                 var v := db.videos[videoId];
                 o == Outcome(db.(progress := db.progress + [VideoProgresses.Create(studentId, m.index, videoId, v.courseId, v.sectionId)]),
                              Ok(|db.progress|)))
    ensures o.result.Ok? ==> o.result.value < |o.db.progress| && o.db.progress[o.result.value].studentId == studentId &&
                             o.db.progress[o.result.value].videoId == videoId
    ensures o.db.(progress := db.progress) == db
    ensures |o.db.progress| >= |db.progress| && o.db.progress[..|db.progress|] == db.progress
  {
    match FindProgress(db, studentId, videoId)
    case ManyMatches => Outcome(db, Err(NonUniqueResult))
    case OneMatch(i) => Outcome(db, Ok(i))
    case NoMatch =>
      if videoId >= |db.videos| then Outcome(db, Err(NotFoundById("Video", videoId)))
      else
        var v := db.videos[videoId];
        match FindEnrollment(db, studentId, v.courseId)
        case NoMatch => Outcome(db, Err(NotEnrolled))
        case ManyMatches => Outcome(db, Err(NonUniqueResult))
        case OneMatch(ei) =>
          var p := VideoProgresses.Create(studentId, ei, videoId, v.courseId, v.sectionId);
          Outcome(db.(progress := db.progress + [p]), Ok(|db.progress|))
  }

  /**
   * The writes of one progress update on row `i`: the row's new position and
   * percentage, and a view counted whenever the saved row is completed (on
   * every update after completion, not only the first).
   */
  function RecordPosition(db: Db, i: nat, videoId: Id, position: int, now: Time): (r: Db)
    requires i < |db.progress| && videoId < |db.videos|
    ensures |r.progress| == |db.progress| && |r.videos| == |db.videos|
    ensures r.progress == db.progress[i := VideoProgresses.UpdateProgress(db.progress[i], position, db.videos[videoId].durationSeconds, now)]
    ensures r.progress[i].isCompleted && r.progress[i].completedAt.Some? ==>
              r.videos == db.videos[videoId := Videos.IncrementViewCount(db.videos[videoId])]
    ensures !(r.progress[i].isCompleted && r.progress[i].completedAt.Some?) ==> r.videos == db.videos
    ensures r.(progress := db.progress, videos := db.videos) == db
  {
    var v := db.videos[videoId];
    var p := VideoProgresses.UpdateProgress(db.progress[i], position, v.durationSeconds, now);
    var db1 := db.(progress := db.progress[i := p]);
    if p.isCompleted && p.completedAt.Some? then db1.(videos := db1.videos[videoId := Videos.IncrementViewCount(v)])
    else db1
  }

  /**
   * `updateProgress`: find or create the progress row, record the position
   * against the video's duration, count a view when the row is completed,
   * then recompute the enrollment the row belongs to. The result is the
   * progress row's id.
   */
  function UpdateProgress(db: Db, studentId: Id, videoId: Id, position: int, now: Time): (o: Outcome<nat>)
    ensures ProgressRow(db, studentId, videoId).result.Err? ==>
              o == Outcome(db, Err(ProgressRow(db, studentId, videoId).result.error))
    ensures o.result.Ok? ==> o.result == ProgressRow(db, studentId, videoId).result
    ensures o.result.Ok? ==>
              var i := o.result.value;
              i < |o.db.progress| && o.db.progress[i].studentId == studentId && o.db.progress[i].videoId == videoId &&
              o.db.progress[i].lastPositionSeconds == position && o.db.progress[i].lastWatchedAt == Some(now)
    ensures o.result.Ok? ==>
              var row := ProgressRow(db, studentId, videoId).db;
              videoId < |db.videos| &&
              o.db.progress == row.progress[o.result.value := VideoProgresses.UpdateProgress(row.progress[o.result.value],
                                                                  position, db.videos[videoId].durationSeconds, now)]
    ensures o.result.Ok? ==>
              var p := o.db.progress[o.result.value];
              o.db.videos == if p.isCompleted && p.completedAt.Some?
                             then db.videos[videoId := Videos.IncrementViewCount(db.videos[videoId])]
                             else db.videos
    ensures o.result.Ok? ==>
              var ei := o.db.progress[o.result.value].enrollmentId;
              var total := if ei < |db.enrollments| then VideosInCourse(db, db.enrollments[ei].courseId) else 0;
              ei < |db.enrollments| &&
              o.db.enrollments == if total == 0 then db.enrollments
                                  else db.enrollments[ei := AggregateProgress(db.enrollments[ei], CompletedVideos(o.db, ei), total, now)]
    ensures o.db.courses == db.courses && o.db.payments == db.payments && o.db.users == db.users &&
            o.db.sections == db.sections && o.db.quizzes == db.quizzes && o.db.attempts == db.attempts
  {
    var row := ProgressRow(db, studentId, videoId);
    if row.result.Err? then Outcome(db, Err(row.result.error))
    else
      var i := row.result.value;
      var db1 := row.db;
      if videoId >= |db1.videos| then Outcome(db1, Err(NotFoundById("Video", videoId)))
      else
        var db2 := RecordPosition(db1, i, videoId, position, now);
        var ei := db2.progress[i].enrollmentId;
        var enrollment := UpdateEnrollmentProgress(db2, ei, now);
        RecordKeepsVideosInCourse(db1, i, videoId, position, now);
        match enrollment.result
        case Err(e) => Outcome(enrollment.db, Err(e))
        case Ok(_) => Outcome(enrollment.db, Ok(i))
  }

  /** Counting a view changes no video's course, so every course's video count stays as it was. */
  lemma RecordKeepsVideosInCourse(db: Db, i: nat, videoId: Id, position: int, now: Time)
    requires i < |db.progress| && videoId < |db.videos|
    ensures forall courseId :: VideosInCourse(RecordPosition(db, i, videoId, position, now), courseId) == VideosInCourse(db, courseId)
  {
    var v := db.videos[videoId];
    forall courseId
      ensures VideosInCourse(RecordPosition(db, i, videoId, position, now), courseId) == VideosInCourse(db, courseId)
    {
      UpdateKeepsMatches(db.videos, videoId, Videos.IncrementViewCount(v), VideoOfCourse(courseId));
    }
  }

  /**
   * Progress needs an enrollment but not access: a student whose enrollment
   * is still pending payment (or suspended, cancelled, expired) completes the
   * only video of a course by watching it to the end, and the enrollment
   * becomes COMPLETED when its quizzes were done.
   */
  lemma ProgressWithoutAccess(db: Db, studentId: Id, videoId: Id, position: int, now: Time)
    requires videoId < |db.videos|
    requires FindProgress(db, studentId, videoId).NoMatch?
    requires FindEnrollment(db, studentId, db.videos[videoId].courseId).OneMatch?
    requires VideosInCourse(db, db.videos[videoId].courseId) == 1
    requires CompletedVideos(db, FindEnrollment(db, studentId, db.videos[videoId].courseId).index) == 0
    requires db.enrollments[FindEnrollment(db, studentId, db.videos[videoId].courseId).index].quizzesCompleted
    requires 0 < db.videos[videoId].durationSeconds <= position
    ensures var ei := FindEnrollment(db, studentId, db.videos[videoId].courseId).index;
            var o := UpdateProgress(db, studentId, videoId, position, now);
            o.result.Ok? && o.db.enrollments[ei].status == Enrollments.Completed && o.db.enrollments[ei].isCompleted
    ensures var ei := FindEnrollment(db, studentId, db.videos[videoId].courseId).index;
            !db.videos[videoId].isPreview && db.enrollments[ei].status == Enrollments.PendingPayment ==>
              HasVideoAccess(db, studentId, videoId, now) == Ok(false)
  {
    var v := db.videos[videoId];
    var ei := FindEnrollment(db, studentId, v.courseId).index;
    var row := ProgressRow(db, studentId, videoId);
    var i := |db.progress|;
    var p0 := VideoProgresses.Create(studentId, ei, videoId, v.courseId, v.sectionId);
    assert row.db.progress == db.progress + [p0];
    CountAppend(db.progress, p0, CompletedProgressOf(ei));
    var db2 := RecordPosition(row.db, i, videoId, position, now);
    var p := db2.progress[i];
    assert p.isCompleted;
    UpdateAddsMatch(row.db.progress, i, p, CompletedProgressOf(ei));
    assert CompletedVideos(db2, ei) == 1;
    if db2.videos != db.videos {
      UpdateKeepsMatches(db.videos, videoId, Videos.IncrementViewCount(v), VideoOfCourse(v.courseId));
    }
    assert VideosInCourse(db2, v.courseId) == 1;
  }

  /**
   * A view is counted on every update of an already completed row, not only
   * on the update that completed it.
   */
  lemma ViewCountedOnEveryUpdate(db: Db, studentId: Id, videoId: Id, position: int, now: Time)
    requires videoId < |db.videos|
    requires FindProgress(db, studentId, videoId).OneMatch?
    requires var p := db.progress[FindProgress(db, studentId, videoId).index];
             p.isCompleted && p.completedAt.Some? && p.enrollmentId < |db.enrollments|
    ensures var o := UpdateProgress(db, studentId, videoId, position, now);
            o.result.Ok? && o.db.videos[videoId].viewCount == db.videos[videoId].viewCount + 1
  {
  }

  // Access

  /** `hasVideoAccess`: preview videos are open to everyone, others need an accessible enrollment in the course. */
  function HasVideoAccess(db: Db, studentId: Id, videoId: Id, now: Time): (r: Result<bool>)
    ensures videoId >= |db.videos| ==> r == Err(NotFoundById("Video", videoId))
    ensures videoId < |db.videos| && db.videos[videoId].isPreview ==> r == Ok(true)
    ensures videoId < |db.videos| && !db.videos[videoId].isPreview ==>
              var c := db.videos[videoId].courseId;
              (r.Err? <==> Count(db.enrollments, OfStudentAndCourse(studentId, c)) >= 2) &&
              (r.Ok? ==> (r.value <==> exists i :: 0 <= i < |db.enrollments| && db.enrollments[i].studentId == studentId &&
                                                 db.enrollments[i].courseId == c &&
                                                 Enrollments.IsAccessible(db.enrollments[i], now)))
  {
    if videoId >= |db.videos| then Err(NotFoundById("Video", videoId))
    else
      var v := db.videos[videoId];
      if v.isPreview then Ok(true)
      else
        match FindEnrollment(db, studentId, v.courseId)
        case NoMatch => Ok(false)
        case OneMatch(i) => Ok(Enrollments.IsAccessible(db.enrollments[i], now))
        case ManyMatches => Err(NonUniqueResult)
  }

  /** Past the preview check, access to a video is access to its course. */
  lemma VideoAccessIsCourseAccess(db: Db, studentId: Id, videoId: Id, now: Time)
    requires videoId < |db.videos| && !db.videos[videoId].isPreview
    ensures HasVideoAccess(db, studentId, videoId, now) ==
            EnrollmentService.HasAccess(db, studentId, db.videos[videoId].courseId, now)
  {
  }

  // Transcoding outcome

  /** `markVideoAsFailed`: FAILED with the given error text; nothing else changes. */
  function MarkVideoAsFailed(db: Db, videoId: Id, error: Option<string>): (o: Outcome<()>)
    ensures videoId >= |db.videos| ==> o == Outcome(db, Err(NotFoundById("Video", videoId)))
    ensures videoId < |db.videos| ==>
              o.result == Ok(()) && |o.db.videos| == |db.videos| &&
              o.db.videos == db.videos[videoId := o.db.videos[videoId]] &&
              o.db.videos[videoId].processingStatus == Videos.Failed &&
              o.db.videos[videoId].processingError == error &&
              o.db.videos[videoId].(processingStatus := db.videos[videoId].processingStatus,
                                    processingError := db.videos[videoId].processingError) == db.videos[videoId]
    ensures o.db.(videos := db.videos) == db
  {
    if videoId >= |db.videos| then Outcome(db, Err(NotFoundById("Video", videoId)))
    else
      var v := Videos.MarkAsFailed(db.videos[videoId]).(processingError := error);
      Outcome(db.(videos := db.videos[videoId := v]), Ok(()))
  }

  /**
   * The streaming URL of every rendition. When several keys fail, the source
   * reports whichever its hash map visits first; here an empty key's failure
   * is reported before a missing CDN domain's.
   */
  function QualityUrls(cfg: StorageConfig, outputs: map<string, string>): (r: Result<map<string, string>>)
    ensures r.Ok? <==> forall q :: q in outputs ==> CloudFront.GenerateStreamingUrl(cfg, Some(outputs[q])).Ok?
    ensures r.Ok? ==> r.value.Keys == outputs.Keys
    ensures r.Ok? ==> forall q :: q in outputs ==> r.value[q] == CloudFront.GenerateStreamingUrl(cfg, Some(outputs[q])).value
    ensures r.Err? ==> r.error == CloudFront.EmptyKey || r.error == CloudFront.StreamingUrlFailed
  {
    if exists q :: q in outputs && outputs[q] == "" then Err(CloudFront.EmptyKey)
    else if exists q :: q in outputs && CloudFront.GenerateStreamingUrl(cfg, Some(outputs[q])).Err? then
      Err(CloudFront.StreamingUrlFailed)
    else Ok(map q | q in outputs :: CloudFront.GenerateStreamingUrl(cfg, Some(outputs[q])).value)
  }

  /** The URL a ready video plays by default: 1080p, else 720p, else the one it had. */
  function PlaybackUrl(urls: map<string, string>, current: string): (r: string)
    ensures "1080p" in urls ==> r == urls["1080p"]
    ensures "1080p" !in urls && "720p" in urls ==> r == urls["720p"]
    ensures "1080p" !in urls && "720p" !in urls ==> r == current
    ensures r == current || r in urls.Values
  {
    if "1080p" in urls then urls["1080p"] else if "720p" in urls then urls["720p"] else current
  }

  /** The video as a complete transcoding leaves it. */
  function ReadyVideo(v: Videos.Video, result: MediaConvert.TranscodingJobResult, urls: map<string, string>, duration: int): (r: Videos.Video)
    ensures r.processingStatus == Videos.Ready && r.durationSeconds == duration && r.qualityUrls == urls
    ensures r.processingJobId == result.jobId && r.videoUrl == PlaybackUrl(urls, v.videoUrl)
    ensures r.courseId == v.courseId && r.sectionId == v.sectionId && r.viewCount == v.viewCount
    ensures r.isPreview == v.isPreview && r.isPublished == v.isPublished && r.s3Key == v.s3Key
  {
    v.(durationSeconds := duration, processingStatus := Videos.Ready, processingJobId := result.jobId,
       qualityUrls := urls, videoUrl := PlaybackUrl(urls, v.videoUrl))
  }

  /**
   * `handleTranscodingComplete`: a COMPLETE result makes the video READY with
   * its renditions' URLs and duration, and adds the video's minutes to its
   * section when the duration is positive; every other result (SUBMITTED,
   * PROCESSING and DISABLED included) marks the video FAILED.
   */
  function HandleTranscodingComplete(db: Db, cfg: StorageConfig, videoId: Id,
                                     result: MediaConvert.TranscodingJobResult): (o: Outcome<()>)
    ensures videoId >= |db.videos| ==> o == Outcome(db, Err(NotFoundById("Video", videoId)))
    ensures videoId < |db.videos| && result.status != MediaConvert.Complete ==>
              o == MarkVideoAsFailed(db, videoId, result.errorMessage)
    ensures videoId < |db.videos| && result.status == MediaConvert.Complete ==>
              var urls := QualityUrls(cfg, result.qualityOutputs);
              (urls.Err? ==> o == Outcome(db, Err(urls.error))) &&
              (urls.Ok? && result.durationSeconds.None? ==> o == Outcome(db, Err(NullDuration))) &&
              (urls.Ok? && result.durationSeconds.Some? ==>
                 var d := result.durationSeconds.value;
                 var v := ReadyVideo(db.videos[videoId], result, urls.value, d);
                 o.db.videos == db.videos[videoId := v] &&
                 (d <= 0 ==> o == Outcome(db.(videos := o.db.videos), Ok(()))) &&
                 (d > 0 && v.sectionId >= |db.sections| ==>
                    o == Outcome(db.(videos := o.db.videos), Err(NotFoundById("Section", v.sectionId)))) &&
                 (d > 0 && v.sectionId < |db.sections| ==>
                    o.result == Ok(()) &&
                    o.db.sections == db.sections[v.sectionId := Sections.AddVideo(db.sections[v.sectionId],
                                                                                  Some(Videos.DurationMinutes(v)))]))
    ensures o.db.(videos := db.videos, sections := db.sections) == db
  {
    if videoId >= |db.videos| then Outcome(db, Err(NotFoundById("Video", videoId)))
    else if result.status != MediaConvert.Complete then MarkVideoAsFailed(db, videoId, result.errorMessage)
    else
      match QualityUrls(cfg, result.qualityOutputs)
      case Err(e) => Outcome(db, Err(e))
      case Ok(urls) =>
        if result.durationSeconds.None? then Outcome(db, Err(NullDuration))
        else
          var v := ReadyVideo(db.videos[videoId], result, urls, result.durationSeconds.value);
          var db1 := db.(videos := db.videos[videoId := v]);
          if v.durationSeconds <= 0 then Outcome(db1, Ok(()))
          else if v.sectionId >= |db1.sections| then Outcome(db1, Err(NotFoundById("Section", v.sectionId)))
          else
            var s := Sections.AddVideo(db1.sections[v.sectionId], Some(Videos.DurationMinutes(v)));
            Outcome(db1.(sections := db1.sections[v.sectionId := s]), Ok(()))
  }

  /**
   * A job submitted to AWS is reported back as SUBMITTED, and handling that
   * result marks the video FAILED with no error text, although the job has
   * only started.
   */
  lemma SubmittedJobMarksVideoFailed(db: Db, cfg: StorageConfig, mc: MediaConvert.Config, videoId: Id, key: string,
                                     jobUuid: string, submission: MediaConvert.Submission)
    requires videoId < |db.videos| && key != "" && |jobUuid| >= 8
    requires mc.enabled && !mc.useMock && mc.hasClient && mc.outputBucket != "" && mc.roleArn != "" && submission.Created?
    ensures var result := MediaConvert.CreateTranscodingJob(mc, Some(videoId), Some(key), jobUuid, submission);
            var v := HandleTranscodingComplete(db, cfg, videoId, result).db.videos[videoId];
            result.status == MediaConvert.Submitted && v.processingStatus == Videos.Failed && v.processingError.None?
  {
  }

  /**
   * A mock job makes the video READY: its duration is the mock's 300 seconds,
   * it plays the 1080p rendition's streaming URL, and its section gains one
   * video of 5 minutes.
   */
  lemma MockJobMakesVideoReady(db: Db, cfg: StorageConfig, mc: MediaConvert.Config, videoId: Id,
                               jobUuid: string, submission: MediaConvert.Submission)
    requires videoId < |db.videos| && db.videos[videoId].s3Key != "" && |jobUuid| >= 8
    requires db.videos[videoId].sectionId < |db.sections|
    requires mc.enabled && mc.useMock
    requires !(CloudFront.IsEnabled(cfg) && cfg.cloudFrontDomain == "")
    ensures var v0 := db.videos[videoId];
            var result := MediaConvert.CreateTranscodingJob(mc, Some(videoId), Some(v0.s3Key), jobUuid, submission);
            var o := HandleTranscodingComplete(db, cfg, videoId, result);
            var url1080 := CloudFront.GenerateStreamingUrl(cfg, Some(MediaConvert.MockRenditionKey(v0.s3Key, "1080p")));
            o.result == Ok(()) && url1080.Ok? &&
            o.db.videos[videoId].processingStatus == Videos.Ready &&
            o.db.videos[videoId].durationSeconds == 300 &&
            o.db.videos[videoId].videoUrl == url1080.value &&
            o.db.videos[videoId].qualityUrls.Keys == MediaConvert.MockQualities &&
            o.db.sections[v0.sectionId] == Sections.AddVideo(db.sections[v0.sectionId], Some(5))
  {
    var v0 := db.videos[videoId];
    var result := MediaConvert.CreateTranscodingJob(mc, Some(videoId), Some(v0.s3Key), jobUuid, submission);
    assert forall q :: q in result.qualityOutputs ==> result.qualityOutputs[q] != "" by {
      forall q | q in result.qualityOutputs
        ensures result.qualityOutputs[q] != ""
      {
        assert |"_" + q + ".mp4"| >= |".mp4"|;
      }
    }
    assert "1080p" in result.qualityOutputs;
    var urls := QualityUrls(cfg, result.qualityOutputs);
    assert urls.Ok?;
    var v := ReadyVideo(v0, result, urls.value, 300);
    assert Videos.DurationMinutes(v) == 5;
  }
}

=== FILE: webhook.dfy ===
/**
 * A JSON tree as Jackson's `JsonNode` presents it: only the lookups the
 * webhook makes are defined.
 */
module Json {
  import opened Wrappers

  /** Numbers keep their textual form, which is what `asText` yields for them. */
  datatype Json =
    | JNull
    | JBool(b: bool)
    | JNumber(text: string)
    | JString(s: string)
    | JArray(items: seq<Json>)
    | JObject(fields: map<string, Json>)

  /** `has(name)`: only an object has fields. */
  predicate Has(j: Json, name: string) {
    j.JObject? && name in j.fields
  }

  /** `get(name)`: the field, or null (None) when there is none or `j` is not an object. */
  function Get(j: Json, name: string): (r: Option<Json>)
    ensures r.Some? <==> Has(j, name)
    ensures r.Some? ==> r.value == j.fields[name]
  {
    if Has(j, name) then Some(j.fields[name]) else None
  }

  /** `asText()`: a value node's text; containers give the empty text. */
  function AsText(j: Json): (r: string)
    ensures j.JString? ==> r == j.s
    ensures j.JArray? || j.JObject? ==> r == ""
  {
    match j
    case JNull => "null"
    case JBool(b) => if b then "true" else "false"
    case JNumber(t) => t
    case JString(s) => s
    case JArray(_) => ""
    case JObject(_) => ""
  }

  /** `has(a) && get(a).has(b)`: a field two levels down. */
  predicate HasPath(j: Json, a: string, b: string) {
    Has(j, a) && Has(j.fields[a], b)
  }

  /** The node `HasPath` found. */
  function AtPath(j: Json, a: string, b: string): (r: Json)
    requires HasPath(j, a, b)
    ensures Get(j, a) == Some(j.fields[a]) && Get(j.fields[a], b) == Some(r)
  {
    j.fields[a].fields[b]
  }
}

/**
 * `MediaConvertWebhookController`: an SNS notification about a MediaConvert
 * job is turned into a transcoding result and applied to the video. Every
 * failure is answered with 200 and an error body, so that SNS does not retry.
 * The JSON parser and the UUID parser are functions supplied by the caller.
 */
module Webhook {
  import opened Wrappers
  import opened Common
  import opened Strings
  import opened Json
  import opened Database
  import opened Urls
  import MediaConvert
  import VideoService
  import Videos

  type Response = map<string, string>

  const JobIdMissing: Exception := IllegalArgument("Job ID not found in webhook message")
  const VideoIdMissing: Exception := IllegalArgument("Video ID not found in webhook message")
  const NoErrorMessage := "Transcoding failed - no error message provided"
  const DefaultQuality := "default"

  /** `extractJobId`: "jobId", else "detail.jobId", else "job.id". */
  function ExtractJobId(m: Json): (r: Result<string>)
    ensures r.Err? <==> !Has(m, "jobId") && !HasPath(m, "detail", "jobId") && !HasPath(m, "job", "id")
    ensures r.Err? ==> r.error == JobIdMissing
    ensures Has(m, "jobId") ==> r == Ok(AsText(m.fields["jobId"]))
  {
    if Has(m, "jobId") then Ok(AsText(m.fields["jobId"]))
    else if HasPath(m, "detail", "jobId") then Ok(AsText(AtPath(m, "detail", "jobId")))
    else if HasPath(m, "job", "id") then Ok(AsText(AtPath(m, "job", "id")))
    else Err(JobIdMissing)
  }

  /** `extractStatus`: "status", else "detail.status", else "job.status", else "UNKNOWN". */
  function ExtractStatus(m: Json): (r: string)
    ensures Has(m, "status") ==> r == AsText(m.fields["status"])
    ensures !Has(m, "status") && !HasPath(m, "detail", "status") && !HasPath(m, "job", "status") ==> r == "UNKNOWN"
  {
    if Has(m, "status") then AsText(m.fields["status"])
    else if HasPath(m, "detail", "status") then AsText(AtPath(m, "detail", "status"))
    else if HasPath(m, "job", "status") then AsText(AtPath(m, "job", "status"))
    else "UNKNOWN"
  }

  /**
   * `extractVideoId`: "userMetadata.videoId", else "detail.userMetadata.videoId";
   * the text must parse as a UUID.
   */
  function ExtractVideoId(m: Json, parseId: string -> Result<Id>): (r: Result<Id>)
    ensures HasPath(m, "userMetadata", "videoId") ==> r == parseId(AsText(AtPath(m, "userMetadata", "videoId")))
    ensures !HasPath(m, "userMetadata", "videoId") &&
            !(HasPath(m, "detail", "userMetadata") && Has(AtPath(m, "detail", "userMetadata"), "videoId")) ==>
              r == Err(VideoIdMissing)
  {
    if HasPath(m, "userMetadata", "videoId") then parseId(AsText(AtPath(m, "userMetadata", "videoId")))
    else if HasPath(m, "detail", "userMetadata") && Has(AtPath(m, "detail", "userMetadata"), "videoId") then
      parseId(AsText(AtPath(m, "detail", "userMetadata").fields["videoId"]))
    else Err(VideoIdMissing)
  }

  /** `extractErrorMessage`: "errorMessage", else "detail.errorMessage", else a fixed text. */
  function ExtractErrorMessage(m: Json): (r: string)
    ensures Has(m, "errorMessage") ==> r == AsText(m.fields["errorMessage"])
    ensures !Has(m, "errorMessage") && !HasPath(m, "detail", "errorMessage") ==> r == NoErrorMessage
  {
    if Has(m, "errorMessage") then AsText(m.fields["errorMessage"])
    else if HasPath(m, "detail", "errorMessage") then AsText(AtPath(m, "detail", "errorMessage"))
    else NoErrorMessage
  }

  /** The quality an output group stands for: its name, or "default". */
  function QualityName(g: Json): string {
    if Has(g, "name") then AsText(g.fields["name"]) else DefaultQuality
  }

  /** Whether an output group writes files: "outputGroupSettings.fileGroupSettings" is present. */
  predicate HasFileSettings(g: Json) {
    HasPath(g, "outputGroupSettings", "fileGroupSettings")
  }

  /** The group's "destination", read below its file settings; None stands for Jackson's null. */
  function Destination(g: Json): Option<Json>
    requires HasFileSettings(g)
  {
    Get(AtPath(g, "outputGroupSettings", "fileGroupSettings"), "destination")
  }

  /** A group that writes files but names no destination: reading its text dereferences null. */
  predicate LacksDestination(g: Json) {
    HasFileSettings(g) && Destination(g).None?
  }

  /** The last group after `i` that writes files for the same quality, if any. */
  predicate OverriddenLater(gs: seq<Json>, i: nat) {
    exists j :: i < j < |gs| && HasFileSettings(gs[j]) && QualityName(gs[j]) == QualityName(gs[i])
  }

  /**
   * The loop of `extractOutputUrls` over the output groups, in order: each
   * group that writes files puts its destination under its quality, so a
   * later group of the same quality wins (`OutputsKeys`, `OutputsLastWins`).
   */
  function OutputsOf(gs: seq<Json>): (r: Result<map<string, string>>)
    ensures r.Err? <==> exists i :: 0 <= i < |gs| && LacksDestination(gs[i])
    ensures r.Err? ==> r.error == NullPointer
    decreases |gs|
  {
    if gs == [] then Ok(map[])
    else
      var init := gs[..|gs| - 1];
      var g := gs[|gs| - 1];
      assert forall i :: 0 <= i < |init| ==> init[i] == gs[i];
      match OutputsOf(init)
      case Err(e) => Err(e)
      case Ok(m) =>
        if !HasFileSettings(g) then Ok(m)
        else if Destination(g).None? then Err(NullPointer)
        else Ok(m[QualityName(g) := AsText(Destination(g).value)])
  }

  /** The qualities of the groups that write files. */
  function Qualities(gs: seq<Json>): set<string> {
    set i | 0 <= i < |gs| && HasFileSettings(gs[i]) :: QualityName(gs[i])
  }

  /** The qualities of a sequence of groups, one group at a time from the end. */
  lemma QualitiesSnoc(gs: seq<Json>)
    requires gs != []
    ensures var g := gs[|gs| - 1];
            Qualities(gs) == Qualities(gs[..|gs| - 1]) + (if HasFileSettings(g) then {QualityName(g)} else {})
  {
    var init := gs[..|gs| - 1];
    var g := gs[|gs| - 1];
    forall q | q in Qualities(gs)
      ensures q in Qualities(init) + (if HasFileSettings(g) then {QualityName(g)} else {})
    {
      var i :| 0 <= i < |gs| && HasFileSettings(gs[i]) && QualityName(gs[i]) == q;
      if i < |init| {
        assert init[i] == gs[i];
      }
    }
    forall q | q in Qualities(init)
      ensures q in Qualities(gs)
    {
      var i :| 0 <= i < |init| && HasFileSettings(init[i]) && QualityName(init[i]) == q;
      assert gs[i] == init[i];
    }
  }

  /** The outputs are keyed by exactly the qualities of the groups that write files. */
  lemma {:induction false} OutputsKeys(gs: seq<Json>)
    requires OutputsOf(gs).Ok?
    ensures OutputsOf(gs).value.Keys == Qualities(gs)
    decreases |gs|
  {
    if gs != [] {
      var init := gs[..|gs| - 1];
      assert forall i :: 0 <= i < |init| ==> init[i] == gs[i];
      OutputsKeys(init);
      QualitiesSnoc(gs);
    }
  }

  /** The destination stored for a quality is that of the last group of that quality. */
  lemma {:induction false} OutputsLastWins(gs: seq<Json>, i: nat)
    requires OutputsOf(gs).Ok?
    requires i < |gs| && HasFileSettings(gs[i]) && !OverriddenLater(gs, i)
    ensures Destination(gs[i]).Some?
    ensures QualityName(gs[i]) in OutputsOf(gs).value
    ensures OutputsOf(gs).value[QualityName(gs[i])] == AsText(Destination(gs[i]).value)
    decreases |gs|
  {
    var init := gs[..|gs| - 1];
    var g := gs[|gs| - 1];
    assert forall k :: 0 <= k < |init| ==> init[k] == gs[k];
    if i < |init| {
      assert !OverriddenLater(init, i);
      assert QualityName(g) != QualityName(gs[i]) || !HasFileSettings(g) by {
        assert gs[|gs| - 1] == g;
      }
      OutputsLastWins(init, i);
    }
  }

  /** `extractOutputUrls`: the groups under "job.settings.outputGroups", when that is an array. */
  function ExtractOutputUrls(m: Json): (r: Result<map<string, string>>)
    ensures !HasPath(m, "job", "settings") ==> r == Ok(map[])
    ensures HasPath(m, "job", "settings") ==>
              var groups := Get(AtPath(m, "job", "settings"), "outputGroups");
              (groups.None? || !groups.value.JArray? ==> r == Ok(map[])) &&
              (groups.Some? && groups.value.JArray? ==> r == OutputsOf(groups.value.items))
  {
    if !HasPath(m, "job", "settings") then Ok(map[])
    else
      match Get(AtPath(m, "job", "settings"), "outputGroups")
      case Some(JArray(gs)) => OutputsOf(gs)
      case _ => Ok(map[])
  }

  /**
   * `extractDuration`: the source looks at the first input's video selector
   * but reads nothing from it, so every completed job reports 0 seconds.
   */
  const WebhookDurationSeconds := 0

  /** The status the webhook assigns: COMPLETE, ERROR for ERROR or CANCELED, PROCESSING otherwise; case is ignored. */
  function WebhookStatus(status: string): (r: MediaConvert.JobStatus)
    ensures r == MediaConvert.Complete <==> Lower(status) == "complete"
    ensures r == MediaConvert.Error <==> Lower(status) == "error" || Lower(status) == "canceled"
    ensures r == MediaConvert.Processing <==> !(Lower(status) in {"complete", "error", "canceled"})
  {
    if EqualsIgnoreCase("COMPLETE", status) then MediaConvert.Complete
    else if EqualsIgnoreCase("ERROR", status) || EqualsIgnoreCase("CANCELED", status) then MediaConvert.Error
    else MediaConvert.Processing
  }

  /** `parseJobResult`: the transcoding result the message describes. */
  function ParseJobResult(m: Json, jobId: string, videoId: Id): (r: Result<MediaConvert.TranscodingJobResult>)
    ensures r.Err? <==> WebhookStatus(ExtractStatus(m)) == MediaConvert.Complete && ExtractOutputUrls(m).Err?
    ensures r.Ok? ==> r.value.videoId == Some(videoId) && r.value.jobId == Some(jobId) &&
                      r.value.originalS3Key.None? && r.value.status == WebhookStatus(ExtractStatus(m))
    ensures r.Ok? && r.value.status == MediaConvert.Complete ==>
              r.value.qualityOutputs == ExtractOutputUrls(m).value &&
              r.value.durationSeconds == Some(WebhookDurationSeconds) && r.value.errorMessage.None?
    ensures r.Ok? && r.value.status == MediaConvert.Error ==>
              r.value.errorMessage == Some(ExtractErrorMessage(m)) && r.value.durationSeconds.None?
    ensures r.Ok? && r.value.status == MediaConvert.Processing ==>
              r.value.errorMessage.None? && r.value.durationSeconds.None? && r.value.qualityOutputs == map[]
  {
    var status := WebhookStatus(ExtractStatus(m));
    var base := MediaConvert.TranscodingJobResult(Some(videoId), Some(jobId), None, map[], None, status, None);
    if status == MediaConvert.Complete then
      var outputs :- ExtractOutputUrls(m);
      Ok(base.(qualityOutputs := outputs, durationSeconds := Some(WebhookDurationSeconds)))
    else if status == MediaConvert.Error then Ok(base.(errorMessage := Some(ExtractErrorMessage(m))))
    else Ok(base)
  }

  /** The answer to an SNS subscription confirmation; a missing SubscribeURL dereferences null. */
  function Confirmation(sns: Json): (r: Result<Response>)
    ensures r.Err? <==> !Has(sns, "SubscribeURL")
    ensures r.Ok? ==> "status" in r.value && "subscribeUrl" in r.value && r.value["status"] == "confirmation_required" &&
                      r.value["subscribeUrl"] == AsText(sns.fields["SubscribeURL"])
  {
    if !Has(sns, "SubscribeURL") then Err(NullPointer)
    else
      Ok(map["status" := "confirmation_required",
             "message" := "Visit SubscribeURL to confirm SNS subscription",
             "subscribeUrl" := AsText(sns.fields["SubscribeURL"])])
  }

  /** Whether the notification asks to confirm a subscription. */
  predicate IsConfirmation(sns: Json) {
    Has(sns, "Type") && AsText(sns.fields["Type"]) == "SubscriptionConfirmation"
  }

  /** The text that carries the job: the notification's "Message", or the whole body. */
  function MessageContent(sns: Json, body: string): string {
    if Has(sns, "Message") then AsText(sns.fields["Message"]) else body
  }

  /** The success answer. */
  function Processed(jobId: string): (r: Response)
    ensures "status" in r && "jobId" in r && r["status"] == "success" && r["jobId"] == jobId
  {
    map["status" := "success", "message" := "Webhook processed", "jobId" := jobId]
  }

  /** What a job notification carries once read. */
  datatype Job = Job(jobId: string, videoId: Id, result: MediaConvert.TranscodingJobResult)

  /**
   * Reading a job notification: the message is parsed, then the job id, the
   * video id and the result are extracted, in that order; the first failure
   * is the answer, and the job is read exactly when all four succeed.
   */
  function Interpret(sns: Json, body: string, parse: string -> Result<Json>, parseId: string -> Result<Id>): (r: Result<Job>)
    ensures parse(MessageContent(sns, body)).Err? ==> r == Err(parse(MessageContent(sns, body)).error)
    ensures r.Ok? ==>
              var m := parse(MessageContent(sns, body)).value;
              parse(MessageContent(sns, body)).Ok? &&
              ExtractJobId(m) == Ok(r.value.jobId) && ExtractVideoId(m, parseId) == Ok(r.value.videoId) &&
              ParseJobResult(m, r.value.jobId, r.value.videoId) == Ok(r.value.result)
    ensures parse(MessageContent(sns, body)).Ok? && ExtractJobId(parse(MessageContent(sns, body)).value).Err? ==>
              r == Err(JobIdMissing)
    ensures parse(MessageContent(sns, body)).Ok? ==>
              var m := parse(MessageContent(sns, body)).value;
              (r.Ok? <==> ExtractJobId(m).Ok? && ExtractVideoId(m, parseId).Ok? &&
                          ParseJobResult(m, ExtractJobId(m).value, ExtractVideoId(m, parseId).value).Ok?) &&
              (ExtractJobId(m).Ok? && ExtractVideoId(m, parseId).Err? ==> r == Err(ExtractVideoId(m, parseId).error))
  {
    var m :- parse(MessageContent(sns, body));
    var jobId :- ExtractJobId(m);
    var videoId :- ExtractVideoId(m, parseId);
    var result :- ParseJobResult(m, jobId, videoId);
    Ok(Job(jobId, videoId, result))
  }

  /**
   * Applying a job to its video: a COMPLETE result is handled as such, any
   * other marks the video FAILED. Both service calls are transactional, so
   * one that fails leaves the database as it was.
   */
  function Apply(db: Db, cfg: StorageConfig, job: Job): (o: Outcome<Response>)
    ensures job.result.status == MediaConvert.Complete ==>
              var h := VideoService.HandleTranscodingComplete(db, cfg, job.videoId, job.result);
              (o.result.Ok? <==> h.result.Ok?) && (o.result.Ok? ==> o.db == h.db)
    ensures job.result.status != MediaConvert.Complete ==>
              (o.result.Ok? <==> job.videoId < |db.videos|) &&
              (o.result.Ok? ==> o.db == VideoService.MarkVideoAsFailed(db, job.videoId, job.result.errorMessage).db)
    ensures o.result.Ok? ==> o.result.value == Processed(job.jobId)
    ensures o.result.Err? ==> o.db == db
  {
    var applied := if job.result.status == MediaConvert.Complete then
                     VideoService.HandleTranscodingComplete(db, cfg, job.videoId, job.result)
                   else VideoService.MarkVideoAsFailed(db, job.videoId, job.result.errorMessage);
    match applied.result
    case Err(e) => Outcome(Committed(db, applied), Err(e))
    case Ok(_) => Outcome(applied.db, Ok(Processed(job.jobId)))
  }

  /**
   * The body of the handler's `try`. Only a failed service call can have
   * written anything, and its transaction is rolled back.
   */
  function Process(db: Db, cfg: StorageConfig, body: string, parse: string -> Result<Json>,
                   parseId: string -> Result<Id>): (o: Outcome<Response>)
    ensures parse(body).Err? ==> o == Outcome(db, Err(parse(body).error))
    ensures parse(body).Ok? && IsConfirmation(parse(body).value) ==> o == Outcome(db, Confirmation(parse(body).value))
    ensures parse(body).Ok? && !IsConfirmation(parse(body).value) ==>
              var job := Interpret(parse(body).value, body, parse, parseId);
              (job.Err? ==> o == Outcome(db, Err(job.error))) &&
              (job.Ok? ==> o == Apply(db, cfg, job.value))
    ensures o.result.Err? ==> o.db == db
  {
    match parse(body)
    case Err(e) => Outcome(db, Err(e))
    case Ok(sns) =>
      if IsConfirmation(sns) then Outcome(db, Confirmation(sns))
      else
        match Interpret(sns, body, parse, parseId)
        case Err(e) => Outcome(db, Err(e))
        case Ok(job) => Apply(db, cfg, job)
  }

  /** `handleMediaConvertWebhook`: always 200; an exception becomes an error body carrying its message. */
  function HandleWebhook(db: Db, cfg: StorageConfig, body: string, parse: string -> Result<Json>,
                         parseId: string -> Result<Id>): (o: Outcome<Response>)
    ensures o.result.Ok? && "status" in o.result.value
    ensures o.db == Process(db, cfg, body, parse, parseId).db
    ensures Process(db, cfg, body, parse, parseId).result.Ok? ==> o.result == Process(db, cfg, body, parse, parseId).result
    ensures Process(db, cfg, body, parse, parseId).result.Err? ==>
              o.result.value == map["status" := "error",
                                    "message" := "Failed to process webhook: " +
                                                 Process(db, cfg, body, parse, parseId).result.error.MessageText()]
  {
    var p := Process(db, cfg, body, parse, parseId);
    match p.result
    case Ok(r) => p
    case Err(e) => Outcome(p.db, Ok(map["status" := "error", "message" := "Failed to process webhook: " + e.MessageText()]))
  }

  /**
   * A notification whose "Type" is "SubscriptionConfirmation" reads no job
   * and writes nothing; with a SubscribeURL it is answered
   * "confirmation_required".
   */
  lemma ConfirmationWritesNothing(db: Db, cfg: StorageConfig, body: string, parse: string -> Result<Json>,
                                  parseId: string -> Result<Id>)
    requires parse(body).Ok? && Has(parse(body).value, "Type")
    requires AsText(parse(body).value.fields["Type"]) == "SubscriptionConfirmation"
    ensures HandleWebhook(db, cfg, body, parse, parseId).db == db
    ensures Has(parse(body).value, "SubscribeURL") ==>
              HandleWebhook(db, cfg, body, parse, parseId).result.value["status"] == "confirmation_required"
  {
  }

  /**
   * Where the job is read from: the text of the notification's "Message"
   * when there is one, otherwise the notification itself.
   */
  lemma JobReadFromMessage(sns: Json, body: string, parse: string -> Result<Json>, parseId: string -> Result<Id>)
    requires parse(body) == Ok(sns)
    ensures var r := Interpret(sns, body, parse, parseId);
            Has(sns, "Message") && r.Ok? ==>
              parse(AsText(sns.fields["Message"])).Ok? &&
              ExtractJobId(parse(AsText(sns.fields["Message"])).value) == Ok(r.value.jobId)
    ensures var r := Interpret(sns, body, parse, parseId);
            !Has(sns, "Message") && r.Ok? ==> ExtractJobId(sns) == Ok(r.value.jobId)
  {
  }

  /** The job notification a body carries, when it is not a subscription confirmation. */
  predicate CarriesMessage(body: string, parse: string -> Result<Json>, m: Json) {
    parse(body).Ok? && !IsConfirmation(parse(body).value) && parse(MessageContent(parse(body).value, body)) == Ok(m)
  }

  /**
   * A notification that a job is still in progress (any status other than
   * COMPLETE, ERROR or CANCELED) is answered with success and marks the
   * video FAILED, with no error text.
   */
  lemma ProgressNotificationMarksFailed(db: Db, cfg: StorageConfig, body: string, parse: string -> Result<Json>,
                                        parseId: string -> Result<Id>, m: Json, videoId: Id)
    requires CarriesMessage(body, parse, m)
    requires ExtractJobId(m).Ok? && ExtractVideoId(m, parseId) == Ok(videoId) && videoId < |db.videos|
    requires WebhookStatus(ExtractStatus(m)) == MediaConvert.Processing
    ensures var o := HandleWebhook(db, cfg, body, parse, parseId);
            o.result.value["status"] == "success" &&
            o.db.videos[videoId].processingStatus == Videos.Failed && o.db.videos[videoId].processingError.None?
  {
    var job := Interpret(parse(body).value, body, parse, parseId);
    assert job.Ok? && job.value.videoId == videoId;
  }

  /**
   * A COMPLETE notification makes the video READY with a duration of 0
   * seconds, and so never adds the video to its section's totals.
   */
  lemma CompletionNotificationZeroesDuration(db: Db, cfg: StorageConfig, body: string, parse: string -> Result<Json>,
                                             parseId: string -> Result<Id>, m: Json, videoId: Id)
    requires CarriesMessage(body, parse, m)
    requires ExtractJobId(m).Ok? && ExtractVideoId(m, parseId) == Ok(videoId) && videoId < |db.videos|
    requires WebhookStatus(ExtractStatus(m)) == MediaConvert.Complete && ExtractOutputUrls(m).Ok?
    requires VideoService.QualityUrls(cfg, ExtractOutputUrls(m).value).Ok?
    ensures var o := HandleWebhook(db, cfg, body, parse, parseId);
            o.result.value["status"] == "success" &&
            o.db.videos[videoId].processingStatus == Videos.Ready && o.db.videos[videoId].durationSeconds == 0 &&
            o.db.sections == db.sections
  {
    var job := Interpret(parse(body).value, body, parse, parseId);
    assert job.Ok? && job.value.videoId == videoId;
  }

  /** A notification without a job id is answered with an error body and changes nothing. */
  lemma MissingJobIdAnswered(db: Db, cfg: StorageConfig, body: string, parse: string -> Result<Json>,
                             parseId: string -> Result<Id>, m: Json)
    requires CarriesMessage(body, parse, m)
    requires !Has(m, "jobId") && !HasPath(m, "detail", "jobId") && !HasPath(m, "job", "id")
    ensures HandleWebhook(db, cfg, body, parse, parseId) ==
            Outcome(db, Ok(map["status" := "error",
                               "message" := "Failed to process webhook: " + "Job ID not found in webhook message"]))
  {
    MissingJobIdFails(db, cfg, body, parse, parseId, m);
    assert JobIdMissing.MessageText() == "Job ID not found in webhook message";
  }

  /** Without a job id, processing fails with that error and changes nothing. */
  lemma MissingJobIdFails(db: Db, cfg: StorageConfig, body: string, parse: string -> Result<Json>,
                          parseId: string -> Result<Id>, m: Json)
    requires CarriesMessage(body, parse, m)
    requires !Has(m, "jobId") && !HasPath(m, "detail", "jobId") && !HasPath(m, "job", "id")
    ensures Process(db, cfg, body, parse, parseId) == Outcome(db, Err(JobIdMissing))
  {
    assert Interpret(parse(body).value, body, parse, parseId) == Err(JobIdMissing);
  }

  /** On the upper-case names AWS uses, the webhook reads a status as polling does. */
  lemma WebhookAgreesWithPolling(status: string)
    requires status in {"COMPLETE", "ERROR", "CANCELED", "SUBMITTED", "PROGRESSING"}
    ensures WebhookStatus(status) == MediaConvert.MapJobStatus(status)
  {
  }

  /**
   * Elsewhere they differ: the webhook ignores case and reads an unknown
   * status as PROCESSING, polling reads both as SUBMITTED.
   */
  lemma WebhookDiffersFromPolling()
    ensures WebhookStatus("complete") == MediaConvert.Complete && MediaConvert.MapJobStatus("complete") == MediaConvert.Submitted
    ensures WebhookStatus("UNKNOWN") == MediaConvert.Processing && MediaConvert.MapJobStatus("UNKNOWN") == MediaConvert.Submitted
  {
  }
}

=== FILE: wrappers.dfy ===
/**
 * Shared building blocks: optional values, the exception kinds the backend
 * raises, and a result type that carries either a value or such an exception.
 */
module Wrappers {

  datatype Option<T> = None | Some(value: T) {
    function UnwrapOr(default: T): T {
      match this
      case Some(v) => v
      case None => default
    }
  }

  /**
   * The exceptions of the backend that decide an HTTP answer.
   * `ResourceNotFound`, `IllegalArgument`, `IllegalState`, `BadCredentials` and
   * `Runtime` are unchecked (they extend RuntimeException); `ValidationFailed`
   * (bean validation of a request body) and `Checked` are not.
   * `Runtime(None)` stands for an unchecked exception without a message, such
   * as a NullPointerException.
   */
  datatype Exception =
    | ResourceNotFound(resource: string, field: string, value: string)
    | IllegalArgument(message: string)
    | IllegalState(message: string)
    | BadCredentials(message: string)
    | Runtime(text: Option<string>)
    | ValidationFailed
    | Checked(text: Option<string>)
  {
    /** `getMessage()`; None when the exception carries no message. */
    function Message(): Option<string> {
      match this
      case ResourceNotFound(r, f, v) => Some(r + " not found with " + f + ": '" + v + "'")
      case IllegalArgument(m) => Some(m)
      case IllegalState(m) => Some(m)
      case BadCredentials(m) => Some(m)
      case Runtime(t) => t
      case ValidationFailed => Some("Validation failed")
      case Checked(t) => t
    }

    /** Java's string concatenation of a possibly-null message. */
    function MessageText(): string {
      Message().UnwrapOr("null")
    }

    predicate IsRuntime() {
      !ValidationFailed? && !Checked?
    }
  }

  /** A missing row in a single-result query that matched several rows. */
  const NonUniqueResult: Exception := Runtime(Some("query did not return a unique result"))

  /** An unboxing or dereference of null. */
  const NullPointer: Exception := Runtime(None)

  datatype Result<T> = Ok(value: T) | Err(error: Exception) {
    predicate IsFailure() {
      Err?
    }

    function PropagateFailure<U>(): Result<U>
      requires Err?
    {
      Err(error)
    }

    function Extract(): T
      requires Ok?
    {
      value
    }
  }
}

/** Identifiers, instants and amounts as the model represents them. */
module Common {
  /** A row identifier: the row's position in its table. */
  type Id = nat

  /** An instant, in seconds on a single local clock. */
  type Time = int

  /** An amount of money in cents (a BigDecimal with two decimals). */
  type Cents = int

  function MinutesToSeconds(m: int): int {
    60 * m
  }
}
